=== FILE: README.md ===
# flext template analysis, in Dafny

flext renders Handlebars templates and reads structure out of them. This
project models its analysis core (`src/lib/index.ts`), the older copy of it
(`src/lib.ts`), and three of its helper modules (`match`, `put` and `array`).
The analysis core does five things:

- It collects the path expressions a template reads and merges them into a
  data-model tree, one node per dotted segment (`PathTrie`, `Paths`).
- It reads the `@name params…` directive comments of a template into macros
  (`Directives`).
- It compiles `@field` and `@option` macros into field and value-option
  records, then attaches the options and the directive order to the fields
  (`Fields`).
- It turns the data-model tree into a metadata tree. Each node carries the
  attributes of its field, and siblings are ordered by `order` and then by
  directive position (`Ordering`, `Metadata`).
- It checks template data against that metadata tree (`Validator`).

Handlebars syntax trees are replaced by what the collectors take from them:
the list of path expressions and the list of comment texts, both in template
order. JavaScript values are the small `JsValue.Value` type. JavaScript
exceptions are the `Err` side of `Base.Result`: `PotentialLoopError` is
`PotentialLoop`, each `BaseWarning` is the failure it names, and a property
read on `null`/`undefined` is `TypeError`.

## Model

| member | source | states |
|---|---|---|
| JsValue.InArr | src/lib/index.ts:125-127 | `inarr` holds exactly when the value is equal by value to one of the listed values; the core passes only primitives, and objects are discussed at MatchHelper.CaseStep under "Left out" |
| JsValue.IsSet | src/lib/index.ts:133-135 | `isset` is false exactly for `null` and `undefined` |
| JsValue.Coalesce | src/modules/put/index.ts:17 | `a ?? b` keeps a set left operand and otherwise yields the right one |
| JsValue.Lookup | src/lib/index.ts:542 | reading a property throws exactly on `null`/`undefined`; on an object, a missing key reads `undefined`; an array's `length` is its element count and a string's `length` its count of UTF-16 code units |
| JsValue.LookupBmpIndex | src/modules/array/index.ts:24 | on a string without astral characters an index reads the character it numbers, and an index past the end reads `undefined` |
| Text.CodeUnitAt | src/modules/array/index.ts:24 | a UTF-16 code unit of a string belongs to one of its characters, and it is half of a surrogate pair exactly when that character is astral |
| Text.CodeUnitAtOfBmp | src/modules/array/index.ts:24 | without astral characters, code unit `k` is character `k` |
| Text.CodeUnitAfterAstral | src/modules/array/index.ts:24 | an astral character shifts the code units after it by two |
| JsValue.NumberOfIntToString | src/lib/index.ts:555-563 | the numeric reading of the decimal text of any integer is that integer |
| Text.TrimIdempotent | src/lib/index.ts:454 | trimming twice is trimming once |
| Text.TrimKeepsInner | src/lib/index.ts:454 | a text with no surrounding white space is left unchanged by trimming |
| Text.JoinSplit | src/lib/index.ts:211-219 | joining the pieces of `split(sep)` with `sep` gives back the original text |
| Text.SplitJoin | src/lib/index.ts:211-219 | splitting the join of separator-free pieces gives back exactly those pieces |
| Text.SplitConcat | src/modules/array/index.ts:15 | splitting `a.b` is splitting `a` followed by splitting `b` |
| Paths.Unique | src/lib/index.ts:192-194 | `unique` keeps exactly the values of its input, each once |
| Paths.UniqueKeepsFirstSeenOrder | src/lib/index.ts:192-194 | `unique` lists values in the order of their first occurrences |
| Paths.CollectPaths | src/lib/index.ts:89-112 | `getPaths` yields each path expression once, except the `if`/`unless`/`each`/`with` keywords |
| Paths.DropKeepsFirstSeenOrder | src/lib/index.ts:89-112 | leaving out the keywords keeps the order in which the other expressions first appear |
| Paths.CollectPathsKeepsFirstSeenOrder | src/lib/index.ts:89-112 | `getPaths` lists the paths in the order of their first appearance in the template |
| PathTrie.PathToNodeIsChain | src/lib/index.ts:201-223 | `pathToDataModelNode` throws the potential-loop error exactly when the path has more dotted segments than the depth budget; otherwise it yields the linear chain of the segments |
| PathTrie.ChainShape | src/lib/index.ts:201-223 | the node built from a path is a single branch whose names spell out the path segments in order |
| PathTrie.AddPathSpec | src/lib/index.ts:232-272 | `addPath` fails exactly on the depth guard; otherwise the old tree survives inside the new one, sibling names stay distinct, and the first 99 segments of the path can be walked from the root |
| PathTrie.GraftOfPresentPathIsNoop | src/lib/index.ts:240-271 | grafting a path already present in the tree changes nothing |
| PathTrie.AddPathIdempotent | src/lib/index.ts:232-272 | adding the same path twice is adding it once |
| PathTrie.AddLaterPathsSkipsScoped | src/lib/index.ts:285-292 | the `getDataModel` loop adds exactly the later paths that do not start with `.`, `/`, `@` or `this` |
| PathTrie.GetDataModelSpec | src/lib/index.ts:278-296 | `getDataModel` fails only when an accepted path exceeds the default depth of 10; its tree is exactly the merge of the accepted paths: every accepted path can be walked, nothing else can, and sibling names are distinct |
| Directives.MatchMacroSplits | src/lib/index.ts:915 | a directive `@name params` is `@`, the name, one space and the params; it splits at the first space after the name's first character, so only that first character can be a space, and both parts are non-empty |
| Directives.MatchMacroText | src/lib/index.ts:915 | matching a directive built from a name and parameters gives back that name and those parameters |
| Directives.TokensShape | src/lib/index.ts:916 | the parameter scanner yields only quoted, named-quoted or alphanumeric tokens |
| Directives.ClassifyScannedToken | src/lib/index.ts:390-424 | `getMacroParam` reads a quoted token as name and value, a named token as its name and quoted value, a letters-only word as a bare name, and refuses exactly the words that hold a digit |
| Directives.ParseTokensSpec | src/lib/index.ts:426-444 | `getMacroParams` drops refused tokens without `doWarn`; with it, it fails exactly when some token is refused, naming the first one |
| Directives.CollectDirectiveComments | src/lib/index.ts:923-926 | the macro collector keeps exactly the comments whose trimmed text matches the directive pattern |
| Directives.GetMacrosSpec | src/lib/index.ts:446-478 | `getMacros` never returns `null` and never reports a bad directive; its result is the macro list of the collected directives, and it fails only with `doWarn` on a refused token |
| Directives.UnquotedValueRefused | src/lib/index.ts:426-444 | `min=1` is a bad token with `doWarn` and a bare `min` parameter without it |
| Directives.TokenEndOfWritten | src/lib/index.ts:916 | a parameter written as `"v"`, `k="v"` or a bare letters-only word, followed by a space or the end of the text, is exactly the token the scanner takes there |
| Directives.TokensOfJoined | src/lib/index.ts:916 | written parameters joined by single spaces scan to exactly their texts, in order |
| Directives.ClassifyWritten | src/lib/index.ts:390-424 | `getMacroParam` reads `"v"` as name and value `v`, `k="v"` as name `k` with value `v`, and a bare word as a name without a value |
| Directives.ParseParamsOfWritten | src/lib/index.ts:426-444 | parameters written as `"v"`, `k="v"` or bare letters-only words (alphanumeric names; non-empty values without `"` or a line break) and joined by single spaces scan to exactly their texts and parse back to exactly those parameters, with or without `doWarn` |
| Legacy.CollectPaths | src/lib.ts:146-149 | the older `getPaths` yields each path expression once, keywords included |
| Legacy.GetDataModelSpec | src/lib.ts:227-239 | the older `getDataModel` fails only on the depth guard, and its tree is exactly the merge of every distinct path expression |
| Legacy.AgreesWithoutKeywordsOrScopes | src/lib.ts:227-239 | on templates without keyword or scoped paths the older and newer data models are equal |
| Legacy.GetMacrosAgrees | src/lib.ts:297-329 | the older `getMacros` gives the same macros and failures as the newer one on every template |
| Legacy.UnreadableDirectiveLoops | src/lib.ts:304-316 | on a comment that does not match, the older loop records a nameless macro where the newer one gives up with `null` |
| Fields.EnsureFieldName | src/lib/index.ts:683-699 | a name without brackets is only trimmed; a name with `[` gets shorter |
| Fields.EnsureFieldNameKeepsCleanNames | src/lib/index.ts:683-699 | a trimmed name without brackets is kept as it is |
| Fields.EnsureFieldNameDropsIndexBrackets | src/lib/index.ts:683-699 | an index written in brackets loses both brackets, so `a[0]` names the field `a0` |
| Fields.EnsureFieldNameDropsFirstBrackets | src/lib/index.ts:683-699 | only the first `[` and the first `]` go and the rest is trimmed, so later brackets stay: `a[0][1]` names the field `a0[1]` |
| Fields.EnsureFieldNameDropsCloseBeforeOpen | src/lib/index.ts:683-699 | a `]` before the first `[` is the `]` removed: `a]b[c` names the field `abc` |
| Fields.EnsureFieldNameDropsLoneOpen | src/lib/index.ts:683-699 | a `[` with no `]` anywhere is removed on its own |
| Fields.EnsureFieldNameDropsLoneClose | src/lib/index.ts:683-699 | a `]` with no `[` anywhere is removed on its own |
| Fields.FieldValueAsWrittenKeepsNumberText | src/lib/index.ts:721-735 | as written, the decimal text of any integer (`value="42"`) stays text, where the corrected reading gives the integer |
| Fields.FieldValueReadsScalars | src/lib/index.ts:721-735 | corrected `ensureFieldValue` reads back the JSON text of `null`, any boolean or any integer as that value |
| Fields.FieldValueKeepsWords | src/lib/index.ts:721-735 | corrected `ensureFieldValue` keeps a text that is not JSON as text |
| Fields.MacroToField | src/lib/index.ts:761-828 | `macroToField` fails exactly when the first parameter has no or an empty value; the field keeps the macro name and starts without options or absolute order; its type is `"string"` unless `type` is given; a `value` text is kept as that text, a bare `value` flag is `true` and no `value` is `null`; the name is the cleaned first value; it is required exactly when `required` is given; its `order` is the number read from `order`, and none without it |
| Fields.MacroToFieldRoundTrip | src/lib/index.ts:761-828 | compiling the directive written out for any field whose value is `null`, `true` or a non-empty text gives back that field |
| Fields.MacroToFieldCorrected | src/lib/index.ts:721-735 | with `ensureFieldValue` reading JSON as intended, a directive compiles when and as `macroToField` compiles it, except that its `value` is the JSON reading of the text |
| Fields.MacroToFieldCorrectedRoundTrip | src/lib/index.ts:761-828 | with the intended JSON reading, compiling the directive written out for any field with a `null`, boolean or integer value gives back that field |
| Fields.MacroToOption | src/lib/index.ts:830-878 | `macroToFieldValueOption` fails exactly when the option name is missing or empty or `for` is not given; a compiled option always names a field; its type is `"string"` unless `type` is given; a `value` text is kept as that text, a bare flag is `true` and no `value` is `null`; the option's field is the `for` value, and it is disabled exactly when `disabled` is given |
| Fields.MacroToOptionRoundTrip | src/lib/index.ts:830-878 | compiling the directive written out for any option whose value is `null`, `true` or a non-empty text gives back that option |
| Fields.MacroToOptionCorrected | src/lib/index.ts:721-735 | with the intended JSON reading, an option directive compiles when and as `macroToFieldValueOption` compiles it, except that its `value` is the JSON reading of the text |
| Fields.MacroToOptionCorrectedRoundTrip | src/lib/index.ts:830-878 | with the intended JSON reading, compiling the directive written out for any option with a `null`, boolean or integer value gives back that option |
| Fields.ApplyValueOptions | src/lib/index.ts:880-894 | every field keeps everything but its options; a field named by some option gets exactly the options whose `for` is its name, and any other field is unchanged, options it already had included |
| Fields.ApplyValueOptionsSpec | src/lib/index.ts:880-894 | a field gets the option list naming it when one exists and otherwise is left as it is, existing options included |
| Fields.ApplyValueOptionsIdempotent | src/lib/index.ts:880-894 | attaching the options twice is attaching them once |
| Fields.ApplyAbsoluteOrder | src/lib/index.ts:896-903 | every field gets its list position as absolute order and nothing else changes |
| Fields.ApplyAbsoluteOrderIdempotent | src/lib/index.ts:896-903 | numbering the fields twice is numbering them once |
| Ordering.Compare | src/lib/index.ts:745-754 | `compare` is zero exactly for equal orders, `null` included |
| Ordering.CompareIsNullLast | src/lib/index.ts:745-754 | `compare` puts numbers ascending and `null` after every number, and swapping its arguments negates it |
| Ordering.KeyLeIsTotalOrder | src/lib/index.ts:354-357 | comparing by `order`, then by absolute order, is a total order on sort keys |
| Ordering.SortByIsStableSort | src/lib/index.ts:344-358 | the sibling sort yields a sorted list, and siblings of equal key keep their relative order |
| Ordering.SortByPermutes | src/lib/index.ts:344-358 | the sibling sort neither drops nor duplicates a sibling: its output is a permutation of its input |
| Ordering.StableSortIsSortBy | src/lib/index.ts:344-358 | any sorted list that keeps the relative order of equal keys is the sibling sort's result |
| Ordering.SortByKeepsEqualKeys | src/lib/index.ts:344-358 | siblings with one common key keep their order |
| Metadata.FindField | src/lib/index.ts:308 | `getField` finds nothing exactly when no field has the name, and otherwise the first field that has it |
| Metadata.MetadataOkIffFits | src/lib/index.ts:298-303 | `dataModelNodeToMetadata` succeeds exactly when the tree's height is within the depth budget, and fails only with the potential-loop error |
| Metadata.DepthIrrelevant | src/lib/index.ts:298-339 | any budget at least the tree's height gives the same metadata |
| Metadata.MetadataAttributes | src/lib/index.ts:313-367 | a node keeps its name and resolved field name; it is `object` exactly when it has children or its field says so; it copies its field's attributes, or has none without a field (no label, hint, order, options, bounds or length bounds); without a field it is required exactly when it has children and all of them are |
| Metadata.MetadataChildren | src/lib/index.ts:331-358 | one child per data-model child, each named after it and looked up by the dotted field name, sorted by the sibling key, with equal keys in data-model order |
| Metadata.UnorderedFieldsKeepModelOrder | src/lib/index.ts:344-358 | without any `order` or absolute order the children keep data-model order |
| Validator.ValidateOkWhenShallow | src/lib/index.ts:512-593 | validation of readable data never throws when the depth budget exceeds the model height |
| Validator.ValidateFailures | src/lib/index.ts:512-593 | validation throws only the potential-loop error, when the model is as deep as the budget, or a type error, when the data is `null`/`undefined` |
| Validator.FailingNodeSkipsChildren | src/lib/index.ts:547-586 | a node that fails a check yields exactly that one issue and its children are not visited |
| Validator.PassingNodeVisitsChildren | src/lib/index.ts:589 | a node that passes every check contributes exactly the issues of its children against its own value, or against `{}` when it has none |
| Validator.IssuesNameModelFields | src/lib/index.ts:531-589 | every issue names a field of the model |
| Validator.IssuesAtMostNodes | src/lib/index.ts:536-590 | there are never more issues than model nodes |
| Validator.MissingRequiredReported | src/lib/index.ts:547-550 | a required top-level field without a value is always reported as required |
| Validator.IsVal | src/lib/index.ts:527 | `isval` is false exactly for `''`, `null` and `undefined`; `0` and `false` are values |
| Validator.Len | src/lib/index.ts:529 | `len` counts UTF-16 code units of `String(v)`: at least one and at most two per character |
| Validator.ViolatedRequiredIff | src/lib/index.ts:547-550 | a node fails with `Required` exactly when it is required and its value is not a value in the sense of `isval` |
| Validator.VisitedMissingRequiredReported | src/lib/index.ts:536-590 | every required node the validation reaches, at any depth, whose value is `''`, `null` or `undefined` is reported as required |
| Validator.RequiredIssueHasMissingNode | src/lib/index.ts:536-590 | every required-field issue comes from a reached required node whose value is `''`, `null` or `undefined`, so a field holding `0` or `false` is never reported missing |
| Text.Utf16Length | src/lib/index.ts:529 | a string's `length` lies between its character count and twice that |
| Text.Utf16LengthIsCountIff | src/lib/index.ts:529 | `length` equals the character count exactly when no character lies outside the Basic Multilingual Plane |
| Text.Utf16LengthOfConcat | src/lib/index.ts:529 | the `length` of a concatenation is the sum of the lengths |
| MatchHelper.CaseStep | src/modules/match/index.ts:22-38 | a case renders its body exactly when no earlier case completed and the stored value equals one of its arguments, and it completes the block then; objects and arrays are compared by value, not by reference |
| MatchHelper.RenderBlockIsFirstMatch | src/modules/match/index.ts:6-45 | a match block renders exactly the body of its first accepting case or fallback, and nothing when none accepts |
| MatchHelper.FallbackRendersIffNoEarlierCase | src/modules/match/index.ts:40-45 | a fallback renders exactly when no case before it accepts the value |
| MatchHelper.BlocksAreIsolated | src/modules/match/index.ts:15-16 | each match block renders the same whatever blocks came before it |
| MatchHelper.FirstOfEqualCasesWins | src/modules/match/index.ts:31-34 | of two cases on the same value only the first renders |
| PutHelper.Put | src/modules/put/index.ts:13-18 | `put` yields the value if set, else the fallback if set, else the empty string |
| PutHelper.Color | src/modules/put/index.ts:22 | the colour is always set: a named `color` argument that is neither null nor undefined overrides the default, and an absent, null or undefined one falls back to `text-blue-500` |
| PutHelper.PutWithColorShowsValue | src/modules/put/index.ts:20-28 | corrected `putWithColor` shows the value: a truthy colour wraps it in a span from which colour and value read back, and a falsy colour prints the value alone |
| PutHelper.EmptyColorPrintsOptionsObject | src/modules/put/index.ts:24-27 | as written, `put "Paris" color=""` prints `[object Object]`; the corrected helper prints `Paris` |
| PutHelper.PutWithColorAsWritten | src/modules/put/index.ts:20-28 | `putWithColor` as written: with a truthy colour, given or defaulted, it prints exactly what the corrected helper prints, and with a falsy colour it prints the options object `[object Object]` |
| PutHelper.PutWithColorAsWrittenShowsValue | src/modules/put/index.ts:20-25 | as written, a truthy colour wraps the value in a span from which colour and value read back |
| PutHelper.SetValueIsPrinted | src/modules/put/index.ts:17-25 | as written and corrected alike, any set value, zero included, is printed inside the default colour and the fallback is ignored |
| ArrayHelper.PathSteps | src/modules/array/index.ts:15 | a string property path splits at dots, a missing one means no steps, and anything else throws |
| ArrayHelper.Elements | src/modules/array/index.ts:21 | `for..of` walks the items of an array or the characters of a string and throws on anything else |
| ArrayHelper.WalkLoop | src/modules/array/index.ts:24 | the cursor loop yields the value reached by following every step, or the type error of reading through `null`/`undefined` |
| ArrayHelper.DestructLoop | src/modules/array/index.ts:14-31 | `destruct` succeeds exactly when every element can be walked, and then yields, element by element, the value at the path |
| ArrayHelper.Op | src/modules/array/index.ts:36-43 | `check` tells whether the argument is an array, and an unknown operation name is returned as it is |
| ArrayHelper.Check | src/modules/array/index.ts:53-58 | the `check` helper yields whether its argument is an array |
| ArrayHelper.DestructSpec | src/modules/array/index.ts:46-51 | destructuring an array by a path yields, element by element, the value at that path |
| ArrayHelper.DestructWithoutPath | src/modules/array/index.ts:15 | without a path every element is kept as it is |
| ArrayHelper.DestructComposes | src/modules/array/index.ts:14-31 | destructuring by `p.q` is destructuring by `p` and then by `q` |

## Left out

- The Handlebars parser, the visitor classes and `getAst`/`getTemplate`/`getHtml`: templates enter as the lists of path expressions and comment texts the collectors produce.
- `getCss` and UnoCSS, `stripHtml`, `ensureTitle` and `getHtmlH1`: presentation only, built on foreign libraries.
- The `src/index.ts` facade class, `defineModule`, `audit`, error message texts and the `date`, `math`, `number`, `media` and `cond` modules: outside the analysis core.
- `ensureDate`, and with it date ranges in the validator: dates are not part of the value type.
- `macroToModuleNames`: module loading is not part of this model.
- Fields.FieldValue: the corrected `JSON.parse` reads `null`, booleans, integers and escape-free strings; JSON objects, arrays, fractions and escapes are kept as text.
- Fields.MacroToField: `min` and `max` hold the integer reading of their text, `true` for a bare flag counting as 1; the source keeps the raw text, so the validator's text-against-text comparisons and non-integer bounds are not modelled.
- Fields.MacroToField: an `order` that is not a number (`NaN` in the source) is no order at all.
- JsValue.NumberOfText: only integers are read; fractions, exponents, hexadecimal and `Infinity` are out of scope.
- Metadata.MetadataAttributes: a leaf without a field is not required (`false`), where the source yields the falsy `0`.
- Validator.ValidateFailures: the validation error class and its message are reduced to the violation kind and the field name.
- MatchHelper.RenderBlockIsFirstMatch: nested match blocks and body text that itself calls helpers are out of scope; bodies are plain text.
- PutHelper.PutWithColorShowsValue: `SafeString` does no escaping and neither does the model; the read-back is stated for colours without a double quote.
- PathTrie.GetDataModelSpec: for a template with no path at all the model returns `root` with no children, while the source (src/lib/index.ts:213) builds `root` with one child whose name is `undefined`; the model has no `undefined` segment name.
- Legacy.GetDataModelSpec: the same holds for the older copy (src/lib.ts:161): the model returns `root` with no children where the source gives it one child named `undefined`.
- MatchHelper.CaseStep: the stored value is compared with the case arguments by structural equality; `===` compares objects and arrays by reference, so two equal but distinct objects match in the model and not in the source.
- JsValue.Lookup: a string index that falls on one half of a surrogate pair reads the whole astral character, because a lone surrogate is not a Dafny character; inherited properties such as `constructor` read `undefined`, since prototypes are not modelled.
- Validator.Len: Dafny characters are Unicode scalar values, so a string holding a lone surrogate, which JavaScript allows, is not modelled.
- `getPaths` is modelled on the order the visitor meets path expressions; the visitor's traversal order itself is not.

## Findings

| source | as written | input that shows it | evidently intended | confidence | as-written member | corrected member |
|---|---|---|---|---|---|---|
| src/lib/index.ts:721-735 | `ensureFieldValue` parses JSON only when the value is not a string, so a directive value, which is always a string, is never parsed | `@field x value="42"` gives the text `"42"` | a string value is parsed as JSON and kept as text when it does not parse | medium, not executed | Fields.FieldValueAsWrittenKeepsNumberText | Fields.FieldValueReadsScalars |
| src/modules/put/index.ts:20-28 | with a falsy colour `putWithColor` returns `new SafeString(state)`, the helper's options object | `{{put "Paris" color=""}}` prints `[object Object]` | a falsy colour prints the value without a span | high, not executed | PutHelper.EmptyColorPrintsOptionsObject | PutHelper.PutWithColorShowsValue |

=== FILE: array.dfy ===
/** The `array` helper module (src/modules/array/index.ts): `op` dispatches on
    its first argument; `destruct` projects every element of a list along a
    dotted property path, `check` tells whether its argument is an array, and
    any other operation name is returned as it is. */
module ArrayHelper {
  import opened Base
  import opened Text
  import opened JsValue

  /** `prop?.split('.') ?? []`: a missing path is no step at all; calling
      `split` on anything but a string throws. */
  function PathSteps(prop: Value): (r: Result<seq<string>>)
    ensures r.Err? <==> !(prop.Str? || prop.Null? || prop.Undefined?)
    ensures prop.Str? ==> r == Ok(Split(prop.s, '.'))
    ensures prop.Null? || prop.Undefined? ==> r == Ok([])
  {
    match prop
    case Str(s) => Ok(Split(s, '.'))
    case Null => Ok([])
    case Undefined => Ok([])
    case _ => Err(TypeError)
  }

  /** What `for (const x of v)` visits: the items of an array, the characters of
      a string; anything else is not iterable. */
  function Elements(v: Value): (r: Result<seq<Value>>)
    ensures r.Err? <==> !(v.Arr? || v.Str?)
    ensures v.Arr? ==> r == Ok(v.items)
    ensures v.Str? ==> r.Ok? && |r.value| == |v.s| && forall i :: 0 <= i < |v.s| ==> r.value[i] == Str([v.s[i]])
  {
    match v
    case Arr(items) => Ok(items)
    case Str(s) => Ok(seq(|s|, i requires 0 <= i < |s| => Str([s[i]])))
    case _ => Err(TypeError)
  }

  /** Reference: following the steps left to right from `v`. */
  function Walk(v: Value, steps: seq<string>): (r: Result<Value>)
    ensures r.Err? ==> r.error == TypeError
    decreases |steps|
  {
    if |steps| == 0 then Ok(v)
    else
      match Lookup(v, steps[0])
      case Err(e) => Err(e)
      case Ok(w) => Walk(w, steps[1..])
  }

  /** Reference: every element walked, in order; the first failure aborts. */
  function Project(objs: seq<Value>, steps: seq<string>): (r: Result<seq<Value>>)
    ensures r.Ok? <==> forall i :: 0 <= i < |objs| ==> Walk(objs[i], steps).Ok?
    ensures r.Ok? ==> |r.value| == |objs| && forall i :: 0 <= i < |objs| ==> Walk(objs[i], steps) == Ok(r.value[i])
    ensures r.Err? ==> r.error == TypeError
  {
    if |objs| == 0 then Ok([])
    else
      match Walk(objs[0], steps)
      case Err(e) => Err(e)
      case Ok(w) =>
        match Project(objs[1..], steps)
        case Err(e) => Err(e)
        case Ok(ws) =>
          assert forall i :: 1 <= i < |objs| ==> objs[i] == objs[1..][i - 1];
          Ok([w] + ws)
  }

  /** The inner loop of `destruct`: `cursor = cursor[item]` for every item. */
  method WalkLoop(obj: Value, steps: seq<string>) returns (r: Result<Value>)
    ensures r == Walk(obj, steps)
  {
    var cursor := obj;
    var j := 0;
    while j < |steps|
      invariant 0 <= j <= |steps|
      invariant Walk(obj, steps) == Walk(cursor, steps[j..])
    {
      assert steps[j..][1..] == steps[j + 1..];
      match Lookup(cursor, steps[j])
      case Err(e) =>
        return Err(e);
      case Ok(w) =>
        cursor := w;
      j := j + 1;
    }
    assert steps[j..] == [];
    return Ok(cursor);
  }

  /** The outer loop of `destruct`: one entry per element, in order. */
  method DestructLoop(objs: seq<Value>, steps: seq<string>) returns (r: Result<seq<Value>>)
    ensures r.Ok? <==> forall i :: 0 <= i < |objs| ==> Walk(objs[i], steps).Ok?
    ensures r.Ok? ==> |r.value| == |objs| && forall i :: 0 <= i < |objs| ==> Walk(objs[i], steps) == Ok(r.value[i])
  {
    var result: seq<Value> := [];
    var i := 0;
    while i < |objs|
      invariant 0 <= i <= |objs|
      invariant |result| == i
      invariant forall k :: 0 <= k < i ==> Walk(objs[k], steps) == Ok(result[k])
    {
      var w := WalkLoop(objs[i], steps);
      if w.Err? {
        return Err(w.error);
      }
      result := result + [w.value];
      i := i + 1;
    }
    return Ok(result);
  }

  /** `destruct(arr, prop)`. */
  function Destruct(arr: Value, prop: Value): Result<Value> {
    match PathSteps(prop)
    case Err(e) => Err(e)
    case Ok(steps) =>
      match Elements(arr)
      case Err(e) => Err(e)
      case Ok(objs) =>
        match Project(objs, steps)
        case Err(e) => Err(e)
        case Ok(ws) => Ok(Arr(ws))
  }

  /** `op(name, arr, prop)`. */
  function Op(name: Value, arr: Value, prop: Value): (r: Result<Value>)
    ensures name == Str("check") ==> r == Ok(Bool(arr.Arr?))
    ensures name != Str("destruct") && name != Str("check") ==> r == Ok(name)
  {
    if name == Str("destruct") then Destruct(arr, prop)
    else if name == Str("check") then Ok(Bool(arr.Arr?))
    else Ok(name)
  }

  /** The `check` helper. */
  function Check(arr: Value): (r: Result<Value>)
    ensures r == Ok(Bool(arr.Arr?))
  {
    Op(Str("check"), arr, Undefined)
  }

  // ----- properties -----

  /** `destruct` over an array: one entry per element, in order, each reached
      by following the dotted path; it fails exactly when some walk fails. */
  lemma DestructSpec(items: seq<Value>, path: string)
    ensures var r := Op(Str("destruct"), Arr(items), Str(path));
      && (r.Ok? <==> forall i :: 0 <= i < |items| ==> Walk(items[i], Split(path, '.')).Ok?)
      && (r.Ok? ==>
            && r.value.Arr? && |r.value.items| == |items|
            && forall i :: 0 <= i < |items| ==> Walk(items[i], Split(path, '.')) == Ok(r.value.items[i]))
  {
  }

  /** Without a path every entry is the element itself. */
  lemma DestructWithoutPath(items: seq<Value>)
    ensures Op(Str("destruct"), Arr(items), Undefined) == Ok(Arr(items))
  {
    var r := Project(items, []);
    assert r.Ok?;
    assert r.value == items;
  }

  lemma {:induction false} WalkAppend(v: Value, a: seq<string>, b: seq<string>)
    ensures Walk(v, a + b) == (match Walk(v, a) case Err(e) => Err(e) case Ok(w) => Walk(w, b))
    decreases |a|
  {
    if |a| > 0 {
      assert (a + b)[0] == a[0];
      assert (a + b)[1..] == a[1..] + b;
      match Lookup(v, a[0])
      case Err(_) =>
      case Ok(w) => WalkAppend(w, a[1..], b);
    } else {
      assert a + b == b;
    }
  }

  /** Projecting along `p.q` is projecting along `p`, then along `q`. */
  lemma DestructComposes(items: seq<Value>, p: string, q: string)
    requires Destruct(Arr(items), Str(p)).Ok?
    ensures Destruct(Arr(items), Str(p + "." + q)) == Destruct(Destruct(Arr(items), Str(p)).value, Str(q))
  {
    SplitConcat(p, q, '.');
    assert p + "." + q == p + ['.'] + q;
    var sp, sq := Split(p, '.'), Split(q, '.');
    var mid := Destruct(Arr(items), Str(p)).value.items;
    forall i | 0 <= i < |items|
      ensures Walk(items[i], sp + sq) == Walk(mid[i], sq)
    {
      WalkAppend(items[i], sp, sq);
    }
    var lhs := Project(items, sp + sq);
    var rhs := Project(mid, sq);
    if lhs.Ok? && rhs.Ok? {
      assert lhs.value == rhs.value;
    }
  }
}

=== FILE: base.dfy ===
/** Failure-compatible wrappers shared by every module of the model, and the
    failures the data-model engine can raise (src/errors.ts). */
module Base {

  /** Conventional optional value; `None` stands for JavaScript's `null`/`undefined`
      wherever the source uses them as "not set". */
  datatype Option<+T> = None | Some(value: T) {
    predicate IsFailure() { None? }

    function PropagateFailure<U>(): Option<U>
      requires None?
    {
      None
    }

    function Extract(): T
      requires Some?
    {
      value
    }

    function GetOr(default: T): T {
      match this
      case Some(v) => v
      case None => default
    }
  }

  /** What the engine throws. `PotentialLoop` is `PotentialLoopError`, `BadToken`
      and `BadMacro` are the parser's `BaseWarning`s, the `Missing*` cases are the
      field compiler's `BaseError`s and `TypeError` is the runtime error a property
      access on `null`/`undefined` raises. */
  datatype Failure =
    | PotentialLoop
    | BadToken(token: string)
    | BadMacro(text: string)
    | MissingFieldName
    | MissingOptionName
    | MissingFor(option: string)
    | TypeError

  /** A value or the failure thrown while computing it. */
  datatype Result<+T> = Ok(value: T) | Err(error: Failure) {
    predicate IsFailure() { Err? }

    function PropagateFailure<U>(): Result<U>
      requires Err?
    {
      Err(error)
    }

    function Extract(): T
      requires Ok?
    {
      value
    }
  }
}

=== FILE: directives.dfy ===
/** The directive parser of src/lib/index.ts: comments of the form
    `@name "positional" key="value" flag` become `Macro` records. The regular
    expressions of `RegexHelper` are written out as scanners over `seq<char>`. */
module Directives {
  import opened Base
  import opened Text

  /** `MacroParam`: a positional `"v"` has name and value `v`, a named `k="v"` has
      name `k` and value `v`, a bare flag has no value. */
  datatype Param = Param(name: string, value: Option<string>)

  /** `Macro`; the older parser can leave the name unset. */
  datatype Macro = Macro(name: Option<string>, params: seq<Param>)

  predicate NoLineTerminator(s: string) {
    forall k :: 0 <= k < |s| ==> !IsLineTerminator(s[k])
  }

  predicate AllLetters(s: string) {
    forall k :: 0 <= k < |s| ==> IsLetter(s[k])
  }

  predicate AllAlnum(s: string) {
    forall k :: 0 <= k < |s| ==> IsAlnum(s[k])
  }

  // ----- RegexHelper.macro: /^@(?<name>.+?) (?<params>.+)$/ -----

  /** The first space at or after `i` that still leaves a non-empty rest: where
      the lazy name group stops. */
  function MacroSpace(s: string, i: nat): (r: Option<nat>)
    ensures r.Some? ==> i <= r.value && r.value + 1 < |s| && s[r.value] == ' '
    ensures r.Some? ==> forall k :: i <= k < r.value ==> s[k] != ' '
    ensures r.None? ==> forall k :: i <= k < |s| - 1 ==> s[k] != ' '
    decreases |s| - i
  {
    if i + 1 >= |s| then None
    else if s[i] == ' ' then Some(i)
    else MacroSpace(s, i + 1)
  }

  /** Matches a directive: `@`, a non-empty name up to the first space after its
      first character, then a non-empty parameter text; no line breaks anywhere. */
  function MatchMacro(s: string): Option<(string, string)> {
    if |s| == 0 || s[0] != '@' || !NoLineTerminator(s) then None
    else
      match MacroSpace(s, 2)
      case None => None
      case Some(i) => Some((s[1..i], s[i + 1..]))
  }

  /** The directive text for a name and a parameter text. */
  function MacroText(name: string, params: string): string {
    "@" + name + " " + params
  }

  /** A successful match splits the text back into name and parameters. */
  lemma MatchMacroSplits(s: string)
    requires MatchMacro(s).Some?
    ensures var (name, params) := MatchMacro(s).value;
      && s == MacroText(name, params)
      && |name| >= 1 && |params| >= 1
      && ' ' !in name[1..]
  {
    var i := MacroSpace(s, 2).value;
    var name := s[1..i];
    assert s == [s[0]] + s[1..i] + [s[i]] + s[i + 1..];
    forall k | 0 <= k < |name[1..]|
      ensures name[1..][k] != ' '
    {
      assert name[1..][k] == s[k + 2];
    }
  }

  /** A name with no space past its first character and non-empty parameters,
      neither containing a line break, are read back from their directive text. */
  lemma MatchMacroText(name: string, params: string)
    requires |name| >= 1 && |params| >= 1
    requires ' ' !in name[1..]
    requires NoLineTerminator(name) && NoLineTerminator(params)
    ensures MatchMacro(MacroText(name, params)) == Some((name, params))
  {
    var s := MacroText(name, params);
    var i := |name| + 1;
    assert s[i] == ' ';
    forall k | 2 <= k < i
      ensures s[k] != ' '
    {
      assert s[k] == name[1..][k - 2];
    }
    MacroSpaceFindsFirst(s, 2, i);
    assert s[1..i] == name;
    assert s[i + 1..] == params;
    forall k | 0 <= k < |s|
      ensures !IsLineTerminator(s[k])
    {
      if 1 <= k < i {
        assert s[k] == name[k - 1];
      } else if k > i {
        assert s[k] == params[k - i - 1];
      }
    }
  }

  lemma {:induction false} MacroSpaceFindsFirst(s: string, j: nat, i: nat)
    requires j <= i && i + 1 < |s| && s[i] == ' '
    requires forall k :: j <= k < i ==> s[k] != ' '
    ensures MacroSpace(s, j) == Some(i)
    decreases i - j
  {
    if j < i {
      MacroSpaceFindsFirst(s, j + 1, i);
    }
  }

  // ----- RegexHelper.macroParams: /(".+?")|([a-zA-Z0-9]+=".+?")|([a-zA-Z0-9]+)/gm -----

  /** The closing quote of the lazy `".+?"`: the first `"` at or after `j`,
      unless a line break comes first. */
  function QuoteClose(s: string, j: nat): (r: Option<nat>)
    ensures r.Some? ==> j <= r.value < |s| && s[r.value] == '"'
    ensures r.Some? ==> forall k :: j <= k < r.value ==> s[k] != '"' && !IsLineTerminator(s[k])
    decreases |s| - j
  {
    if j >= |s| then None
    else if s[j] == '"' then Some(j)
    else if IsLineTerminator(s[j]) then None
    else QuoteClose(s, j + 1)
  }

  /** End (exclusive) of `".+?"` starting at `p`. */
  function QuotedAt(s: string, p: nat): (r: Option<nat>)
    ensures r.Some? ==> p + 3 <= r.value <= |s|
  {
    if p + 1 < |s| && s[p] == '"' && !IsLineTerminator(s[p + 1]) then
      match QuoteClose(s, p + 2)
      case Some(k) => Some(k + 1)
      case None => None
    else None
  }

  /** End of the longest run of `[a-zA-Z0-9]` starting at `j`. */
  function AlnumEnd(s: string, j: nat): (q: nat)
    ensures j <= q && (q <= |s| || q == j)
    ensures forall k :: j <= k < q ==> IsAlnum(s[k])
    ensures q < |s| ==> !IsAlnum(s[q])
    decreases |s| - j
  {
    if j < |s| && IsAlnum(s[j]) then AlnumEnd(s, j + 1) else j
  }

  /** End of the token the global regex takes at `p`, trying its three
      alternatives in order. */
  function TokenEnd(s: string, p: nat): (r: Option<nat>)
    requires p < |s|
    ensures r.Some? ==> p < r.value <= |s|
  {
    match QuotedAt(s, p)
    case Some(e) => Some(e)
    case None =>
      var q := AlnumEnd(s, p);
      if q == p then None
      else if q < |s| && s[q] == '=' && QuotedAt(s, q + 1).Some? then QuotedAt(s, q + 1)
      else Some(q)
  }

  /** `val.match(macroParams)`: every match of the global regex, left to right. */
  function Tokens(s: string, p: nat): seq<string>
    decreases |s| - p
  {
    if p >= |s| then []
    else
      match TokenEnd(s, p)
      case Some(e) => [s[p..e]] + Tokens(s, e)
      case None => Tokens(s, p + 1)
  }

  /** What `".+?"` can match: quotes around a first character and then a run
      with no quote, no line break inside. */
  predicate IsQuotedToken(t: string) {
    && |t| >= 3 && t[0] == '"' && t[|t| - 1] == '"'
    && (forall k :: 1 <= k < |t| - 1 ==> !IsLineTerminator(t[k]))
    && (forall k :: 2 <= k < |t| - 1 ==> t[k] != '"')
  }

  /** What `[a-zA-Z0-9]+=".+?"` can match, split at `q`. */
  predicate IsNamedTokenAt(t: string, q: nat) {
    1 <= q < |t| && AllAlnum(t[..q]) && t[q] == '=' && IsQuotedToken(t[q + 1..])
  }

  predicate IsWordToken(t: string) {
    |t| >= 1 && AllAlnum(t)
  }

  /** The shape of every token the scanner can produce. */
  ghost predicate IsToken(t: string) {
    IsQuotedToken(t) || (exists q :: 0 <= q < |t| && IsNamedTokenAt(t, q)) || IsWordToken(t)
  }

  lemma QuotedAtShape(s: string, p: nat)
    requires QuotedAt(s, p).Some?
    ensures IsQuotedToken(s[p..QuotedAt(s, p).value])
  {
    var e := QuotedAt(s, p).value;
    var t := s[p..e];
    forall k | 1 <= k < |t| - 1
      ensures !IsLineTerminator(t[k]) && (k >= 2 ==> t[k] != '"')
    {
      assert t[k] == s[p + k];
    }
  }

  lemma TokenEndShape(s: string, p: nat)
    requires p < |s| && TokenEnd(s, p).Some?
    ensures IsToken(s[p..TokenEnd(s, p).value])
  {
    var e := TokenEnd(s, p).value;
    var t := s[p..e];
    if QuotedAt(s, p).Some? {
      QuotedAtShape(s, p);
    } else {
      var q := AlnumEnd(s, p);
      if q < |s| && s[q] == '=' && QuotedAt(s, q + 1).Some? {
        QuotedAtShape(s, q + 1);
        assert t[q - p + 1..] == s[q + 1..e];
        assert t[..q - p] == s[p..q];
        assert IsNamedTokenAt(t, q - p);
      } else {
        assert forall k :: 0 <= k < |t| ==> t[k] == s[p + k];
      }
    }
  }

  /** Every token the global regex yields has one of the three shapes. */
  lemma {:induction false} TokensShape(s: string, p: nat)
    ensures forall t :: t in Tokens(s, p) ==> IsToken(t)
    decreases |s| - p
  {
    if p < |s| {
      match TokenEnd(s, p)
      case Some(e) =>
        TokenEndShape(s, p);
        TokensShape(s, e);
      case None =>
        TokensShape(s, p + 1);
    }
  }

  // ----- getMacroParam -----

  /** `/^"(?<value>.+)"$/`: the value between the outer quotes. */
  function PositionalValue(t: string): Option<string> {
    if |t| >= 3 && t[0] == '"' && t[|t| - 1] == '"' && NoLineTerminator(t[1..|t| - 1])
    then Some(t[1..|t| - 1])
    else None
  }

  /** The greedy name group of `/^(?<name>.+)="(?<value>.+)"$/`: the last `="`
      at or below `n` that leaves a non-empty name. */
  function NamedSplit(t: string, n: int): (r: Option<nat>)
    requires n < |t| - 1
    ensures r.Some? ==> 1 <= r.value <= n && t[r.value] == '=' && t[r.value + 1] == '"'
    ensures r.Some? ==> forall k :: r.value < k <= n ==> !(t[k] == '=' && t[k + 1] == '"')
    ensures r.None? ==> forall k :: 1 <= k <= n ==> !(t[k] == '=' && t[k + 1] == '"')
    decreases n
  {
    if n < 1 then None
    else if t[n] == '=' && t[n + 1] == '"' then Some(n)
    else NamedSplit(t, n - 1)
  }

  /** `/^(?<name>.+)="(?<value>.+)"$/`: name and value. */
  function NamedValue(t: string): Option<(string, string)> {
    if |t| >= 5 && t[|t| - 1] == '"' && NoLineTerminator(t) then
      match NamedSplit(t, |t| - 4)
      case Some(n) => Some((t[..n], t[n + 2..|t| - 1]))
      case None => None
    else None
  }

  /** `getMacroParam`: positional first, then named, then a letters-only flag;
      anything else is not a parameter. */
  function ClassifyToken(t: string): Option<Param> {
    match PositionalValue(t)
    case Some(v) => Some(Param(v, Some(v)))
    case None =>
      match NamedValue(t)
      case Some((k, v)) => Some(Param(k, Some(v)))
      case None =>
        if |t| >= 1 && AllLetters(t) then Some(Param(t, None)) else None
  }

  /** How scanner tokens are classified: a quoted token is positional, a
      `key="…"` token is named, a letters-only word is a flag, and exactly the
      words with a digit in them are refused. */
  lemma ClassifyScannedToken(t: string)
    requires IsToken(t)
    ensures IsQuotedToken(t) ==> ClassifyToken(t) == Some(Param(t[1..|t| - 1], Some(t[1..|t| - 1])))
    ensures forall q :: 0 <= q < |t| && IsNamedTokenAt(t, q) ==>
      ClassifyToken(t) == Some(Param(t[..q], Some(t[q + 2..|t| - 1])))
    ensures IsWordToken(t) ==> (ClassifyToken(t) == if AllLetters(t) then Some(Param(t, None)) else None)
    ensures ClassifyToken(t).None? <==> IsWordToken(t) && !AllLetters(t)
  {
    if IsQuotedToken(t) {
      QuotedTokenClassified(t);
    } else if q :| 0 <= q < |t| && IsNamedTokenAt(t, q) {
      NamedTokenClassified(t, q);
      forall q' | 0 <= q' < |t| && IsNamedTokenAt(t, q')
        ensures q' == q
      {
        NamedTokenSplitUnique(t, q, q');
      }
    } else {
      WordTokenClassified(t);
    }
  }

  lemma QuotedTokenClassified(t: string)
    requires IsQuotedToken(t)
    ensures ClassifyToken(t) == Some(Param(t[1..|t| - 1], Some(t[1..|t| - 1])))
    ensures !IsWordToken(t)
    ensures forall q :: 0 <= q < |t| ==> !IsNamedTokenAt(t, q)
  {
    assert PositionalValue(t).Some?;
    assert !IsAlnum(t[0]);
    forall q | 0 <= q < |t| && IsNamedTokenAt(t, q)
      ensures false
    {
      NamedTokenNameIsAlnum(t, q);
    }
  }

  lemma WordTokenClassified(t: string)
    requires IsWordToken(t)
    ensures ClassifyToken(t) == if AllLetters(t) then Some(Param(t, None)) else None
  {
    assert IsAlnum(t[0]);
    assert PositionalValue(t).None?;
    assert NamedValue(t).None? by {
      if |t| >= 5 { assert IsAlnum(t[|t| - 1]); }
    }
  }

  lemma NamedTokenNameIsAlnum(t: string, q: nat)
    requires IsNamedTokenAt(t, q)
    ensures forall k :: 0 <= k < q ==> IsAlnum(t[k])
  {
    forall k | 0 <= k < q
      ensures IsAlnum(t[k])
    {
      assert t[..q][k] == t[k];
    }
  }

  /** A named token splits at exactly one place: its name has no `=`. */
  lemma NamedTokenSplitUnique(t: string, q: nat, q': nat)
    requires IsNamedTokenAt(t, q) && IsNamedTokenAt(t, q')
    ensures q == q'
  {
    NamedTokenNameIsAlnum(t, q);
    NamedTokenNameIsAlnum(t, q');
  }

  lemma NamedTokenClassified(t: string, q: nat)
    requires IsNamedTokenAt(t, q)
    ensures ClassifyToken(t) == Some(Param(t[..q], Some(t[q + 2..|t| - 1])))
  {
    var u := t[q + 1..];
    NamedTokenNameIsAlnum(t, q);
    assert PositionalValue(t).None?;
    assert t[|t| - 1] == u[|u| - 1];
    forall k | 0 <= k < |t|
      ensures !IsLineTerminator(t[k])
    {
      if k > q + 1 && k < |t| - 1 {
        assert t[k] == u[k - q - 1];
      }
    }
    forall k | q < k <= |t| - 4
      ensures !(t[k] == '=' && t[k + 1] == '"')
    {
      if k == q + 1 {
        assert t[k] == u[0];
      } else {
        assert t[k + 1] == u[k - q];
      }
    }
    assert t[q + 1] == '"';
    assert NamedSplit(t, |t| - 4) == Some(q);
  }

  // ----- writing parameters -----

  /** A parameter as a directive writes it: `"v"`, `k="v"` or a bare word. */
  datatype WrittenParam = Quoted(v: string) | KeyQuoted(k: string, v: string) | Bare(k: string)

  /** A value the lazy `".+?"` reads back whole: non-empty, without a quote or
      a line break. */
  predicate IsQuotable(v: string) {
    |v| >= 1 && NoLineTerminator(v) && forall i :: 0 <= i < |v| ==> v[i] != '"'
  }

  /** A parameter the scanner reads back as written: quoted values are
      quotable, keys are alphanumeric and bare words are letters only. */
  predicate IsWritable(w: WrittenParam) {
    match w
    case Quoted(v) => IsQuotable(v)
    case KeyQuoted(k, v) => |k| >= 1 && AllAlnum(k) && IsQuotable(v)
    case Bare(k) => |k| >= 1 && AllLetters(k)
  }

  function Quote(v: string): string {
    "\"" + v + "\""
  }

  function WrittenText(w: WrittenParam): (t: string)
    ensures IsWritable(w) ==> |t| >= 1
  {
    match w
    case Quoted(v) => Quote(v)
    case KeyQuoted(k, v) => k + "=" + Quote(v)
    case Bare(k) => k
  }

  /** The `MacroParam` a written parameter stands for. */
  function ParamOf(w: WrittenParam): Param {
    match w
    case Quoted(v) => Param(v, Some(v))
    case KeyQuoted(k, v) => Param(k, Some(v))
    case Bare(k) => Param(k, None)
  }

  function WrittenTexts(ws: seq<WrittenParam>): (r: seq<string>)
    ensures |r| == |ws|
    ensures forall i :: 0 <= i < |ws| ==> r[i] == WrittenText(ws[i])
  {
    if |ws| == 0 then [] else [WrittenText(ws[0])] + WrittenTexts(ws[1..])
  }

  function WrittenParams(ws: seq<WrittenParam>): (r: seq<Param>)
    ensures |r| == |ws|
    ensures forall i :: 0 <= i < |ws| ==> r[i] == ParamOf(ws[i])
  {
    if |ws| == 0 then [] else [ParamOf(ws[0])] + WrittenParams(ws[1..])
  }

  /** Texts separated by single spaces. */
  function JoinSpaced(ts: seq<string>): string {
    if |ts| == 0 then ""
    else if |ts| == 1 then ts[0]
    else ts[0] + " " + JoinSpaced(ts[1..])
  }

  /** Written parameters separated by single spaces. */
  function ParamsText(ws: seq<WrittenParam>): string {
    JoinSpaced(WrittenTexts(ws))
  }

  ghost predicate IsWrittenText(t: string) {
    exists w :: IsWritable(w) && WrittenText(w) == t
  }

  lemma {:induction false} QuoteCloseFinds(s: string, j: nat, i: nat)
    requires j <= i < |s| && s[i] == '"'
    requires forall k :: j <= k < i ==> s[k] != '"' && !IsLineTerminator(s[k])
    ensures QuoteClose(s, j) == Some(i)
    decreases i - j
  {
    if j < i {
      QuoteCloseFinds(s, j + 1, i);
    }
  }

  lemma {:induction false} AlnumEndFinds(s: string, j: nat, q: nat)
    requires j <= q <= |s|
    requires forall k :: j <= k < q ==> IsAlnum(s[k])
    requires q < |s| ==> !IsAlnum(s[q])
    ensures AlnumEnd(s, j) == q
    decreases q - j
  {
    if j < q {
      AlnumEndFinds(s, j + 1, q);
    }
  }

  /** A quotable value in quotes at `p` is one quoted token. */
  lemma QuotedAtWritten(s: string, p: nat, v: string)
    requires IsQuotable(v) && p + |v| + 2 <= |s|
    requires s[p..p + |v| + 2] == Quote(v)
    ensures QuotedAt(s, p) == Some(p + |v| + 2)
  {
    var u := s[p..p + |v| + 2];
    assert s[p] == u[0] && s[p + |v| + 1] == u[|v| + 1];
    assert s[p + 1] == u[1] == v[0];
    forall k | p + 2 <= k < p + |v| + 1
      ensures s[k] != '"' && !IsLineTerminator(s[k])
    {
      assert s[k] == u[k - p] == v[k - p - 1];
    }
    QuoteCloseFinds(s, p + 2, p + |v| + 1);
  }

  /** Text `t` stands at `p` in `s`, followed by a space or the end. */
  ghost predicate WrittenAt(s: string, p: nat, t: string) {
    && p + |t| <= |s|
    && s[p..p + |t|] == t
    && (p + |t| < |s| ==> s[p + |t|] == ' ')
  }

  lemma TokenEndOfKeyQuoted(s: string, p: nat, k: string, v: string)
    requires IsWritable(KeyQuoted(k, v)) && WrittenAt(s, p, k + "=" + Quote(v))
    ensures TokenEnd(s, p) == Some(p + |k| + |v| + 3)
  {
    var u := s[p..p + |k| + |v| + 3];
    assert s[p] == u[0] == k[0];
    assert IsAlnum(k[0]);
    forall j | p <= j < p + |k|
      ensures IsAlnum(s[j])
    {
      assert s[j] == u[j - p] == k[j - p];
    }
    assert s[p + |k|] == u[|k|] == '=';
    AlnumEndFinds(s, p, p + |k|);
    var a := p + |k| + 1;
    assert s[a..a + |v| + 2] == u[|k| + 1..] == Quote(v);
    QuotedAtWritten(s, a, v);
  }

  lemma TokenEndOfBare(s: string, p: nat, k: string)
    requires |k| >= 1 && AllLetters(k) && WrittenAt(s, p, k)
    ensures TokenEnd(s, p) == Some(p + |k|)
  {
    var u := s[p..p + |k|];
    assert s[p] == u[0] == k[0];
    assert IsLetter(k[0]);
    forall j | p <= j < p + |k|
      ensures IsAlnum(s[j])
    {
      assert s[j] == u[j - p] == k[j - p];
      assert IsLetter(k[j - p]);
    }
    AlnumEndFinds(s, p, p + |k|);
  }

  /** A written parameter at `p`, followed by a space or the end, is the
      token the scanner takes there. */
  lemma TokenEndOfWritten(s: string, p: nat, t: string)
    requires IsWrittenText(t) && WrittenAt(s, p, t)
    ensures |t| >= 1 && TokenEnd(s, p) == Some(p + |t|)
  {
    var w :| IsWritable(w) && WrittenText(w) == t;
    match w
    case Quoted(v) => QuotedAtWritten(s, p, v);
    case KeyQuoted(k, v) => TokenEndOfKeyQuoted(s, p, k, v);
    case Bare(k) => TokenEndOfBare(s, p, k);
  }

  /** The scanner skips a single space between tokens. */
  lemma TokensSkipSpace(s: string, e: nat)
    requires e < |s| && s[e] == ' '
    ensures Tokens(s, e) == Tokens(s, e + 1)
  {
    assert AlnumEnd(s, e) == e;
  }

  /** A token that ends the text, or is followed by one space and more
      tokens, heads the scan. */
  lemma TokensStep(s: string, p: nat, e: nat, t: string, rest: seq<string>)
    requires p < e <= |s| && TokenEnd(s, p) == Some(e) && s[p..e] == t
    requires e == |s| ==> rest == []
    requires e < |s| ==> s[e] == ' ' && Tokens(s, e + 1) == rest
    ensures Tokens(s, p) == [t] + rest
  {
    if e < |s| {
      TokensSkipSpace(s, e);
    }
  }

  /** The first text of a spaced join stands at its start, and the rest
      follows one space later. */
  lemma JoinSpacedHead(s: string, p: nat, ts: seq<string>)
    requires |ts| > 0 && p <= |s| && s[p..] == JoinSpaced(ts)
    ensures WrittenAt(s, p, ts[0])
    ensures |ts| == 1 ==> p + |ts[0]| == |s|
    ensures |ts| > 1 ==> s[p + |ts[0]| + 1..] == JoinSpaced(ts[1..])
  {
    var t := ts[0];
    if |ts| > 1 {
      assert s[p..p + |t|] == s[p..][..|t|] == t;
      assert s[p + |t|] == s[p..][|t|] == ' ';
      assert s[p + |t| + 1..] == s[p..][|t| + 1..];
    } else {
      assert s[p..p + |t|] == s[p..] == t;
    }
  }

  /** Texts stand from `p` to the end of `s`, one space apart. */
  ghost predicate JoinedAt(s: string, p: nat, ts: seq<string>)
    decreases |ts|
  {
    if |ts| == 0 then p == |s|
    else
      && WrittenAt(s, p, ts[0])
      && if |ts| == 1 then p + |ts[0]| == |s|
         else JoinedAt(s, p + |ts[0]| + 1, ts[1..])
  }

  lemma {:induction false} JoinedAtOfJoinSpaced(s: string, p: nat, ts: seq<string>)
    requires p <= |s| && s[p..] == JoinSpaced(ts)
    ensures JoinedAt(s, p, ts)
    decreases |ts|
  {
    if |ts| > 0 {
      JoinSpacedHead(s, p, ts);
      if |ts| > 1 {
        JoinedAtOfJoinSpaced(s, p + |ts[0]| + 1, ts[1..]);
      }
    } else {
      assert |s[p..]| == 0;
    }
  }

  /** One step of the scan: a written text heads it, and the scan goes on
      one space after it. */
  lemma TokensOfJoinedStep(s: string, p: nat, ts: seq<string>)
    requires |ts| > 0 && IsWrittenText(ts[0]) && WrittenAt(s, p, ts[0])
    requires |ts| == 1 ==> p + |ts[0]| == |s|
    requires |ts| > 1 ==> p + |ts[0]| < |s| && Tokens(s, p + |ts[0]| + 1) == ts[1..]
    ensures Tokens(s, p) == ts
  {
    var e := p + |ts[0]|;
    TokenEndOfWritten(s, p, ts[0]);
    if |ts| > 1 {
      TokensStep(s, p, e, ts[0], ts[1..]);
    } else {
      TokensStep(s, p, e, ts[0], []);
    }
    assert [ts[0]] + ts[1..] == ts;
  }

  /** Written parameter texts standing one space apart from `p` to the end
      scan to exactly those texts. */
  lemma {:induction false} TokensOfJoined(s: string, p: nat, ts: seq<string>)
    requires forall i :: 0 <= i < |ts| ==> IsWrittenText(ts[i])
    requires JoinedAt(s, p, ts)
    ensures Tokens(s, p) == ts
    decreases |ts|
  {
    if |ts| > 1 {
      TokensOfJoined(s, p + |ts[0]| + 1, ts[1..]);
      TokensOfJoinedStep(s, p, ts);
    } else if |ts| == 1 {
      TokensOfJoinedStep(s, p, ts);
    }
  }

  lemma QuotedTokenOf(v: string)
    requires IsQuotable(v)
    ensures IsQuotedToken(Quote(v)) && Quote(v)[1..|Quote(v)| - 1] == v
  {
    var u := Quote(v);
    assert forall k :: 1 <= k < |u| - 1 ==> u[k] == v[k - 1];
    assert u[1..|u| - 1] == v;
  }

  lemma ClassifyKeyQuoted(k: string, v: string)
    requires |k| >= 1 && AllAlnum(k) && IsQuotable(v)
    ensures ClassifyToken(k + "=" + Quote(v)) == Some(Param(k, Some(v)))
  {
    var t := k + "=" + Quote(v);
    QuotedTokenOf(v);
    assert t[..|k|] == k && t[|k| + 1..] == Quote(v);
    assert IsNamedTokenAt(t, |k|);
    NamedTokenClassified(t, |k|);
    assert t[|k| + 2..|t| - 1] == Quote(v)[1..|Quote(v)| - 1];
  }

  /** Each written parameter classifies as the parameter it stands for. */
  lemma ClassifyWritten(w: WrittenParam)
    requires IsWritable(w)
    ensures ClassifyToken(WrittenText(w)) == Some(ParamOf(w))
  {
    var t := WrittenText(w);
    match w
    case Quoted(v) =>
      QuotedTokenOf(v);
      QuotedTokenClassified(t);
    case KeyQuoted(k, v) =>
      ClassifyKeyQuoted(k, v);
    case Bare(k) =>
      WordTokenClassified(t);
  }

  lemma {:induction false} ClassifiedOfWritten(ws: seq<WrittenParam>)
    requires forall i :: 0 <= i < |ws| ==> IsWritable(ws[i])
    ensures forall i :: 0 <= i < |ws| ==> ClassifyToken(WrittenTexts(ws)[i]).Some?
    ensures Classified(WrittenTexts(ws)) == WrittenParams(ws)
    decreases |ws|
  {
    if |ws| > 0 {
      ClassifyWritten(ws[0]);
      ClassifiedOfWritten(ws[1..]);
      var ts := WrittenTexts(ws);
      assert ts[1..] == WrittenTexts(ws[1..]);
      forall i | 0 <= i < |ws|
        ensures ClassifyToken(ts[i]).Some?
      {
        if i > 0 {
          assert ts[i] == WrittenTexts(ws[1..])[i - 1];
        }
      }
    }
  }

  lemma WrittenTextsAreWritten(ws: seq<WrittenParam>)
    requires forall i :: 0 <= i < |ws| ==> IsWritable(ws[i])
    ensures forall i :: 0 <= i < |ws| ==> IsWrittenText(WrittenTexts(ws)[i])
  {
    forall i | 0 <= i < |ws|
      ensures IsWrittenText(WrittenTexts(ws)[i])
    {
      assert IsWritable(ws[i]) && WrittenText(ws[i]) == WrittenTexts(ws)[i];
    }
  }

  /** Parameters written as `"v"`, `k="v"` or bare words and joined by single
      spaces scan to exactly their texts and parse to exactly the parameters
      they stand for, with or without `doWarn`. */
  lemma ParseParamsOfWritten(ws: seq<WrittenParam>, doWarn: bool)
    requires forall i :: 0 <= i < |ws| ==> IsWritable(ws[i])
    ensures Tokens(ParamsText(ws), 0) == WrittenTexts(ws)
    ensures ParseParams(ParamsText(ws), doWarn) == Ok(WrittenParams(ws))
  {
    var s := ParamsText(ws);
    var ts := WrittenTexts(ws);
    WrittenTextsAreWritten(ws);
    assert s[0..] == s;
    JoinedAtOfJoinSpaced(s, 0, ts);
    TokensOfJoined(s, 0, ts);
    ClassifiedOfWritten(ws);
    ParseTokensSpec(ts, doWarn);
  }

  // ----- getMacroParams -----

  /** `getMacroParams`: classify every token; a refused token throws when
      `doWarn` is set and is dropped otherwise. */
  function ParseTokens(tokens: seq<string>, doWarn: bool): Result<seq<Param>> {
    if |tokens| == 0 then Ok([])
    else
      match ClassifyToken(tokens[0])
      case Some(param) =>
        var rest :- ParseTokens(tokens[1..], doWarn);
        Ok([param] + rest)
      case None =>
        if doWarn then Err(BadToken(tokens[0])) else ParseTokens(tokens[1..], doWarn)
  }

  function ParseParams(text: string, doWarn: bool): Result<seq<Param>> {
    ParseTokens(Tokens(text, 0), doWarn)
  }

  /** The parameters of the tokens that classify, in order. */
  function Classified(tokens: seq<string>): (r: seq<Param>)
    ensures |r| <= |tokens|
  {
    if |tokens| == 0 then []
    else
      match ClassifyToken(tokens[0])
      case Some(param) => [param] + Classified(tokens[1..])
      case None => Classified(tokens[1..])
  }

  /** Without `doWarn` refused tokens are dropped and nothing fails; with it,
      parsing fails exactly when some token is refused, on the first such token,
      and otherwise keeps every token. */
  lemma {:induction false} ParseTokensSpec(tokens: seq<string>, doWarn: bool)
    ensures !doWarn ==> ParseTokens(tokens, doWarn) == Ok(Classified(tokens))
    ensures doWarn ==> (ParseTokens(tokens, doWarn).Err? <==>
      exists i :: 0 <= i < |tokens| && ClassifyToken(tokens[i]).None?)
    ensures doWarn && ParseTokens(tokens, doWarn).Err? ==>
      exists i :: 0 <= i < |tokens| && ClassifyToken(tokens[i]).None? &&
        ParseTokens(tokens, doWarn).error == BadToken(tokens[i]) &&
        forall k :: 0 <= k < i ==> ClassifyToken(tokens[k]).Some?
    ensures ParseTokens(tokens, doWarn).Ok? ==> ParseTokens(tokens, doWarn).value == Classified(tokens)
  {
    if |tokens| > 0 {
      ParseTokensSpec(tokens[1..], doWarn);
      if doWarn && ParseTokens(tokens, doWarn).Err? && ClassifyToken(tokens[0]).Some? {
        var i :| 0 <= i < |tokens[1..]| && ClassifyToken(tokens[1..][i]).None? &&
          ParseTokens(tokens[1..], doWarn).error == BadToken(tokens[1..][i]) &&
          forall k :: 0 <= k < i ==> ClassifyToken(tokens[1..][k]).Some?;
        assert forall k :: 1 <= k < i + 1 ==> tokens[k] == tokens[1..][k - 1];
      }
      if doWarn && ClassifyToken(tokens[0]).Some? && ParseTokens(tokens[1..], doWarn).Ok? {
        forall i | 0 <= i < |tokens|
          ensures ClassifyToken(tokens[i]).Some?
        {
          if i > 0 {
            assert tokens[i] == tokens[1..][i - 1];
          }
        }
      }
    }
  }

  // ----- getMacros -----

  /** The comment filter of the macro collector: a comment is a directive when
      its trimmed text matches `RegexHelper.macro`. */
  predicate IsDirectiveComment(c: string) {
    MatchMacro(Trim(c)).Some?
  }

  function CollectDirectiveComments(comments: seq<string>): (r: seq<string>)
    ensures forall c :: c in r <==> c in comments && IsDirectiveComment(c)
    ensures forall i :: 0 <= i < |r| ==> IsDirectiveComment(r[i])
  {
    if |comments| == 0 then []
    else if IsDirectiveComment(comments[0]) then [comments[0]] + CollectDirectiveComments(comments[1..])
    else CollectDirectiveComments(comments[1..])
  }

  /** The loop of `getMacros` over collected comments. A comment that does not
      match throws with `doWarn` and otherwise makes the whole result `null`
      (`Ok(None)`). */
  function GetMacrosFrom(comments: seq<string>, doWarn: bool): Result<Option<seq<Macro>>> {
    if |comments| == 0 then Ok(Some([]))
    else
      match MatchMacro(Trim(comments[0]))
      case None => if doWarn then Err(BadMacro(comments[0])) else Ok(None)
      case Some((name, paramsText)) =>
        var params :- ParseParams(paramsText, doWarn);
        var rest :- GetMacrosFrom(comments[1..], doWarn);
        Ok(match rest
           case None => None
           case Some(ms) => Some([Macro(Some(name), params)] + ms))
  }

  /** `getMacros`: collect the directive comments (in template order), then
      parse each one. */
  function GetMacros(comments: seq<string>, doWarn: bool): Result<Option<seq<Macro>>> {
    GetMacrosFrom(CollectDirectiveComments(comments), doWarn)
  }

  /** What a directive comment stands for: its name and its classified
      parameters. */
  function DirectiveMacro(c: string): Macro
    requires IsDirectiveComment(c)
  {
    var (name, text) := MatchMacro(Trim(c)).value;
    Macro(Some(name), Classified(Tokens(text, 0)))
  }

  /** Whether some parameter token of a directive comment is refused. */
  predicate HasBadToken(c: string)
    requires IsDirectiveComment(c)
  {
    var (name, text) := MatchMacro(Trim(c)).value;
    exists i :: 0 <= i < |Tokens(text, 0)| && ClassifyToken(Tokens(text, 0)[i]).None?
  }

  function DirectiveMacros(comments: seq<string>): (r: seq<Macro>)
    requires forall i :: 0 <= i < |comments| ==> IsDirectiveComment(comments[i])
    ensures |r| == |comments|
  {
    if |comments| == 0 then [] else [DirectiveMacro(comments[0])] + DirectiveMacros(comments[1..])
  }

  /** On comments that all match, the bad-directive branch is never taken: the
      result is the list of their macros, or, only with `doWarn`, the failure
      of a refused token, which happens exactly when some comment has one. */
  lemma GetMacrosFromDirectives(comments: seq<string>, doWarn: bool)
    requires forall i :: 0 <= i < |comments| ==> IsDirectiveComment(comments[i])
    ensures GetMacrosFrom(comments, doWarn).Ok? ==>
      GetMacrosFrom(comments, doWarn).value == Some(DirectiveMacros(comments))
    ensures GetMacrosFrom(comments, doWarn).Err? ==> doWarn && GetMacrosFrom(comments, doWarn).error.BadToken?
    ensures doWarn ==> (GetMacrosFrom(comments, doWarn).Err? <==>
      exists i :: 0 <= i < |comments| && HasBadToken(comments[i]))
  {
    DirectivesYieldTheirMacros(comments, doWarn);
    if doWarn {
      DirectivesFailOnBadTokens(comments, doWarn);
    }
  }

  lemma {:induction false} DirectivesYieldTheirMacros(comments: seq<string>, doWarn: bool)
    requires forall i :: 0 <= i < |comments| ==> IsDirectiveComment(comments[i])
    ensures GetMacrosFrom(comments, doWarn).Ok? ==>
      GetMacrosFrom(comments, doWarn).value == Some(DirectiveMacros(comments))
    ensures GetMacrosFrom(comments, doWarn).Err? ==> doWarn && GetMacrosFrom(comments, doWarn).error.BadToken?
  {
    if |comments| > 0 {
      DirectivesYieldTheirMacros(comments[1..], doWarn);
      DirectiveParams(comments[0], doWarn);
    }
  }

  lemma {:induction false} DirectivesFailOnBadTokens(comments: seq<string>, doWarn: bool)
    requires doWarn
    requires forall i :: 0 <= i < |comments| ==> IsDirectiveComment(comments[i])
    ensures GetMacrosFrom(comments, doWarn).Err? <==> exists i :: 0 <= i < |comments| && HasBadToken(comments[i])
  {
    if |comments| > 0 {
      DirectivesFailOnBadTokens(comments[1..], doWarn);
      DirectiveParams(comments[0], doWarn);
      GetMacrosFromFailStep(comments, doWarn);
      BadTokenSplit(comments);
    }
  }

  /** The loop fails on a directive comment exactly when its parameters or the
      later comments do. */
  lemma GetMacrosFromFailStep(comments: seq<string>, doWarn: bool)
    requires |comments| > 0 && IsDirectiveComment(comments[0])
    ensures GetMacrosFrom(comments, doWarn).Err? <==>
      ParseParams(MatchMacro(Trim(comments[0])).value.1, doWarn).Err? || GetMacrosFrom(comments[1..], doWarn).Err?
  {
  }

  lemma BadTokenSplit(comments: seq<string>)
    requires |comments| > 0
    requires forall i :: 0 <= i < |comments| ==> IsDirectiveComment(comments[i])
    ensures (exists i :: 0 <= i < |comments| && HasBadToken(comments[i])) <==>
      HasBadToken(comments[0]) || exists j :: 0 <= j < |comments[1..]| && HasBadToken(comments[1..][j])
  {
    ExistsSplit(comments, BadDirective);
    assert forall i :: 0 <= i < |comments| ==> (BadDirective(comments[i]) <==> HasBadToken(comments[i]));
    assert forall j :: 0 <= j < |comments[1..]| ==> (BadDirective(comments[1..][j]) <==> HasBadToken(comments[1..][j]));
  }

  predicate BadDirective(c: string) {
    IsDirectiveComment(c) && HasBadToken(c)
  }

  /** Some element satisfies `p` iff the first does or some later one does. */
  lemma ExistsSplit<T>(xs: seq<T>, p: T -> bool)
    requires |xs| > 0
    ensures (exists i :: 0 <= i < |xs| && p(xs[i])) <==> p(xs[0]) || exists j :: 0 <= j < |xs[1..]| && p(xs[1..][j])
  {
    if exists i :: 0 <= i < |xs| && p(xs[i]) {
      var i :| 0 <= i < |xs| && p(xs[i]);
      if i > 0 {
        assert xs[1..][i - 1] == xs[i];
      }
    }
  }

  /** The parameters of one directive comment: its classified tokens, or the
      failure of a refused one, which only `doWarn` raises. */
  lemma DirectiveParams(c: string, doWarn: bool)
    requires IsDirectiveComment(c)
    ensures var (name, text) := MatchMacro(Trim(c)).value;
      && (ParseParams(text, doWarn).Ok? ==> Macro(Some(name), ParseParams(text, doWarn).value) == DirectiveMacro(c))
      && (ParseParams(text, doWarn).Err? ==> doWarn && ParseParams(text, doWarn).error.BadToken?)
      && (doWarn ==> (ParseParams(text, doWarn).Err? <==> HasBadToken(c)))
  {
    var (name, text) := MatchMacro(Trim(c)).value;
    ParseTokensSpec(Tokens(text, 0), doWarn);
  }

  /** `getMacros` never returns `null` and never reports a bad directive: its
      collector already dropped every comment the directive pattern rejects.
      Without `doWarn` it always yields the macros of the directive comments. */
  lemma GetMacrosSpec(comments: seq<string>, doWarn: bool)
    ensures GetMacros(comments, doWarn).Ok? ==>
      GetMacros(comments, doWarn).value == Some(DirectiveMacros(CollectDirectiveComments(comments)))
    ensures GetMacros(comments, doWarn).Err? ==> doWarn && GetMacros(comments, doWarn).error.BadToken?
  {
    GetMacrosFromDirectives(CollectDirectiveComments(comments), doWarn);
  }

  // ----- Examples -----

  /** A directive's parameters: a positional path, a named option and a flag. */
  lemma ParseParamsExample()
    ensures ParseParams("\"a\" b=\"c\" d", true)
      == Ok([Param("a", Some("a")), Param("b", Some("c")), Param("d", None)])
  {
    ExampleTokens();
    ExampleTokensParsed();
  }

  lemma ExampleTokensParsed()
    ensures ParseTokens(["\"a\"", "b=\"c\"", "d"], true)
      == Ok([Param("a", Some("a")), Param("b", Some("c")), Param("d", None)])
  {
    var a, b, d := "\"a\"", "b=\"c\"", "d";
    QuotedTokenClassified(a);
    assert a[1..|a| - 1] == "a";
    assert IsNamedTokenAt(b, 1);
    NamedTokenClassified(b, 1);
    assert b[..1] == "b" && b[3..|b| - 1] == "c";
    WordTokenClassified(d);
    assert AllLetters(d) by { assert IsLetter(d[0]); }
    var pa, pb, pd := Param("a", Some("a")), Param("b", Some("c")), Param("d", None);
    var none: seq<string> := [];
    assert [d][1..] == none;
    ParseTokensCons([d], pd, [], true);
    assert [pd] + [] == [pd];
    assert [b, d][1..] == [d];
    ParseTokensCons([b, d], pb, [pd], true);
    assert [pb] + [pd] == [pb, pd];
    assert [a, b, d][1..] == [b, d];
    ParseTokensCons([a, b, d], pa, [pb, pd], true);
    assert [pa] + [pb, pd] == [pa, pb, pd];
  }

  lemma ExampleTokens()
    ensures Tokens("\"a\" b=\"c\" d", 0) == ["\"a\"", "b=\"c\"", "d"]
  {
    var s := "\"a\" b=\"c\" d";
    assert QuoteClose(s, 2) == Some(2);
    assert TokenEnd(s, 0) == Some(3);
    assert s[0..3] == "\"a\"";
    assert TokenEnd(s, 3).None?;
    assert AlnumEnd(s, 4) == 5;
    assert QuoteClose(s, 7) == Some(8);
    assert TokenEnd(s, 4) == Some(9);
    assert s[4..9] == "b=\"c\"";
    assert TokenEnd(s, 9).None?;
    assert AlnumEnd(s, 10) == 11;
    assert TokenEnd(s, 10) == Some(11);
    assert s[10..11] == "d";
    assert Tokens(s, 11) == [];
  }

  lemma ParseTokensCons(tokens: seq<string>, p: Param, ps: seq<Param>, doWarn: bool)
    requires |tokens| > 0 && ClassifyToken(tokens[0]) == Some(p)
    requires ParseTokens(tokens[1..], doWarn) == Ok(ps)
    ensures ParseTokens(tokens, doWarn) == Ok([p] + ps)
  {
  }

  /** An unquoted number is a token of its own, and it is refused. */
  lemma UnquotedValueRefused()
    ensures ParseParams("min=1", true) == Err(BadToken("1"))
    ensures ParseParams("min=1", false) == Ok([Param("min", None)])
  {
    var s := "min=1";
    assert AlnumEnd(s, 4) == 5;
    assert AlnumEnd(s, 0) == 3 by {
      assert AlnumEnd(s, 3) == 3;
    }
    assert QuotedAt(s, 4).None?;
    assert TokenEnd(s, 4) == Some(5);
    assert s[4..5] == "1";
    assert Tokens(s, 5) == [];
    assert Tokens(s, 4) == ["1"];
    assert Tokens(s, 3) == ["1"];
    assert TokenEnd(s, 0) == Some(3);
    assert s[0..3] == "min";
    assert Tokens(s, 0) == ["min", "1"];
    WordTokenClassified("min");
    WordTokenClassified("1");
    assert !AllLetters("1") by { assert !IsLetter("1"[0]); }
    var ts := ["min", "1"];
    assert ts[1..] == ["1"];
    assert ParseTokens(["1"], true) == Err(BadToken("1"));
    assert ParseTokens(["1"], false) == Ok([]);
    assert AllLetters("min") by {
      forall k | 0 <= k < 3
        ensures IsLetter("min"[k])
      {
      }
    }
    assert ClassifyToken(ts[0]) == Some(Param("min", None));
    assert [Param("min", None)] + [] == [Param("min", None)];
    assert ParseTokens(ts, false) == Ok([Param("min", None)]);
  }
}

=== FILE: fields.dfy ===
/** The field compiler of src/lib/index.ts: `macroToField` and
    `macroToFieldValueOption` turn parsed directives into field and option
    records, `applyValueOptionsToFields` and `applyAbsoluteOrderToFields`
    decorate the field list. */
module Fields {
  import opened Base
  import opened Text
  import opened JsValue
  import opened Directives

  /** `DEFAULT_FIELD_TYPE`. */
  const DEFAULT_FIELD_TYPE: string := "string"

  /** What the directive-local `get(key)` returns: `null`, `true` for a
      parameter given without a value, or the value text. */
  datatype Arg = Absent | Flag | Text(text: string)

  /** A field record. `min`, `max`, `minLength`, `maxLength` and `order` hold the
      numeric reading of the directive value. `macroName` and `absoluteOrder`
      are the record's `extra` part. */
  datatype Field = Field(
    kind: string,
    name: string,
    labelText: Option<string>,
    descr: Option<string>,
    hint: Option<string>,
    min: Option<int>,
    max: Option<int>,
    minLength: Option<int>,
    maxLength: Option<int>,
    order: Option<int>,
    value: Value,
    isRequired: bool,
    options: Option<seq<FieldOption>>,
    macroName: Option<string>,
    absoluteOrder: Option<int>)

  /** A value option attached to a field through its `for` parameter. */
  datatype FieldOption = FieldOption(
    kind: string,
    name: string,
    fieldName: Value,
    labelText: Value,
    descr: Value,
    value: Value,
    isDisabled: bool)

  // ----- reading parameters -----

  /** Index of the first parameter called `key`. */
  function FirstNamed(args: seq<Param>, key: string): (r: Option<nat>)
    ensures r.Some? ==> r.value < |args| && args[r.value].name == key
    ensures r.Some? ==> forall k :: 0 <= k < r.value ==> args[k].name != key
    ensures r.None? ==> forall k :: 0 <= k < |args| ==> args[k].name != key
  {
    if |args| == 0 then None
    else if args[0].name == key then Some(0)
    else
      match FirstNamed(args[1..], key)
      case None => None
      case Some(i) => Some(i + 1)
  }

  /** `get(key)`: the first parameter with that name; its value when it is a
      non-empty text, `true` when it only has a (non-empty) name. */
  function GetArg(args: seq<Param>, key: string): Arg {
    match FirstNamed(args, key)
    case None => Absent
    case Some(i) =>
      if args[i].value.Some? && args[i].value.value != "" then Text(args[i].value.value)
      else if args[i].name != "" then Flag
      else Absent
  }

  /** The raw JavaScript value of an argument. */
  function ArgValue(a: Arg): (v: Value)
    ensures Truthy(v) <==> a.Flag? || (a.Text? && a.text != "")
  {
    match a
    case Absent => Null
    case Flag => Bool(true)
    case Text(s) => Str(s)
  }

  /** `ensureString(a ?? fallback)`. */
  function ArgString(a: Arg, fallback: string): string {
    match a
    case Absent => fallback
    case Flag => "true"
    case Text(s) => s
  }

  /** `ensureNullableString`. */
  function ArgNullableString(a: Arg): Option<string> {
    match a
    case Absent => None
    case Flag => Some("true")
    case Text(s) => Some(s)
  }

  /** `Number(a)` where it is an integer: `true` reads as 1, and a text that is
      not a number reads as nothing. Shared by `ensureNullableFieldMinMax`,
      `ensureNullableFieldMinMaxLength` and `ensureNullableFieldOrder`. */
  function ArgNumber(a: Arg): Option<int> {
    match a
    case Absent => None
    case Flag => Some(1)
    case Text(s) => NumberOfText(s)
  }

  // ----- ensureFieldName -----

  /** `ensureFieldName`: drop the first `[` and the first `]`, then trim. */
  function EnsureFieldName(s: string): (r: string)
    ensures '[' !in s && ']' !in s ==> r == Trim(s)
    ensures '[' in s ==> |r| < |s|
  {
    Trim(RemoveFirst(RemoveFirst(s, '['), ']'))
  }

  /** A name with no brackets and no outer white space passes unchanged. */
  lemma EnsureFieldNameKeepsCleanNames(s: string)
    requires '[' !in s && ']' !in s && Trim(s) == s
    ensures EnsureFieldName(s) == s
  {
  }

  /** An index in brackets loses its brackets: `a[0]` becomes `a0`. */
  lemma EnsureFieldNameDropsIndexBrackets(a: string, b: string)
    requires '[' !in a && ']' !in a && '[' !in b && ']' !in b
    requires Trim(a + b) == a + b
    ensures EnsureFieldName(a + "[" + b + "]") == a + b
  {
    BracketsRemoved(a, b);
  }

  lemma BracketsRemoved(a: string, b: string)
    requires '[' !in a && ']' !in a && '[' !in b && ']' !in b
    ensures RemoveFirst(RemoveFirst(a + "[" + b + "]", '['), ']') == a + b
  {
    OpenThenClose(a, b, "");
    assert a + "[" + b + "]" + "" == a + "[" + b + "]";
    assert a + b + "" == a + b;
  }

  /** Only the first `[` and the first `]` go, wherever they are, and later
      brackets stay: `a[0][1]` becomes `a0[1]`. */
  lemma EnsureFieldNameDropsFirstBrackets(a: string, b: string, c: string)
    requires '[' !in a && ']' !in a + b
    ensures EnsureFieldName(a + "[" + b + "]" + c) == Trim(a + b + c)
  {
    OpenThenClose(a, b, c);
  }

  /** A `]` before the first `[` is the one removed: `a]b[c` becomes `abc`. */
  lemma EnsureFieldNameDropsCloseBeforeOpen(a: string, b: string, c: string)
    requires ']' !in a && '[' !in a + b
    ensures EnsureFieldName(a + "]" + b + "[" + c) == Trim(a + b + c)
  {
    CloseThenOpen(a, b, c);
  }

  /** A lone `[` with no `]` anywhere is removed. */
  lemma EnsureFieldNameDropsLoneOpen(a: string, c: string)
    requires '[' !in a && ']' !in a + c
    ensures EnsureFieldName(a + "[" + c) == Trim(a + c)
  {
    RemoveFirstOfConcat(a, '[', c);
  }

  /** A lone `]` with no `[` anywhere is removed. */
  lemma EnsureFieldNameDropsLoneClose(a: string, c: string)
    requires ']' !in a && '[' !in a + c
    ensures EnsureFieldName(a + "]" + c) == Trim(a + c)
  {
    NotInAfterInsert(a, ']', c, '[');
    RemoveFirstOfConcat(a, ']', c);
  }

  lemma CloseThenOpen(a: string, b: string, c: string)
    requires ']' !in a && '[' !in a + b
    ensures RemoveFirst(RemoveFirst(a + "]" + b + "[" + c, '['), ']') == a + b + c
  {
    OpenAfterClose(a, b, c);
    CloseBeforeRest(a, b, c);
  }

  lemma OpenAfterClose(a: string, b: string, c: string)
    requires ']' !in a && '[' !in a + b
    ensures RemoveFirst(a + "]" + b + "[" + c, '[') == a + "]" + b + c
  {
    NotInAfterInsert(a, ']', b, '[');
    RemoveFirstOfConcat(a + "]" + b, '[', c);
  }

  lemma CloseBeforeRest(a: string, b: string, c: string)
    requires ']' !in a
    ensures RemoveFirst(a + "]" + b + c, ']') == a + b + c
  {
    assert a + "]" + b + c == a + [']'] + (b + c);
    RemoveFirstOfConcat(a, ']', b + c);
    assert a + (b + c) == a + b + c;
  }

  lemma OpenThenClose(a: string, b: string, c: string)
    requires '[' !in a && ']' !in a + b
    ensures RemoveFirst(RemoveFirst(a + "[" + b + "]" + c, '['), ']') == a + b + c
  {
    assert a + "[" + b + "]" + c == a + ['['] + (b + "]" + c);
    RemoveFirstOfConcat(a, '[', b + "]" + c);
    assert a + (b + "]" + c) == (a + b) + [']'] + c;
    RemoveFirstOfConcat(a + b, ']', c);
  }

  // ----- ensureFieldValue -----

  /** `ensureFieldValue` as written: the test for a string is inverted, so a
      value text is returned as it is and only `true`/`null` go through
      `JSON.parse`, which leaves them unchanged. The reading is therefore the
      identity on the raw argument. */
  function FieldValueAsWritten(a: Arg): Value {
    ArgValue(a)
  }

  predicate IsJsonSpace(c: char) {
    c == ' ' || c == '\t' || c == '\n' || c == '\r'
  }

  function JsonTrimStart(s: string): (r: string)
    ensures |r| <= |s| && r == s[|s| - |r|..]
    ensures |r| > 0 ==> !IsJsonSpace(r[0])
  {
    if |s| > 0 && IsJsonSpace(s[0]) then JsonTrimStart(s[1..]) else s
  }

  function JsonTrimEnd(s: string): (r: string)
    ensures |r| <= |s| && r == s[..|r|]
    ensures |r| > 0 ==> !IsJsonSpace(r[|r| - 1])
  {
    if |s| > 0 && IsJsonSpace(s[|s| - 1]) then JsonTrimEnd(s[..|s| - 1]) else s
  }

  /** A JSON integer literal: optional minus, then `0` or digits not starting
      with `0`. */
  predicate IsJsonInt(t: string) {
    var d := if |t| > 0 && t[0] == '-' then t[1..] else t;
    |d| > 0 && AllDigits(d) && (d[0] == '0' ==> |d| == 1)
  }

  /** A JSON string literal without escapes or control characters. */
  predicate IsPlainJsonString(t: string) {
    && |t| >= 2 && t[0] == '"' && t[|t| - 1] == '"'
    && forall k :: 1 <= k < |t| - 1 ==> t[k] != '"' && t[k] != '\\' && t[k] >= ' '
  }

  /** `JSON.parse` on the scalars a directive value can hold: `null`, booleans,
      integers and strings without escapes. Anything else is `None`, which the
      caller treats like a parse error. */
  function JsonScalar(s: string): (r: Option<Value>)
    ensures r.Some? ==> r.value.Null? || r.value.Bool? || r.value.Int? || r.value.Str?
  {
    var t := JsonTrimEnd(JsonTrimStart(s));
    if t == "null" then Some(Null)
    else if t == "true" then Some(Bool(true))
    else if t == "false" then Some(Bool(false))
    else if IsJsonInt(t) then
      var magnitude: int := if t[0] == '-' then DigitsValue(t[1..]) else DigitsValue(t);
      Some(Int(if t[0] == '-' then -magnitude else magnitude))
    else if IsPlainJsonString(t) then Some(Str(t[1..|t| - 1]))
    else None
  }

  /** The text of a JSON scalar. */
  function JsonText(v: Value): string
    requires v.Null? || v.Bool? || v.Int?
  {
    match v
    case Null => "null"
    case Bool(b) => if b then "true" else "false"
    case Int(i) => IntToString(i)
  }

  /** `JSON.parse` reads back the text of every `null`, boolean and integer. */
  lemma JsonScalarOfText(v: Value)
    requires v.Null? || v.Bool? || v.Int?
    ensures JsonScalar(JsonText(v)) == Some(v)
  {
    match v
    case Null => JsonScalarOfWord("null");
    case Bool(b) => JsonScalarOfWord(if b then "true" else "false");
    case Int(i) => JsonScalarOfInt(i);
  }

  lemma JsonScalarOfWord(t: string)
    requires t == "null" || t == "true" || t == "false"
    ensures JsonScalar(t) == Some(if t == "null" then Null else Bool(t == "true"))
  {
    JsonTrimmedWord(t);
  }

  lemma JsonTrimmedWord(t: string)
    requires |t| > 0 && IsLetter(t[0]) && IsLetter(t[|t| - 1])
    ensures JsonTrimEnd(JsonTrimStart(t)) == t
  {
    JsonTrimKeeps(t);
  }

  /** A text with no JSON white space at either end is its own trimmed form. */
  lemma JsonTrimKeeps(t: string)
    requires |t| > 0 && !IsJsonSpace(t[0]) && !IsJsonSpace(t[|t| - 1])
    ensures JsonTrimEnd(JsonTrimStart(t)) == t
  {
    assert JsonTrimStart(t) == t;
  }

  lemma JsonScalarOfInt(i: int)
    ensures JsonScalar(IntToString(i)) == Some(Int(i))
  {
    var t := IntToString(i);
    IntToStringIsJsonInt(i);
    JsonTrimmedNumber(t);
    assert t != "null" && t != "true" && t != "false" by {
      assert IsDigit(t[0]) || t[0] == '-';
    }
  }

  /** The decimal text of an integer is a JSON integer with that value. */
  lemma IntToStringIsJsonInt(i: int)
    ensures var t := IntToString(i);
      && IsJsonInt(t) && (IsDigit(t[0]) || t[0] == '-') && IsDigit(t[|t| - 1])
      && (t[0] == '-' ==> i < 0 && AllDigits(t[1..]) && -i == DigitsValue(t[1..]))
      && (t[0] != '-' ==> i >= 0 && AllDigits(t) && i == DigitsValue(t))
  {
    var t := IntToString(i);
    var n := NatToString(if i < 0 then -i else i);
    assert IsDigit(n[0]) && IsDigit(n[|n| - 1]);
    DigitsValueOfNat(if i < 0 then -i else i);
    if i < 0 {
      assert t[1..] == n;
    }
  }

  lemma JsonTrimmedNumber(t: string)
    requires |t| > 0 && (IsDigit(t[0]) || t[0] == '-') && IsDigit(t[|t| - 1])
    ensures JsonTrimEnd(JsonTrimStart(t)) == t
  {
    var first, last := t[0], t[|t| - 1];
    assert !IsJsonSpace(first) by {
      assert IsDigit(first) || first == '-';
    }
    assert !IsJsonSpace(last) by {
      assert '0' <= last <= '9';
    }
    JsonTrimKeeps(t);
  }

  /** `ensureFieldValue` as evidently intended: a value text goes through
      `JSON.parse`, and a text that does not parse is kept as it is. */
  function FieldValue(a: Arg): (v: Value)
    ensures !a.Text? ==> v == FieldValueAsWritten(a)
    ensures a.Text? && JsonScalar(a.text).None? ==> v == Str(a.text)
  {
    match a
    case Absent => Null
    case Flag => Bool(true)
    case Text(s) =>
      match JsonScalar(s)
      case Some(v) => v
      case None => Str(s)
  }

  /** The two readings differ on every number given as text: as written
      `value="42"` stays the text `"42"`, corrected it is the number 42. */
  lemma FieldValueAsWrittenKeepsNumberText(i: int)
    ensures FieldValueAsWritten(Text(IntToString(i))) == Str(IntToString(i))
    ensures FieldValue(Text(IntToString(i))) == Int(i)
    ensures Str(IntToString(i)) != Int(i)
  {
    JsonScalarOfInt(i);
  }

  /** The corrected reading turns the text of any `null`, boolean or integer
      back into that value; plain words stay text. */
  lemma FieldValueReadsScalars(v: Value)
    requires v.Null? || v.Bool? || v.Int?
    ensures FieldValue(Text(JsonText(v))) == v
  {
    JsonScalarOfText(v);
  }

  lemma FieldValueKeepsWords()
    ensures FieldValue(Text("online")) == Str("online")
  {
    var t := "online";
    assert JsonTrimStart(t) == t;
    assert JsonTrimEnd(t) == t;
    assert !IsJsonInt(t) by { assert !IsDigit(t[0]); }
  }

  // ----- macroToField -----

  /** Which `ensureFieldValue` a compiler applies to the `value` parameter: the
      code as written, or the corrected reading that parses the text as JSON. */
  datatype ValueReading = AsWritten | ParsesJson

  function ReadValue(a: Arg, reading: ValueReading): (v: Value)
    ensures reading.AsWritten? ==> v == ArgValue(a)
    ensures reading.ParsesJson? ==> v == FieldValue(a)
  {
    match reading
    case AsWritten => FieldValueAsWritten(a)
    case ParsesJson => FieldValue(a)
  }

  /** `macroToField` with a choice of value reading: the first parameter's value
      is the path, the others are looked up by name. Fails when the path is
      missing or empty. */
  function CompileField(m: Macro, reading: ValueReading): (r: Result<Field>)
    ensures r.Err? <==> |m.params| == 0 || m.params[0].value.None? || m.params[0].value.value == ""
    ensures r.Err? ==> r.error == MissingFieldName
    ensures r.Ok? ==> r.value.macroName == m.name && r.value.options.None? && r.value.absoluteOrder.None?
    ensures r.Ok? ==> r.value.value == ReadValue(GetArg(m.params[1..], "value"), reading)
  {
    if |m.params| == 0 || m.params[0].value.None? || m.params[0].value.value == "" then
      Err(MissingFieldName)
    else
      var args := m.params[1..];
      Ok(Field(
        kind := ArgString(GetArg(args, "type"), DEFAULT_FIELD_TYPE),
        name := EnsureFieldName(m.params[0].value.value),
        labelText := ArgNullableString(GetArg(args, "label")),
        descr := ArgNullableString(GetArg(args, "descr")),
        hint := ArgNullableString(GetArg(args, "hint")),
        min := ArgNumber(GetArg(args, "min")),
        max := ArgNumber(GetArg(args, "max")),
        minLength := ArgNumber(GetArg(args, "minLength")),
        maxLength := ArgNumber(GetArg(args, "maxLength")),
        order := ArgNumber(GetArg(args, "order")),
        value := ReadValue(GetArg(args, "value"), reading),
        isRequired := !GetArg(args, "required").Absent?,
        options := None,
        macroName := m.name,
        absoluteOrder := None))
  }

  /** `macroToField` as written. Without a `type` the field is a `string`; the
      `value` is the raw parameter: its text stays text, a bare flag is `true`
      and a missing one is `null`. */
  function MacroToField(m: Macro): (r: Result<Field>)
    ensures r.Err? <==> |m.params| == 0 || m.params[0].value.None? || m.params[0].value.value == ""
    ensures r.Err? ==> r.error == MissingFieldName
    ensures r.Ok? ==> r.value.macroName == m.name && r.value.options.None? && r.value.absoluteOrder.None?
    ensures r.Ok? && GetArg(m.params[1..], "type").Absent? ==> r.value.kind == DEFAULT_FIELD_TYPE
    ensures r.Ok? && GetArg(m.params[1..], "type").Text? ==> r.value.kind == GetArg(m.params[1..], "type").text
    ensures r.Ok? && GetArg(m.params[1..], "value").Text? ==> r.value.value == Str(GetArg(m.params[1..], "value").text)
    ensures r.Ok? && GetArg(m.params[1..], "value").Flag? ==> r.value.value == Bool(true)
    ensures r.Ok? && GetArg(m.params[1..], "value").Absent? ==> r.value.value == Null
    ensures r.Ok? ==> r.value.name == EnsureFieldName(m.params[0].value.value)
    ensures r.Ok? ==> (r.value.isRequired <==> !GetArg(m.params[1..], "required").Absent?)
    ensures r.Ok? ==> r.value.order == ArgNumber(GetArg(m.params[1..], "order"))
    ensures r.Ok? && GetArg(m.params[1..], "order").Absent? ==> r.value.order.None?
  {
    CompileField(m, AsWritten)
  }

  /** `macroToField` with the corrected `ensureFieldValue`: the same field, except
      that a `value` text is read as JSON. */
  function MacroToFieldCorrected(m: Macro): (r: Result<Field>)
    ensures r.Ok? <==> MacroToField(m).Ok?
    ensures r.Ok? ==> r.value == MacroToField(m).value.(value := FieldValue(GetArg(m.params[1..], "value")))
  {
    CompileField(m, ParsesJson)
  }

  // ----- macroToFieldValueOption -----

  /** `macroToFieldValueOption` with a choice of value reading: the first
      parameter's value names the option, `for` names its field. Fails when
      either is missing or empty. */
  function CompileOption(m: Macro, reading: ValueReading): (r: Result<FieldOption>)
    ensures r.Err? <==>
      (|m.params| == 0 || m.params[0].value.None? || m.params[0].value.value == ""
       || GetArg(m.params[1..], "for").Absent?)
    ensures r.Ok? ==> r.value.name == m.params[0].value.value && Truthy(r.value.fieldName)
    ensures r.Ok? ==> r.value.value == ReadValue(GetArg(m.params[1..], "value"), reading)
  {
    if |m.params| == 0 || m.params[0].value.None? || m.params[0].value.value == "" then
      Err(MissingOptionName)
    else
      var args := m.params[1..];
      var name := m.params[0].value.value;
      var fieldName := ArgValue(GetArg(args, "for"));
      if !Truthy(fieldName) then Err(MissingFor(name))
      else
        Ok(FieldOption(
          kind := ArgString(GetArg(args, "type"), DEFAULT_FIELD_TYPE),
          name := name,
          fieldName := fieldName,
          labelText := ArgValue(GetArg(args, "label")),
          descr := ArgValue(GetArg(args, "descr")),
          value := ReadValue(GetArg(args, "value"), reading),
          isDisabled := !GetArg(args, "disabled").Absent?))
  }

  /** `macroToFieldValueOption` as written. Without a `type` the option is a
      `string`; the `value` is the raw parameter, its text kept as text. */
  function MacroToOption(m: Macro): (r: Result<FieldOption>)
    ensures r.Err? <==>
      (|m.params| == 0 || m.params[0].value.None? || m.params[0].value.value == ""
       || GetArg(m.params[1..], "for").Absent?)
    ensures r.Ok? ==> r.value.name == m.params[0].value.value && Truthy(r.value.fieldName)
    ensures r.Ok? && GetArg(m.params[1..], "type").Absent? ==> r.value.kind == DEFAULT_FIELD_TYPE
    ensures r.Ok? && GetArg(m.params[1..], "type").Text? ==> r.value.kind == GetArg(m.params[1..], "type").text
    ensures r.Ok? && GetArg(m.params[1..], "value").Text? ==> r.value.value == Str(GetArg(m.params[1..], "value").text)
    ensures r.Ok? && GetArg(m.params[1..], "value").Flag? ==> r.value.value == Bool(true)
    ensures r.Ok? && GetArg(m.params[1..], "value").Absent? ==> r.value.value == Null
    ensures r.Ok? ==> r.value.fieldName == ArgValue(GetArg(m.params[1..], "for"))
    ensures r.Ok? ==> (r.value.isDisabled <==> !GetArg(m.params[1..], "disabled").Absent?)
  {
    CompileOption(m, AsWritten)
  }

  /** `macroToFieldValueOption` with the corrected `ensureFieldValue`. */
  function MacroToOptionCorrected(m: Macro): (r: Result<FieldOption>)
    ensures r.Ok? <==> MacroToOption(m).Ok?
    ensures r.Ok? ==> r.value == MacroToOption(m).value.(value := FieldValue(GetArg(m.params[1..], "value")))
  {
    CompileOption(m, ParsesJson)
  }

  // ----- applyValueOptionsToFields -----

  /** The options whose `for` is exactly the field's name, in list order. */
  function OptionsFor(options: seq<FieldOption>, name: string): (r: seq<FieldOption>)
    ensures forall o :: o in r <==> o in options && o.fieldName == Str(name)
    ensures |r| <= |options|
    ensures (forall o :: o in options ==> o.fieldName != Str(name)) ==> r == []
  {
    if |options| == 0 then []
    else if options[0].fieldName == Str(name) then [options[0]] + OptionsFor(options[1..], name)
    else OptionsFor(options[1..], name)
  }

  /** `f` and `g` differ at most in their options. */
  predicate SameButOptions(f: Field, g: Field) {
    f.(options := None) == g.(options := None)
  }

  /** `applyValueOptionsToFields`: every field some option is `for` gets the
      list of those options; the other fields keep theirs. */
  function ApplyValueOptions(options: seq<FieldOption>, fields: seq<Field>): (r: seq<Field>)
    ensures |r| == |fields|
    ensures forall i :: 0 <= i < |r| ==> SameButOptions(r[i], fields[i])
    ensures forall i :: 0 <= i < |r| ==>
      r[i].options == if |OptionsFor(options, fields[i].name)| > 0
                      then Some(OptionsFor(options, fields[i].name)) else fields[i].options
  {
    if |fields| == 0 then []
    else
      var f := fields[0];
      var matching := OptionsFor(options, f.name);
      [if |matching| > 0 then f.(options := Some(matching)) else f]
        + ApplyValueOptions(options, fields[1..])
  }

  /** A field gets options exactly when some option names it, and then holds
      exactly those options. */
  lemma ApplyValueOptionsSpec(options: seq<FieldOption>, fields: seq<Field>, i: nat)
    requires i < |fields|
    ensures (exists o :: o in options && o.fieldName == Str(fields[i].name)) ==>
      ApplyValueOptions(options, fields)[i].options.Some? &&
      forall o :: o in ApplyValueOptions(options, fields)[i].options.value <==>
        o in options && o.fieldName == Str(fields[i].name)
    ensures (forall o :: o in options ==> o.fieldName != Str(fields[i].name)) ==>
      ApplyValueOptions(options, fields)[i] == fields[i]
  {
    var matching := OptionsFor(options, fields[i].name);
    if exists o :: o in options && o.fieldName == Str(fields[i].name) {
      var o :| o in options && o.fieldName == Str(fields[i].name);
      assert o in matching;
    }
  }

  /** Applying the same options twice changes nothing more. */
  lemma ApplyValueOptionsIdempotent(options: seq<FieldOption>, fields: seq<Field>)
    ensures ApplyValueOptions(options, ApplyValueOptions(options, fields)) == ApplyValueOptions(options, fields)
  {
    var once := ApplyValueOptions(options, fields);
    var twice := ApplyValueOptions(options, once);
    forall i | 0 <= i < |once|
      ensures twice[i] == once[i]
    {
      assert once[i].name == fields[i].name;
      assert twice[i].(options := None) == once[i].(options := None);
    }
  }

  // ----- applyAbsoluteOrderToFields -----

  function ApplyAbsoluteOrderFrom(fields: seq<Field>, start: nat): (r: seq<Field>)
    ensures |r| == |fields|
    ensures forall i :: 0 <= i < |r| ==> r[i] == fields[i].(absoluteOrder := Some(start + i))
  {
    if |fields| == 0 then []
    else [fields[0].(absoluteOrder := Some(start))] + ApplyAbsoluteOrderFrom(fields[1..], start + 1)
  }

  /** `applyAbsoluteOrderToFields`: every field records its position in the
      list as its `absoluteOrder`; nothing else changes. */
  function ApplyAbsoluteOrder(fields: seq<Field>): (r: seq<Field>)
    ensures |r| == |fields|
    ensures forall i :: 0 <= i < |r| ==> r[i].absoluteOrder == Some(i)
    ensures forall i :: 0 <= i < |r| ==> r[i].(absoluteOrder := None) == fields[i].(absoluteOrder := None)
  {
    ApplyAbsoluteOrderFrom(fields, 0)
  }

  /** Numbering an already numbered list changes nothing. */
  lemma ApplyAbsoluteOrderIdempotent(fields: seq<Field>)
    ensures ApplyAbsoluteOrder(ApplyAbsoluteOrder(fields)) == ApplyAbsoluteOrder(fields)
  {
    var once := ApplyAbsoluteOrder(fields);
    var twice := ApplyAbsoluteOrder(once);
    forall i | 0 <= i < |once|
      ensures twice[i] == once[i]
    {
      assert twice[i].(absoluteOrder := None) == once[i].(absoluteOrder := None);
    }
  }

  // ----- round trip through a directive -----

  /** One named parameter of a directive, given or not; a given parameter with
      no value is a bare flag. */
  datatype Entry = Entry(key: string, present: bool, text: Option<string>)

  function EntryParams(e: Entry): seq<Param> {
    if e.present then [Param(e.key, e.text)] else []
  }

  function Args(entries: seq<Entry>): (r: seq<Param>)
    ensures forall k :: 0 <= k < |r| ==> exists j :: 0 <= j < |entries| && r[k].name == entries[j].key
  {
    if |entries| == 0 then []
    else
      var r := EntryParams(entries[0]) + Args(entries[1..]);
      assert forall k :: |EntryParams(entries[0])| <= k < |r| ==>
        r[k] == Args(entries[1..])[k - |EntryParams(entries[0])|];
      r
  }

  predicate DistinctKeys(entries: seq<Entry>) {
    forall a, b :: 0 <= a < b < |entries| ==> entries[a].key != entries[b].key
  }

  lemma GetArgSkip(front: seq<Param>, rest: seq<Param>, key: string)
    requires forall k :: 0 <= k < |front| ==> front[k].name != key
    ensures GetArg(front + rest, key) == GetArg(rest, key)
  {
    var all := front + rest;
    match FirstNamed(rest, key)
    case None =>
      assert forall k :: 0 <= k < |all| ==> all[k].name != key by {
        forall k | 0 <= k < |all|
          ensures all[k].name != key
        {
          if k >= |front| {
            assert all[k] == rest[k - |front|];
          }
        }
      }
    case Some(i) =>
      assert all[|front| + i] == rest[i];
      var j := FirstNamed(all, key).value;
      assert j >= |front|;
      assert all[j] == rest[j - |front|];
  }

  lemma GetArgHead(p: Param, rest: seq<Param>, key: string)
    requires p.name == key
    ensures GetArg([p] + rest, key) == GetArg([p], key)
  {
  }

  lemma ArgsWithoutKey(entries: seq<Entry>, key: string)
    requires forall j :: 0 <= j < |entries| ==> entries[j].key != key
    ensures forall k :: 0 <= k < |Args(entries)| ==> Args(entries)[k].name != key
  {
  }

  /** With distinct keys, each key is read from its own entry. */
  lemma {:induction false} GetArgOfEntries(entries: seq<Entry>, j: nat)
    requires DistinctKeys(entries) && j < |entries|
    ensures GetArg(Args(entries), entries[j].key) == GetArg(EntryParams(entries[j]), entries[j].key)
  {
    var key := entries[j].key;
    var front := EntryParams(entries[0]);
    var rest := Args(entries[1..]);
    assert Args(entries) == front + rest;
    if j == 0 {
      if entries[0].present {
        GetArgHead(front[0], rest, key);
      } else {
        assert front + rest == rest;
        ArgsWithoutKey(entries[1..], key);
      }
    } else {
      GetArgSkip(front, rest, key);
      assert entries[1..][j - 1] == entries[j];
      GetArgOfEntries(entries[1..], j - 1);
    }
  }

  lemma ReadEntry(e: Entry)
    requires e.key != ""
    ensures !e.present ==> GetArg(EntryParams(e), e.key) == Absent
    ensures e.present && e.text.None? ==> GetArg(EntryParams(e), e.key) == Flag
    ensures e.present && e.text.Some? && e.text.value != "" ==> GetArg(EntryParams(e), e.key) == Text(e.text.value)
  {
  }

  function TextEntry(key: string, s: Option<string>): Entry {
    Entry(key, s.Some?, s)
  }

  function NumberEntry(key: string, n: Option<int>): Entry {
    Entry(key, n.Some?, if n.Some? then Some(IntToString(n.value)) else None)
  }

  function ValueEntry(v: Value): Entry
    requires v.Null? || v.Bool? || v.Int?
  {
    Entry("value", !v.Null?, if v.Null? then None else Some(JsonText(v)))
  }

  /** A value the directive's `value` parameter can state under a reading: as
      written, a bare flag or a non-empty text; corrected, the JSON text of
      `null`, a boolean or an integer. */
  predicate IsDirectiveValue(v: Value, reading: ValueReading) {
    match reading
    case AsWritten => IsArgValue(v)
    case ParsesJson => v.Null? || v.Bool? || v.Int?
  }

  /** The `value` parameter that states `v` under a reading. */
  function ValueEntryFor(v: Value, reading: ValueReading): Entry
    requires IsDirectiveValue(v, reading)
  {
    match reading
    case AsWritten => ArgValueEntry("value", v)
    case ParsesJson => ValueEntry(v)
  }

  function FieldEntries(f: Field, reading: ValueReading): seq<Entry>
    requires IsDirectiveValue(f.value, reading)
  {
    [ Entry("type", true, Some(f.kind)),
      TextEntry("label", f.labelText), TextEntry("descr", f.descr), TextEntry("hint", f.hint),
      NumberEntry("min", f.min), NumberEntry("max", f.max),
      NumberEntry("minLength", f.minLength), NumberEntry("maxLength", f.maxLength),
      NumberEntry("order", f.order),
      ValueEntryFor(f.value, reading),
      Entry("required", f.isRequired, None) ]
  }

  /** A field a directive can state: a clean non-empty path, a type, non-empty
      texts, a value the reading can produce, and nothing set by the later
      passes. */
  predicate IsDirectiveField(f: Field, reading: ValueReading) {
    && f.name != "" && '[' !in f.name && ']' !in f.name && Trim(f.name) == f.name
    && f.kind != ""
    && (f.labelText.Some? ==> f.labelText.value != "")
    && (f.descr.Some? ==> f.descr.value != "")
    && (f.hint.Some? ==> f.hint.value != "")
    && IsDirectiveValue(f.value, reading)
    && f.options.None? && f.absoluteOrder.None?
  }

  /** The directive that states a field: its path first, then one named
      parameter per set attribute, and `required` as a flag. */
  function FieldDirective(f: Field, reading: ValueReading): Macro
    requires IsDirectiveValue(f.value, reading)
  {
    Macro(f.macroName, [Param(f.name, Some(f.name))] + Args(FieldEntries(f, reading)))
  }

  lemma ReadNumberEntry(key: string, n: Option<int>)
    requires key != ""
    ensures ArgNumber(GetArg(EntryParams(NumberEntry(key, n)), key)) == n
  {
    if n.Some? {
      var t := IntToString(n.value);
      assert |t| > 0;
      NumberOfIntToString(n.value);
    }
  }

  lemma ReadTextEntry(key: string, s: Option<string>)
    requires key != "" && (s.Some? ==> s.value != "")
    ensures ArgNullableString(GetArg(EntryParams(TextEntry(key, s)), key)) == s
  {
  }

  lemma ReadValueEntry(v: Value)
    requires v.Null? || v.Bool? || v.Int?
    ensures FieldValue(GetArg(EntryParams(ValueEntry(v)), "value")) == v
  {
    if !v.Null? {
      ValueEntryReadsText(v);
      JsonScalarOfText(v);
    }
  }

  lemma ValueEntryReadsText(v: Value)
    requires v.Bool? || v.Int?
    ensures GetArg(EntryParams(ValueEntry(v)), "value") == Text(JsonText(v))
  {
    JsonTextNotEmpty(v);
    ReadEntry(ValueEntry(v));
  }

  lemma JsonTextNotEmpty(v: Value)
    requires v.Null? || v.Bool? || v.Int?
    ensures JsonText(v) != ""
  {
    if v.Int? {
      IntToStringIsJsonInt(v.i);
    }
  }

  lemma ReadValueEntryFor(v: Value, reading: ValueReading)
    requires IsDirectiveValue(v, reading)
    ensures ReadValue(GetArg(EntryParams(ValueEntryFor(v, reading)), "value"), reading) == v
  {
    match reading
    case AsWritten => ReadArgValueEntry("value", v);
    case ParsesJson => ReadValueEntry(v);
  }

  /** The parameter names of a field directive, in order. */
  const FIELD_KEYS: seq<string> :=
    ["type", "label", "descr", "hint", "min", "max", "minLength", "maxLength", "order", "value", "required"]

  lemma FieldKeysDistinct()
    ensures forall a, b :: 0 <= a < b < |FIELD_KEYS| ==> FIELD_KEYS[a] != FIELD_KEYS[b]
  {
  }

  lemma FieldEntriesDistinct(f: Field, reading: ValueReading)
    requires IsDirectiveValue(f.value, reading)
    ensures DistinctKeys(FieldEntries(f, reading))
  {
    var e := FieldEntries(f, reading);
    assert |e| == |FIELD_KEYS| && forall j :: 0 <= j < |e| ==> e[j].key == FIELD_KEYS[j];
    FieldKeysDistinct();
  }

  /** Each attribute is read back from its own parameter of the directive. */
  lemma FieldDirectiveArg(f: Field, reading: ValueReading, j: nat)
    requires IsDirectiveValue(f.value, reading) && j < |FieldEntries(f, reading)|
    ensures GetArg(FieldDirective(f, reading).params[1..], FieldEntries(f, reading)[j].key)
      == GetArg(EntryParams(FieldEntries(f, reading)[j]), FieldEntries(f, reading)[j].key)
  {
    assert FieldDirective(f, reading).params[1..] == Args(FieldEntries(f, reading));
    FieldEntriesDistinct(f, reading);
    GetArgOfEntries(FieldEntries(f, reading), j);
  }

  lemma FieldDirectiveText(f: Field, reading: ValueReading, j: nat, key: string, t: Option<string>)
    requires IsDirectiveValue(f.value, reading) && j < |FieldEntries(f, reading)|
    requires FieldEntries(f, reading)[j] == TextEntry(key, t) && key != "" && (t.Some? ==> t.value != "")
    ensures ArgNullableString(GetArg(FieldDirective(f, reading).params[1..], key)) == t
  {
    FieldDirectiveArg(f, reading, j);
    ReadTextEntry(key, t);
  }

  lemma FieldDirectiveNumber(f: Field, reading: ValueReading, j: nat, key: string, n: Option<int>)
    requires IsDirectiveValue(f.value, reading) && j < |FieldEntries(f, reading)|
    requires FieldEntries(f, reading)[j] == NumberEntry(key, n) && key != ""
    ensures ArgNumber(GetArg(FieldDirective(f, reading).params[1..], key)) == n
  {
    FieldDirectiveArg(f, reading, j);
    ReadNumberEntry(key, n);
  }

  lemma FieldDirectiveTexts(f: Field, reading: ValueReading)
    requires IsDirectiveValue(f.value, reading) && f.kind != ""
    requires (f.labelText.Some? ==> f.labelText.value != "") && (f.descr.Some? ==> f.descr.value != "") && (f.hint.Some? ==> f.hint.value != "")
    ensures var args := FieldDirective(f, reading).params[1..];
      && GetArg(args, "type") == Text(f.kind)
      && ArgNullableString(GetArg(args, "label")) == f.labelText
      && ArgNullableString(GetArg(args, "descr")) == f.descr
      && ArgNullableString(GetArg(args, "hint")) == f.hint
  {
    FieldDirectiveArg(f, reading, 0);
    FieldDirectiveText(f, reading, 1, "label", f.labelText);
    FieldDirectiveText(f, reading, 2, "descr", f.descr);
    FieldDirectiveText(f, reading, 3, "hint", f.hint);
  }

  lemma FieldDirectiveBounds(f: Field, reading: ValueReading)
    requires IsDirectiveValue(f.value, reading)
    ensures var args := FieldDirective(f, reading).params[1..];
      && ArgNumber(GetArg(args, "min")) == f.min
      && ArgNumber(GetArg(args, "max")) == f.max
      && ArgNumber(GetArg(args, "minLength")) == f.minLength
      && ArgNumber(GetArg(args, "maxLength")) == f.maxLength
  {
    FieldDirectiveNumber(f, reading, 4, "min", f.min);
    FieldDirectiveNumber(f, reading, 5, "max", f.max);
    FieldDirectiveNumber(f, reading, 6, "minLength", f.minLength);
    FieldDirectiveNumber(f, reading, 7, "maxLength", f.maxLength);
  }

  lemma FieldDirectiveRest(f: Field, reading: ValueReading)
    requires IsDirectiveValue(f.value, reading)
    ensures var args := FieldDirective(f, reading).params[1..];
      && ArgNumber(GetArg(args, "order")) == f.order
      && ReadValue(GetArg(args, "value"), reading) == f.value
      && (GetArg(args, "required").Absent? <==> !f.isRequired)
  {
    FieldDirectiveNumber(f, reading, 8, "order", f.order);
    FieldDirectiveArg(f, reading, 9);
    ReadValueEntryFor(f.value, reading);
    FieldDirectiveArg(f, reading, 10);
  }

  /** The named parameters `args` state every directive attribute of `f`. */
  predicate ReadsBack(args: seq<Param>, f: Field, reading: ValueReading) {
    && GetArg(args, "type") == Text(f.kind)
    && ArgNullableString(GetArg(args, "label")) == f.labelText
    && ArgNullableString(GetArg(args, "descr")) == f.descr
    && ArgNullableString(GetArg(args, "hint")) == f.hint
    && ArgNumber(GetArg(args, "min")) == f.min
    && ArgNumber(GetArg(args, "max")) == f.max
    && ArgNumber(GetArg(args, "minLength")) == f.minLength
    && ArgNumber(GetArg(args, "maxLength")) == f.maxLength
    && ArgNumber(GetArg(args, "order")) == f.order
    && ReadValue(GetArg(args, "value"), reading) == f.value
    && (GetArg(args, "required").Absent? <==> !f.isRequired)
  }

  /** A directive whose parameters read back every attribute of `f` compiles
      to `f`. */
  lemma CompileFieldReads(m: Macro, f: Field, reading: ValueReading)
    requires |m.params| > 0 && m.params[0].value == Some(f.name) && m.name == f.macroName
    requires IsDirectiveField(f, reading) && ReadsBack(m.params[1..], f, reading)
    ensures CompileField(m, reading) == Ok(f)
  {
    CompileFieldReadsName(m, f, reading);
    CompileFieldReadsTexts(m, f, reading);
    CompileFieldReadsNumbers(m, f, reading);
    var g := CompileField(m, reading).value;
    FieldsAgree(g, f);
  }

  lemma CompileFieldReadsName(m: Macro, f: Field, reading: ValueReading)
    requires |m.params| > 0 && m.params[0].value == Some(f.name) && IsDirectiveField(f, reading)
    ensures CompileField(m, reading).Ok? && CompileField(m, reading).value.name == f.name
  {
    EnsureFieldNameKeepsCleanNames(f.name);
  }

  lemma CompileFieldReadsTexts(m: Macro, f: Field, reading: ValueReading)
    requires |m.params| > 0 && m.params[0].value == Some(f.name) && f.name != ""
    requires ReadsBack(m.params[1..], f, reading)
    ensures CompileField(m, reading).Ok?
    ensures var g := CompileField(m, reading).value;
      && g.kind == f.kind && g.isRequired == f.isRequired
      && g.labelText == f.labelText && g.descr == f.descr && g.hint == f.hint
  {
    var args := m.params[1..];
    var g := CompileField(m, reading).value;
    assert g.kind == ArgString(GetArg(args, "type"), DEFAULT_FIELD_TYPE);
    assert GetArg(args, "type") == Text(f.kind);
  }

  lemma CompileFieldReadsNumbers(m: Macro, f: Field, reading: ValueReading)
    requires |m.params| > 0 && m.params[0].value == Some(f.name) && f.name != ""
    requires ReadsBack(m.params[1..], f, reading)
    ensures CompileField(m, reading).Ok?
    ensures var g := CompileField(m, reading).value;
      && g.min == f.min && g.max == f.max && g.minLength == f.minLength && g.maxLength == f.maxLength
      && g.order == f.order && g.value == f.value
  {
  }

  /** Two fields that agree on every attribute are equal. */
  lemma FieldsAgree(g: Field, f: Field)
    requires g.kind == f.kind && g.name == f.name && g.labelText == f.labelText && g.descr == f.descr
    requires g.hint == f.hint && g.min == f.min && g.max == f.max && g.minLength == f.minLength
    requires g.maxLength == f.maxLength && g.order == f.order && g.value == f.value
    requires g.isRequired == f.isRequired && g.options == f.options && g.macroName == f.macroName
    requires g.absoluteOrder == f.absoluteOrder
    ensures g == f
  {
  }

  lemma CompileFieldRoundTrip(f: Field, reading: ValueReading)
    requires IsDirectiveField(f, reading)
    ensures CompileField(FieldDirective(f, reading), reading) == Ok(f)
  {
    FieldDirectiveTexts(f, reading);
    FieldDirectiveBounds(f, reading);
    FieldDirectiveRest(f, reading);
    CompileFieldReads(FieldDirective(f, reading), f, reading);
  }

  /** As written, compiling the directive of a field gives that field back
      when its value is `null`, `true` or a non-empty text. */
  lemma MacroToFieldRoundTrip(f: Field)
    requires IsDirectiveField(f, AsWritten)
    ensures MacroToField(FieldDirective(f, AsWritten)) == Ok(f)
  {
    CompileFieldRoundTrip(f, AsWritten);
  }

  /** With the corrected value reading the round trip also holds for `false`
      and for integers, written as their JSON text. */
  lemma MacroToFieldCorrectedRoundTrip(f: Field)
    requires IsDirectiveField(f, ParsesJson)
    ensures MacroToFieldCorrected(FieldDirective(f, ParsesJson)) == Ok(f)
  {
    CompileFieldRoundTrip(f, ParsesJson);
  }

  /** A value a bare flag or a non-empty text can state. */
  predicate IsArgValue(v: Value) {
    v.Null? || v == Bool(true) || (v.Str? && v.s != "")
  }

  function ArgValueEntry(key: string, v: Value): Entry {
    Entry(key, !v.Null?, if v.Str? then Some(v.s) else None)
  }

  lemma ReadArgValueEntry(key: string, v: Value)
    requires key != "" && IsArgValue(v)
    ensures ArgValue(GetArg(EntryParams(ArgValueEntry(key, v)), key)) == v
  {
  }

  function OptionEntries(o: FieldOption, reading: ValueReading): seq<Entry>
    requires IsDirectiveValue(o.value, reading)
  {
    [ ArgValueEntry("for", o.fieldName),
      Entry("type", true, Some(o.kind)),
      ArgValueEntry("label", o.labelText), ArgValueEntry("descr", o.descr),
      ValueEntryFor(o.value, reading),
      Entry("disabled", o.isDisabled, None) ]
  }

  /** An option a directive can state: a non-empty name and type, a `for`
      that is set, flag-or-text labels and a value the reading can produce. */
  predicate IsDirectiveOption(o: FieldOption, reading: ValueReading) {
    && o.name != "" && o.kind != ""
    && IsArgValue(o.fieldName) && !o.fieldName.Null?
    && IsArgValue(o.labelText) && IsArgValue(o.descr)
    && IsDirectiveValue(o.value, reading)
  }

  function OptionDirective(o: FieldOption, reading: ValueReading): Macro
    requires IsDirectiveOption(o, reading)
  {
    Macro(Some("option"), [Param(o.name, Some(o.name))] + Args(OptionEntries(o, reading)))
  }

  lemma OptionDirectiveArg(o: FieldOption, reading: ValueReading, j: nat)
    requires IsDirectiveOption(o, reading) && j < |OptionEntries(o, reading)|
    ensures GetArg(OptionDirective(o, reading).params[1..], OptionEntries(o, reading)[j].key)
      == GetArg(EntryParams(OptionEntries(o, reading)[j]), OptionEntries(o, reading)[j].key)
  {
    assert OptionDirective(o, reading).params[1..] == Args(OptionEntries(o, reading));
    assert DistinctKeys(OptionEntries(o, reading));
    GetArgOfEntries(OptionEntries(o, reading), j);
  }

  lemma OptionDirectiveReads(o: FieldOption, reading: ValueReading)
    requires IsDirectiveOption(o, reading)
    ensures var args := OptionDirective(o, reading).params[1..];
      && ArgValue(GetArg(args, "for")) == o.fieldName
      && GetArg(args, "type") == Text(o.kind)
      && ArgValue(GetArg(args, "label")) == o.labelText
  {
    OptionDirectiveArg(o, reading, 0);
    ReadArgValueEntry("for", o.fieldName);
    OptionDirectiveArg(o, reading, 1);
    OptionDirectiveArg(o, reading, 2);
    ReadArgValueEntry("label", o.labelText);
  }

  lemma OptionDirectiveReadsRest(o: FieldOption, reading: ValueReading)
    requires IsDirectiveOption(o, reading)
    ensures var args := OptionDirective(o, reading).params[1..];
      && ArgValue(GetArg(args, "descr")) == o.descr
      && ReadValue(GetArg(args, "value"), reading) == o.value
      && (GetArg(args, "disabled").Absent? <==> !o.isDisabled)
  {
    OptionDirectiveReadsDescr(o, reading);
    OptionDirectiveArg(o, reading, 4);
    ReadValueEntryFor(o.value, reading);
    OptionDirectiveArg(o, reading, 5);
  }

  lemma OptionDirectiveReadsDescr(o: FieldOption, reading: ValueReading)
    requires IsDirectiveOption(o, reading)
    ensures ArgValue(GetArg(OptionDirective(o, reading).params[1..], "descr")) == o.descr
  {
    OptionDirectiveArg(o, reading, 3);
    ReadArgValueEntry("descr", o.descr);
  }

  lemma CompileOptionRoundTrip(o: FieldOption, reading: ValueReading)
    requires IsDirectiveOption(o, reading)
    ensures CompileOption(OptionDirective(o, reading), reading) == Ok(o)
  {
    var m := OptionDirective(o, reading);
    OptionDirectiveReads(o, reading);
    OptionDirectiveReadsRest(o, reading);
    CompileOptionOfArgs(m, o, reading);
  }

  /** As written, compiling the directive of an option gives that option back
      when its value is `null`, `true` or a non-empty text. */
  lemma MacroToOptionRoundTrip(o: FieldOption)
    requires IsDirectiveOption(o, AsWritten)
    ensures MacroToOption(OptionDirective(o, AsWritten)) == Ok(o)
  {
    CompileOptionRoundTrip(o, AsWritten);
  }

  /** With the corrected value reading the round trip also holds for `false`
      and for integers. */
  lemma MacroToOptionCorrectedRoundTrip(o: FieldOption)
    requires IsDirectiveOption(o, ParsesJson)
    ensures MacroToOptionCorrected(OptionDirective(o, ParsesJson)) == Ok(o)
  {
    CompileOptionRoundTrip(o, ParsesJson);
  }

  /** A macro naming the option and carrying arguments that read back as its
      parts compiles to that option. */
  lemma CompileOptionOfArgs(m: Macro, o: FieldOption, reading: ValueReading)
    requires IsDirectiveOption(o, reading)
    requires |m.params| > 0 && m.params[0].value == Some(o.name)
    requires var args := m.params[1..];
      && ArgValue(GetArg(args, "for")) == o.fieldName
      && GetArg(args, "type") == Text(o.kind)
      && ArgValue(GetArg(args, "label")) == o.labelText
      && ArgValue(GetArg(args, "descr")) == o.descr
      && ReadValue(GetArg(args, "value"), reading) == o.value
      && (GetArg(args, "disabled").Absent? <==> !o.isDisabled)
    ensures CompileOption(m, reading) == Ok(o)
  {
    var args := m.params[1..];
    assert Truthy(o.fieldName);
    assert ArgString(GetArg(args, "type"), DEFAULT_FIELD_TYPE) == o.kind;
  }
}

=== FILE: jsvalue.dfy ===
/** The slice of JavaScript values the engine touches: template data, directive
    values and helper arguments. Numbers are integers only. */
module JsValue {
  import opened Base
  import opened Text

  datatype Value =
    | Undefined
    | Null
    | Int(i: int)
    | Str(s: string)
    | Bool(b: bool)
    | Obj(fields: map<string, Value>)
    | Arr(items: seq<Value>)

  /** `inarr(val, ...arr)`, i.e. `arr.includes(val)`; objects compare structurally. */
  function InArr(v: Value, arr: seq<Value>): (r: bool)
    ensures r <==> v in arr
  {
    if |arr| == 0 then false else arr[0] == v || InArr(v, arr[1..])
  }

  /** `isset`: everything except `null` and `undefined` is set. */
  function IsSet(v: Value): (r: bool)
    ensures r <==> !v.Null? && !v.Undefined?
  {
    !InArr(v, [Null, Undefined])
  }

  /** The `a ?? b` operator. */
  function Coalesce(a: Value, b: Value): (r: Value)
    ensures IsSet(a) ==> r == a
    ensures !IsSet(a) ==> r == b
  {
    if IsSet(a) then a else b
  }

  /** JavaScript truthiness. */
  predicate Truthy(v: Value) {
    match v
    case Undefined => false
    case Null => false
    case Int(i) => i != 0
    case Str(s) => s != ""
    case Bool(b) => b
    case Obj(_) => true
    case Arr(_) => true
  }

  function DigitChar(d: nat): char
    requires d < 10
  {
    "0123456789"[d]
  }

  function DigitValue(c: char): nat
    requires IsDigit(c)
  {
    (c as int - '0' as int) as nat
  }

  /** Decimal text of a natural number, without leading zeros. */
  function NatToString(n: nat): (r: string)
    ensures |r| >= 1 && forall k :: 0 <= k < |r| ==> IsDigit(r[k])
    ensures r[0] == '0' ==> n == 0
  {
    if n < 10 then [DigitChar(n)] else NatToString(n / 10) + [DigitChar(n % 10)]
  }

  /** `String(n)` for an integer. */
  function IntToString(i: int): string {
    if i < 0 then "-" + NatToString(-i) else NatToString(i)
  }

  predicate AllDigits(s: string) {
    forall k :: 0 <= k < |s| ==> IsDigit(s[k])
  }

  /** Value of a run of decimal digits. */
  function DigitsValue(s: string): nat
    requires AllDigits(s)
  {
    if |s| == 0 then 0 else 10 * DigitsValue(s[..|s| - 1]) + DigitValue(s[|s| - 1])
  }

  /** `Number(s)` where it yields an integer: surrounding whitespace ignored, blank
      text is 0, an optional sign, then decimal digits. Everything else is `None`
      (JavaScript's `NaN`, or a fraction, exponent or radix form the model leaves out). */
  function NumberOfText(s: string): Option<int> {
    var t := Trim(s);
    if |t| == 0 then Some(0)
    else if (t[0] == '-' || t[0] == '+') && |t| > 1 && AllDigits(t[1..]) then
      var magnitude: int := DigitsValue(t[1..]);
      Some(if t[0] == '-' then -magnitude else magnitude)
    else if AllDigits(t) then Some(DigitsValue(t))
    else None
  }

  lemma {:induction false} DigitsValueOfNat(n: nat)
    ensures DigitsValue(NatToString(n)) == n
  {
    if n >= 10 {
      DigitsValueOfNat(n / 10);
      var s := NatToString(n);
      assert s[..|s| - 1] == NatToString(n / 10);
    }
  }

  lemma NoSpaceInNumber(i: int)
    ensures !IsJsSpace(IntToString(i)[0]) && !IsJsSpace(IntToString(i)[|IntToString(i)| - 1])
  {
    var n := NatToString(if i < 0 then -i else i);
    assert IsDigit(n[0]) && IsDigit(n[|n| - 1]);
  }

  /** Reading back the decimal text of an integer gives the integer. */
  lemma NumberOfIntToString(i: int)
    ensures NumberOfText(IntToString(i)) == Some(i)
  {
    IntToStringTrimmed(i);
    if i < 0 {
      NegativeText(i);
    } else {
      NonNegativeText(i);
    }
  }

  lemma IntToStringTrimmed(i: int)
    ensures Trim(IntToString(i)) == IntToString(i)
  {
    var s := IntToString(i);
    NoSpaceInNumber(i);
    assert TrimStart(s) == s;
    assert TrimEnd(s) == s;
  }

  lemma NegativeText(i: int)
    requires i < 0
    ensures var s := IntToString(i);
      && |s| > 1 && s[0] == '-' && AllDigits(s[1..]) && DigitsValue(s[1..]) == -i
  {
    DigitsValueOfNat(-i);
    SignedDigits(NatToString(-i), -i);
  }

  lemma SignedDigits(n: string, v: nat)
    requires AllDigits(n) && |n| >= 1 && DigitsValue(n) == v
    ensures var s := "-" + n;
      && |s| > 1 && s[0] == '-' && s[1..] == n && AllDigits(s[1..]) && DigitsValue(s[1..]) == v
  {
    assert ("-" + n)[1..] == n;
  }

  lemma NonNegativeText(i: int)
    requires i >= 0
    ensures var s := IntToString(i);
      && |s| > 0 && s[0] != '-' && s[0] != '+' && AllDigits(s) && DigitsValue(s) == i
  {
    var s := IntToString(i);
    assert IsDigit(s[0]);
    DigitsValueOfNat(i);
  }

  /** `String(v)`; inside an array `null` and `undefined` print as nothing. */
  function ToJsString(v: Value): string
    decreases v
  {
    match v
    case Undefined => "undefined"
    case Null => "null"
    case Int(i) => IntToString(i)
    case Str(s) => s
    case Bool(b) => if b then "true" else "false"
    case Obj(_) => "[object Object]"
    case Arr(items) => JoinValues(items)
  }

  function JoinValues(items: seq<Value>): string
    decreases items
  {
    if |items| == 0 then ""
    else
      var head := if items[0].Null? || items[0].Undefined? then "" else ToJsString(items[0]);
      if |items| == 1 then head else head + "," + JoinValues(items[1..])
  }

  /** A canonical array index: decimal digits without a superfluous leading zero. */
  predicate IsIndexKey(key: string) {
    |key| > 0 && AllDigits(key) && (key[0] != '0' || |key| == 1)
  }

  /** The property access `v[key]`. Reading from `null`/`undefined` throws; a
      missing property reads as `undefined`. A string's `length` and indices
      count UTF-16 code units. */
  function Lookup(v: Value, key: string): (r: Result<Value>)
    ensures r.Err? <==> v.Null? || v.Undefined?
    ensures v.Obj? ==> r == Ok(if key in v.fields then v.fields[key] else Undefined)
    ensures v.Arr? && key == "length" ==> r == Ok(Int(|v.items|))
    ensures v.Str? && key == "length" ==> r == Ok(Int(Utf16Length(v.s)))
    ensures v.Str? && r.Ok? && r.value.Str? ==> |r.value.s| == 1 && r.value.s[0] in v.s
  {
    match v
    case Undefined => Err(TypeError)
    case Null => Err(TypeError)
    case Obj(m) => Ok(if key in m then m[key] else Undefined)
    case Arr(items) =>
      if key == "length" then Ok(Int(|items|))
      else if IsIndexKey(key) && DigitsValue(key) < |items| then Ok(items[DigitsValue(key)])
      else Ok(Undefined)
    case Str(s) =>
      if key == "length" then Ok(Int(Utf16Length(s)))
      else if IsIndexKey(key) && DigitsValue(key) < Utf16Length(s) then Ok(Str([CodeUnitAt(s, DigitsValue(key)).0]))
      else Ok(Undefined)
    case _ => Ok(Undefined)
  }

  /** On a string without astral characters, an index key reads the character
      it numbers, and any index past the end reads `undefined`. */
  lemma LookupBmpIndex(s: string, key: string)
    requires forall j :: 0 <= j < |s| ==> !IsAstral(s[j])
    requires IsIndexKey(key)
    ensures DigitsValue(key) < |s| ==> Lookup(Str(s), key) == Ok(Str([s[DigitsValue(key)]]))
    ensures DigitsValue(key) >= |s| ==> Lookup(Str(s), key) == Ok(Undefined)
  {
    Utf16LengthIsCountIff(s);
    if DigitsValue(key) < |s| {
      CodeUnitAtOfBmp(s, DigitsValue(key));
    }
  }
}

=== FILE: legacy.dfy ===
/** The older copy of the analysis functions in src/lib.ts. Its
    `pathToDataModelNode`, `addPath`, `getMacroParam` and `getMacroParams` are the
    same as the newer ones and are shared with the `PathTrie` and `Directives`
    modules; what differs is stated here: `getPaths` keeps the block-helper
    keywords, `getDataModel` adds every later path, and `getMacros` records a
    placeholder for a directive it cannot read instead of giving up. */
module Legacy {
  import opened Base
  import opened Text
  import opened Paths
  import opened PathTrie
  import opened Directives

  /** The older `getPaths`: the distinct path expressions, keywords included. */
  function CollectPaths(exprs: seq<string>): (r: seq<string>)
    ensures forall x :: x in r <==> x in exprs
    ensures NoDuplicates(r)
  {
    Unique(exprs)
  }

  /** The older `getDataModel`: every later path is added, scoped or not. */
  function GetDataModel(exprs: seq<string>): Result<Node> {
    var paths := CollectPaths(exprs);
    if |paths| == 0 then Ok(Node("root", []))
    else
      var model :- PathToDataModel(paths[0], DEFAULT_MODEL_DEPTH);
      AddEach(model, paths[1..], DEFAULT_MODEL_DEPTH)
  }

  /** A list of paths fits a depth iff its head and its tail do. */
  lemma FitSplit(paths: seq<string>, depth: int)
    requires |paths| > 0
    ensures (forall j :: 0 <= j < |paths| ==> |Segments(paths[j])| <= depth) <==>
      && |Segments(paths[0])| <= depth
      && forall j :: 0 <= j < |paths[1..]| ==> |Segments(paths[1..][j])| <= depth
  {
    if |Segments(paths[0])| <= depth && forall j :: 0 <= j < |paths[1..]| ==> |Segments(paths[1..][j])| <= depth {
      forall j | 0 <= j < |paths|
        ensures |Segments(paths[j])| <= depth
      {
        if j > 0 {
          assert paths[j] == paths[1..][j - 1];
        }
      }
    }
  }

  /** The older `getDataModel` fails only when some distinct path expression is
      deeper than the default depth. */
  lemma GetDataModelOk(exprs: seq<string>)
    ensures GetDataModel(exprs).Ok? <==>
      forall j :: 0 <= j < |CollectPaths(exprs)| ==> |Segments(CollectPaths(exprs)[j])| <= DEFAULT_MODEL_DEPTH
  {
    var paths := CollectPaths(exprs);
    if |paths| > 0 {
      PathToNodeIsChain(paths[0], DEFAULT_MODEL_DEPTH);
      FitSplit(paths, DEFAULT_MODEL_DEPTH);
      if |Segments(paths[0])| <= DEFAULT_MODEL_DEPTH {
        var model := PathToDataModel(paths[0], DEFAULT_MODEL_DEPTH).value;
        AddEachOk(model, paths[1..], DEFAULT_MODEL_DEPTH);
      }
    }
  }

  /** A tree the older `getDataModel` yields is the merge of every distinct
      path expression. */
  lemma GetDataModelMerges(exprs: seq<string>)
    requires GetDataModel(exprs).Ok?
    ensures MergeOf(GetDataModel(exprs).value, CollectPaths(exprs))
  {
    var paths := CollectPaths(exprs);
    if |paths| > 0 {
      var first := paths[0];
      var model := PathToDataModel(first, DEFAULT_MODEL_DEPTH).value;
      RootOfFirstPathIsMerge(first);
      AddEachMerges(model, [first], paths[1..], DEFAULT_MODEL_DEPTH);
      assert [first] + paths[1..] == paths;
    }
  }

  /** The older `getDataModel` fails only on the depth guard, and its tree is
      exactly the merge of every distinct path expression. */
  lemma GetDataModelSpec(exprs: seq<string>)
    ensures GetDataModel(exprs).Ok? <==>
      forall j :: 0 <= j < |CollectPaths(exprs)| ==> |Segments(CollectPaths(exprs)[j])| <= DEFAULT_MODEL_DEPTH
    ensures GetDataModel(exprs).Ok? ==> MergeOf(GetDataModel(exprs).value, CollectPaths(exprs))
  {
    GetDataModelOk(exprs);
    if GetDataModel(exprs).Ok? {
      GetDataModelMerges(exprs);
    }
  }

  lemma {:induction false} NoKeywordsKept(exprs: seq<string>)
    requires forall i :: 0 <= i < |exprs| ==> !IsControlKeyword(exprs[i])
    ensures DropControlKeywords(exprs) == exprs
  {
    if |exprs| > 0 {
      NoKeywordsKept(exprs[1..]);
      assert exprs == [exprs[0]] + exprs[1..];
    }
  }

  lemma {:induction false} NoScopedKept(paths: seq<string>)
    requires forall i :: 0 <= i < |paths| ==> !IsScopedPath(paths[i])
    ensures Unscoped(paths) == paths
  {
    if |paths| > 0 {
      NoScopedKept(paths[1..]);
      assert paths == [paths[0]] + paths[1..];
    }
  }

  /** Without keyword expressions and without scoped later paths, the two
      copies of `getPaths` and `getDataModel` agree. */
  lemma AgreesWithoutKeywordsOrScopes(exprs: seq<string>)
    requires forall i :: 0 <= i < |exprs| ==> !IsControlKeyword(exprs[i])
    requires forall i :: 1 <= i < |Unique(exprs)| ==> !IsScopedPath(Unique(exprs)[i])
    ensures Paths.CollectPaths(exprs) == CollectPaths(exprs)
    ensures PathTrie.GetDataModel(exprs) == GetDataModel(exprs)
  {
    NoKeywordsKept(exprs);
    var paths := CollectPaths(exprs);
    if |paths| > 0 {
      var r := PathToDataModel(paths[0], DEFAULT_MODEL_DEPTH);
      if r.Ok? {
        AddLaterPathsSkipsScoped(r.value, paths[1..], DEFAULT_MODEL_DEPTH);
        forall i | 0 <= i < |paths[1..]|
          ensures !IsScopedPath(paths[1..][i])
        {
          assert paths[1..][i] == paths[i + 1];
        }
        NoScopedKept(paths[1..]);
      }
    }
  }

  /** The older `getMacros` loop: a comment that does not match throws with
      `doWarn`; without it a macro with no name and no parameters is recorded
      and the loop goes on. */
  function GetMacrosFrom(comments: seq<string>, doWarn: bool): Result<seq<Macro>> {
    if |comments| == 0 then Ok([])
    else
      match MatchMacro(Trim(comments[0]))
      case None =>
        if doWarn then Err(BadMacro(comments[0]))
        else
          var rest :- GetMacrosFrom(comments[1..], doWarn);
          Ok([Macro(None, [])] + rest)
      case Some((name, paramsText)) =>
        var params :- ParseParams(paramsText, doWarn);
        var rest :- GetMacrosFrom(comments[1..], doWarn);
        Ok([Macro(Some(name), params)] + rest)
  }

  function GetMacros(comments: seq<string>, doWarn: bool): Result<seq<Macro>> {
    GetMacrosFrom(CollectDirectiveComments(comments), doWarn)
  }

  /** On comments that all match, the two loops give the same macros and the
      same failures. */
  lemma {:induction false} GetMacrosFromAgrees(comments: seq<string>, doWarn: bool)
    requires forall i :: 0 <= i < |comments| ==> IsDirectiveComment(comments[i])
    ensures Directives.GetMacrosFrom(comments, doWarn) ==
      match GetMacrosFrom(comments, doWarn)
      case Ok(ms) => Ok(Some(ms))
      case Err(e) => Err(e)
  {
    if |comments| > 0 {
      GetMacrosFromAgrees(comments[1..], doWarn);
      Directives.GetMacrosFromDirectives(comments[1..], doWarn);
    }
  }

  /** Since both collectors keep only matching comments, the two copies of
      `getMacros` agree on every template. */
  lemma GetMacrosAgrees(comments: seq<string>, doWarn: bool)
    ensures Directives.GetMacros(comments, doWarn) ==
      match GetMacros(comments, doWarn)
      case Ok(ms) => Ok(Some(ms))
      case Err(e) => Err(e)
  {
    GetMacrosFromAgrees(CollectDirectiveComments(comments), doWarn);
  }

  /** Where the loops differ, on a comment that does not match and without
      `doWarn`: the newer one gives up with `null`, the older one records a
      placeholder. Neither collector hands such a comment to its loop. */
  lemma UnreadableDirectiveLoops()
    ensures Directives.GetMacrosFrom(["x"], false) == Ok(None)
    ensures GetMacrosFrom(["x"], false) == Ok([Macro(None, [])])
    ensures !IsDirectiveComment("x")
  {
    assert Trim("x") == "x";
    var cs := ["x"];
    assert cs[1..] == [];
    assert GetMacrosFrom(cs[1..], false) == Ok([]);
    assert [Macro(None, [])] + [] == [Macro(None, [])];
  }

  /** A block-helper keyword is a node of the older model only. */
  lemma KeywordPathExample()
    ensures Paths.CollectPaths(["if", "a"]) == ["a"]
    ensures CollectPaths(["if", "a"]) == ["if", "a"]
  {
    var xs := ["if", "a"];
    assert xs[1..] == ["a"];
    assert "a" !in {"if"};
    assert UniqueFrom(["a"], {"if"}) == ["a"];
    assert UniqueFrom(xs, {}) == ["if"] + ["a"];
  }
}

=== FILE: match.dfy ===
/** The `match` helper module (src/modules/match/index.ts): `{{#match v}}` stores
    `v` and clears the completed flag, each `{{#match:case a b …}}` renders its
    block when no earlier case completed and the stored value equals one of
    its arguments by value (objects and arrays included, where `===` would
    compare references), and `{{#match:fallback}}` is a case whose only
    argument is the stored value. Block bodies are plain text here. */
module MatchHelper {
  import opened Base
  import opened JsValue

  /** One helper inside a match block. */
  datatype Arm =
    | Case(args: seq<Value>, body: string)
    | Fallback(body: string)

  /** What the helpers keep on the shared `self` object. */
  datatype MatchState = MatchState(value: Value, isCompleted: bool)

  /** A `{{#match value}}` block with its helpers in template order. */
  datatype Block = Block(value: Value, arms: seq<Arm>)

  /** `_match`: whatever was stored before is replaced. */
  function Begin(value: Value): (st: MatchState)
    ensures st.value == value && !st.isCompleted
  {
    MatchState(value, false)
  }

  /** `_case`: the rendered text and the state after it. */
  function CaseStep(st: MatchState, args: seq<Value>, body: string): (r: (string, MatchState))
    ensures r.1.value == st.value
    ensures r.0 == body || r.0 == ""
    ensures r.1.isCompleted <==> st.isCompleted || Coalesce(st.value, Null) in args
    ensures !st.isCompleted && Coalesce(st.value, Null) in args ==> r.0 == body
    ensures st.isCompleted ==> r.0 == ""
  {
    if !st.isCompleted && InArr(Coalesce(st.value, Null), args) then (body, st.(isCompleted := true))
    else ("", st)
  }

  /** `_fallback`: a case on the stored value itself. */
  function FallbackStep(st: MatchState, body: string): (r: (string, MatchState))
    ensures r == (if st.isCompleted then ("", st) else (body, st.(isCompleted := true)))
  {
    CaseStep(st, [Coalesce(st.value, Null)], body)
  }

  function Step(st: MatchState, arm: Arm): (string, MatchState) {
    match arm
    case Case(args, body) => CaseStep(st, args, body)
    case Fallback(body) => FallbackStep(st, body)
  }

  /** The helpers of one block in order, threading the shared state. */
  function RenderArms(st: MatchState, arms: seq<Arm>): (string, MatchState)
    decreases |arms|
  {
    if |arms| == 0 then ("", st)
    else
      var (out, st1) := Step(st, arms[0]);
      var (rest, st2) := RenderArms(st1, arms[1..]);
      (out + rest, st2)
  }

  /** What a match block renders. */
  function RenderBlock(b: Block): string {
    RenderArms(Begin(b.value), b.arms).0
  }

  /** Consecutive blocks rendered one after the other on the same `self`. */
  function RenderBlocks(st: MatchState, blocks: seq<Block>): (string, MatchState)
    decreases |blocks|
  {
    if |blocks| == 0 then ("", st)
    else
      var (out, st1) := RenderArms(Begin(blocks[0].value), blocks[0].arms);
      var (rest, st2) := RenderBlocks(st1, blocks[1..]);
      (out + rest, st2)
  }

  // ----- reference: the first arm that matches -----

  /** Whether an arm accepts the stored value; a fallback accepts any. */
  predicate Accepts(value: Value, arm: Arm) {
    match arm
    case Case(args, _) => Coalesce(value, Null) in args
    case Fallback(_) => true
  }

  /** The index of the first arm accepting `value`. */
  function FirstMatch(value: Value, arms: seq<Arm>): (r: Option<nat>)
    ensures r.Some? ==> r.value < |arms| && Accepts(value, arms[r.value])
    ensures r.Some? ==> forall j :: 0 <= j < r.value ==> !Accepts(value, arms[j])
    ensures r.None? ==> forall j :: 0 <= j < |arms| ==> !Accepts(value, arms[j])
  {
    if |arms| == 0 then None
    else if Accepts(value, arms[0]) then Some(0)
    else
      match FirstMatch(value, arms[1..])
      case None => None
      case Some(i) => Some(i + 1)
  }

  /** Once a case has completed, nothing else in the block renders. */
  lemma {:induction false} CompletedRendersNothing(value: Value, arms: seq<Arm>)
    ensures RenderArms(MatchState(value, true), arms) == ("", MatchState(value, true))
    decreases |arms|
  {
    if |arms| > 0 {
      CompletedRendersNothing(value, arms[1..]);
      assert "" + "" == "";
    }
  }

  /** From a fresh state the helpers render exactly the first accepting arm's
      body, and the block ends completed iff some arm accepted. */
  lemma {:induction false} RenderArmsIsFirstMatch(value: Value, arms: seq<Arm>)
    ensures RenderArms(MatchState(value, false), arms).0
      == (match FirstMatch(value, arms) case Some(i) => arms[i].body case None => "")
    ensures RenderArms(MatchState(value, false), arms).1 == MatchState(value, FirstMatch(value, arms).Some?)
    decreases |arms|
  {
    if |arms| > 0 {
      if Accepts(value, arms[0]) {
        CompletedRendersNothing(value, arms[1..]);
        assert arms[0].body + "" == arms[0].body;
      } else {
        RenderArmsIsFirstMatch(value, arms[1..]);
      }
    }
  }

  /** Only the first matching case or fallback of a block renders. */
  lemma RenderBlockIsFirstMatch(b: Block)
    ensures RenderBlock(b) == (match FirstMatch(b.value, b.arms) case Some(i) => b.arms[i].body case None => "")
  {
    RenderArmsIsFirstMatch(b.value, b.arms);
  }

  /** A fallback renders iff no case before it accepts the value. */
  lemma FallbackRendersIffNoEarlierCase(b: Block, i: nat)
    requires i < |b.arms| && b.arms[i].Fallback?
    ensures FirstMatch(b.value, b.arms) == Some(i) <==> forall j :: 0 <= j < i ==> !Accepts(b.value, b.arms[j])
  {
    var m := FirstMatch(b.value, b.arms);
    if forall j :: 0 <= j < i ==> !Accepts(b.value, b.arms[j]) {
      assert Accepts(b.value, b.arms[i]);
      assert m.Some? && m.value <= i;
    }
  }

  /** Each block starts afresh: what came before on `self` does not matter. */
  lemma {:induction false} BlocksAreIsolated(st: MatchState, blocks: seq<Block>)
    ensures RenderBlocks(st, blocks).0 == RenderEach(blocks)
    decreases |blocks|
  {
    if |blocks| > 0 {
      var st1 := RenderArms(Begin(blocks[0].value), blocks[0].arms).1;
      BlocksAreIsolated(st1, blocks[1..]);
    }
  }

  /** The blocks rendered one by one, each on its own. */
  function RenderEach(blocks: seq<Block>): string {
    if |blocks| == 0 then "" else RenderBlock(blocks[0]) + RenderEach(blocks[1..])
  }

  /** Two cases on the same value: the first one wins. */
  lemma FirstOfEqualCasesWins()
    ensures RenderBlock(Block(Str("ok"),
      [Case([Str("ok")], "Primary"), Case([Str("ok")], "Secondary"), Fallback("Fallback")])) == "Primary"
  {
    var b := Block(Str("ok"), [Case([Str("ok")], "Primary"), Case([Str("ok")], "Secondary"), Fallback("Fallback")]);
    RenderBlockIsFirstMatch(b);
    assert Accepts(b.value, b.arms[0]);
  }
}

=== FILE: metadata.dfy ===
/** `dataModelNodeToMetadata` of src/lib/index.ts: every node of the data model
    tree becomes a metadata node that carries the attributes of the field whose
    dotted name matches its position, with its children ordered by the fields'
    `order` and then by directive position. */
module Metadata {
  import opened Base
  import opened PathTrie
  import opened Fields
  import opened Ordering

  /** A metadata node; `fieldName` is the record's `extra` part. */
  datatype MetaNode = MetaNode(
    kind: string,
    name: string,
    labelText: Option<string>,
    hint: Option<string>,
    min: Option<int>,
    max: Option<int>,
    minLength: Option<int>,
    maxLength: Option<int>,
    order: Option<int>,
    options: Option<seq<FieldOption>>,
    isRequired: bool,
    fieldName: string,
    children: seq<MetaNode>)

  /** The `getField` helper: the first field with the given name. */
  function FindField(fields: seq<Field>, name: string): (r: Option<Field>)
    ensures r.None? <==> forall i :: 0 <= i < |fields| ==> fields[i].name != name
    ensures r.Some? ==>
      exists i :: 0 <= i < |fields| && fields[i] == r.value && forall j :: 0 <= j < i ==> fields[j].name != name
    ensures r.Some? ==> r.value.name == name
  {
    if |fields| == 0 then None
    else if fields[0].name == name then Some(fields[0])
    else
      var r := FindField(fields[1..], name);
      if r.Some? then
        var i :| 0 <= i < |fields[1..]| && fields[1..][i] == r.value
          && (forall j :: 0 <= j < i ==> fields[1..][j].name != name);
        assert fields[i + 1] == r.value;
        assert forall j :: 0 <= j < i + 1 ==> fields[j].name != name by {
          forall j | 1 <= j < i + 1
            ensures fields[j].name != name
          {
            assert fields[j] == fields[1..][j - 1];
          }
        }
        r
      else r
  }

  /** What the sibling comparator reads of a node: the `order` and
      `absoluteOrder` of its field, both unset when there is no field. */
  function FieldKey(fields: seq<Field>, fieldName: string): SortKey {
    match FindField(fields, fieldName)
    case None => SortKey(None, None)
    case Some(f) => SortKey(f.order, f.absoluteOrder)
  }

  function SiblingKey(fields: seq<Field>): MetaNode -> SortKey {
    (m: MetaNode) => FieldKey(fields, m.fieldName)
  }

  /** The dotted field name a child is looked up by. */
  function ChildFieldName(fieldName: string, child: Node): string {
    fieldName + "." + child.name
  }

  /** The metadata node for `node`, given its field name and the metadata of its
      children in data-model order. */
  function Describe(node: Node, fields: seq<Field>, name: string, kids: seq<MetaNode>): MetaNode {
    var children := SortBy(kids, SiblingKey(fields));
    var hasChildren := |node.children| > 0;
    match FindField(fields, name)
    case None =>
      MetaNode(
        if hasChildren then "object" else DEFAULT_FIELD_TYPE,
        node.name, None, None, None, None, None, None, None, None,
        hasChildren && forall i :: 0 <= i < |kids| ==> kids[i].isRequired,
        name, children)
    case Some(f) =>
      MetaNode(
        if hasChildren then "object" else f.kind,
        node.name, f.labelText, f.hint, f.min, f.max, f.minLength, f.maxLength, f.order, f.options,
        f.isRequired, name, children)
  }

  /** `dataModelNodeToMetadata(node, fields, { fieldName }, depth)`; a `None`
      field name stands for the omitted option, which falls back to the node's
      own name. */
  function NodeToMetadata(node: Node, fields: seq<Field>, fieldName: Option<string>, depth: int): Result<MetaNode>
    decreases depth, 1, 0
  {
    if depth <= 0 then Err(PotentialLoop)
    else
      var name := if fieldName.Some? then fieldName.value else node.name;
      match ChildrenToMetadata(node.children, fields, name, depth)
      case Err(e) => Err(e)
      case Ok(kids) => Ok(Describe(node, fields, name, kids))
  }

  /** The loop over the children of a node called `name`: each child's metadata,
      in data-model order, one depth unit lower; the first error aborts. */
  function ChildrenToMetadata(cs: seq<Node>, fields: seq<Field>, name: string, depth: int): (r: Result<seq<MetaNode>>)
    requires depth > 0
    ensures r.Ok? ==> |r.value| == |cs|
    decreases depth, 0, |cs|
  {
    if |cs| == 0 then Ok([])
    else
      match NodeToMetadata(cs[0], fields, Some(ChildFieldName(name, cs[0])), depth - 1)
      case Err(e) => Err(e)
      case Ok(m) =>
        match ChildrenToMetadata(cs[1..], fields, name, depth)
        case Err(e) => Err(e)
        case Ok(ms) => Ok([m] + ms)
  }

  // ----- height and depth -----

  /** The number of levels of a data-model tree; a lone node has height 1. */
  function Height(n: Node): (h: nat)
    ensures h >= 1
    decreases n, 1
  {
    1 + ForestHeight(n.children)
  }

  /** The height of the tallest tree of a list; 0 for no trees. */
  function ForestHeight(cs: seq<Node>): (h: nat)
    ensures forall i :: 0 <= i < |cs| ==> Height(cs[i]) <= h
    decreases cs, 0
  {
    if |cs| == 0 then 0
    else
      var rest := ForestHeight(cs[1..]);
      assert forall i :: 1 <= i < |cs| ==> cs[i] == cs[1..][i - 1];
      if Height(cs[0]) >= rest then Height(cs[0]) else rest
  }

  // ----- depth -----

  /** The metadata exists exactly when the tree is no taller than the depth
      budget; otherwise the potential-loop error is raised. */
  lemma {:induction false} MetadataOkIffFits(node: Node, fields: seq<Field>, fieldName: Option<string>, depth: int)
    ensures NodeToMetadata(node, fields, fieldName, depth).Ok? <==> Height(node) <= depth
    ensures NodeToMetadata(node, fields, fieldName, depth).Err? ==>
      NodeToMetadata(node, fields, fieldName, depth).error == PotentialLoop
    decreases depth, 1, 0
  {
    if depth > 0 {
      ChildrenOkIffFit(node.children, fields, if fieldName.Some? then fieldName.value else node.name, depth);
    }
  }

  lemma {:induction false} ChildrenOkIffFit(cs: seq<Node>, fields: seq<Field>, name: string, depth: int)
    requires depth > 0
    ensures ChildrenToMetadata(cs, fields, name, depth).Ok? <==> ForestHeight(cs) <= depth - 1
    ensures ChildrenToMetadata(cs, fields, name, depth).Err? ==>
      ChildrenToMetadata(cs, fields, name, depth).error == PotentialLoop
    decreases depth, 0, |cs|
  {
    if |cs| > 0 {
      MetadataOkIffFits(cs[0], fields, Some(ChildFieldName(name, cs[0])), depth - 1);
      ChildrenOkIffFit(cs[1..], fields, name, depth);
    }
  }

  /** A larger depth budget changes nothing once the tree fits. */
  lemma {:induction false} DepthIrrelevant(node: Node, fields: seq<Field>, fieldName: Option<string>, d1: int, d2: int)
    requires Height(node) <= d1 <= d2
    ensures NodeToMetadata(node, fields, fieldName, d1) == NodeToMetadata(node, fields, fieldName, d2)
    decreases d1, 1, 0
  {
    ChildrenDepthIrrelevant(node.children, fields, if fieldName.Some? then fieldName.value else node.name, d1, d2);
  }

  lemma {:induction false} ChildrenDepthIrrelevant(cs: seq<Node>, fields: seq<Field>, name: string, d1: int, d2: int)
    requires ForestHeight(cs) <= d1 - 1 && 0 < d1 <= d2
    ensures ChildrenToMetadata(cs, fields, name, d1) == ChildrenToMetadata(cs, fields, name, d2)
    decreases d1, 0, |cs|
  {
    if |cs| > 0 {
      ForestHeightSplit(cs);
      ChildDepthIrrelevant(cs[0], fields, Some(ChildFieldName(name, cs[0])), d1, d2);
      ChildrenDepthIrrelevant(cs[1..], fields, name, d1, d2);
      ChildrenCongruence(cs, fields, name, d1, d2);
    }
  }

  /** `DepthIrrelevant` one level down, for a child of a node. */
  lemma ChildDepthIrrelevant(child: Node, fields: seq<Field>, fieldName: Option<string>, d1: int, d2: int)
    requires Height(child) <= d1 - 1 && d1 <= d2
    ensures NodeToMetadata(child, fields, fieldName, d1 - 1) == NodeToMetadata(child, fields, fieldName, d2 - 1)
    decreases d1, 0, 0
  {
    DepthIrrelevant(child, fields, fieldName, d1 - 1, d2 - 1);
  }

  /** The first child and the remaining siblings are no taller than the forest. */
  lemma ForestHeightSplit(cs: seq<Node>)
    requires |cs| > 0
    ensures Height(cs[0]) <= ForestHeight(cs) && ForestHeight(cs[1..]) <= ForestHeight(cs)
  {
    assert Height(cs[0]) <= ForestHeight(cs);
  }

  /** The loop over the children gives the same result at two depths when its
      first step and the rest of the loop do. */
  lemma ChildrenCongruence(cs: seq<Node>, fields: seq<Field>, name: string, d1: int, d2: int)
    requires 0 < d1 <= d2 && |cs| > 0
    requires NodeToMetadata(cs[0], fields, Some(ChildFieldName(name, cs[0])), d1 - 1)
      == NodeToMetadata(cs[0], fields, Some(ChildFieldName(name, cs[0])), d2 - 1)
    requires ChildrenToMetadata(cs[1..], fields, name, d1) == ChildrenToMetadata(cs[1..], fields, name, d2)
    ensures ChildrenToMetadata(cs, fields, name, d1) == ChildrenToMetadata(cs, fields, name, d2)
  {
    ChildrenStep(cs, fields, name, d1);
    ChildrenStep(cs, fields, name, d2);
  }

  /** Prepends a child's metadata to its siblings', passing on the first error. */
  function Prepend(head: Result<MetaNode>, tail: Result<seq<MetaNode>>): Result<seq<MetaNode>> {
    match head
    case Err(e) => Err(e)
    case Ok(m) =>
      match tail
      case Err(e) => Err(e)
      case Ok(ms) => Ok([m] + ms)
  }

  /** One step of the loop over the children. */
  lemma ChildrenStep(cs: seq<Node>, fields: seq<Field>, name: string, depth: int)
    requires depth > 0 && |cs| > 0
    ensures ChildrenToMetadata(cs, fields, name, depth) ==
      Prepend(NodeToMetadata(cs[0], fields, Some(ChildFieldName(name, cs[0])), depth - 1),
              ChildrenToMetadata(cs[1..], fields, name, depth))
  {
  }

  // ----- what a metadata node holds -----

  /** The resolved field name: the given one, else the node's own name. */
  function ResolvedName(node: Node, fieldName: Option<string>): string {
    if fieldName.Some? then fieldName.value else node.name
  }

  /** The children's metadata before sorting. */
  function Unsorted(node: Node, fields: seq<Field>, fieldName: Option<string>, depth: int): Result<seq<MetaNode>>
    requires depth > 0
  {
    ChildrenToMetadata(node.children, fields, ResolvedName(node, fieldName), depth)
  }

  lemma NamesKept(node: Node, fields: seq<Field>, fieldName: Option<string>, depth: int)
    requires NodeToMetadata(node, fields, fieldName, depth).Ok?
    ensures depth > 0 && Unsorted(node, fields, fieldName, depth).Ok?
    ensures NodeToMetadata(node, fields, fieldName, depth).value.name == node.name
    ensures NodeToMetadata(node, fields, fieldName, depth).value.fieldName == ResolvedName(node, fieldName)
    ensures NodeToMetadata(node, fields, fieldName, depth).value
      == Describe(node, fields, ResolvedName(node, fieldName), Unsorted(node, fields, fieldName, depth).value)
  {
  }

  lemma {:induction false} ChildrenNamesKept(cs: seq<Node>, fields: seq<Field>, name: string, depth: int)
    requires depth > 0 && ChildrenToMetadata(cs, fields, name, depth).Ok?
    ensures var kids := ChildrenToMetadata(cs, fields, name, depth).value;
      forall i :: 0 <= i < |kids| ==> kids[i].name == cs[i].name && kids[i].fieldName == ChildFieldName(name, cs[i])
    decreases |cs|
  {
    if |cs| > 0 {
      NamesKept(cs[0], fields, Some(ChildFieldName(name, cs[0])), depth - 1);
      ChildrenNamesKept(cs[1..], fields, name, depth);
    }
  }

  /** The resolved field name, the node type, the attribute copy from the matching
      field and the required flag of a metadata node. */
  lemma MetadataAttributes(node: Node, fields: seq<Field>, fieldName: Option<string>, depth: int)
    requires NodeToMetadata(node, fields, fieldName, depth).Ok?
    ensures var m := NodeToMetadata(node, fields, fieldName, depth).value;
      var f := FindField(fields, ResolvedName(node, fieldName));
      && m.name == node.name
      && m.fieldName == ResolvedName(node, fieldName)
      && (m.kind == "object" <==> |node.children| > 0 || (f.Some? && f.value.kind == "object"))
      && (|node.children| == 0 ==> m.kind == (if f.Some? then f.value.kind else DEFAULT_FIELD_TYPE))
      && (f.Some? ==>
            && m.isRequired == f.value.isRequired && m.labelText == f.value.labelText
            && m.hint == f.value.hint && m.order == f.value.order && m.options == f.value.options
            && m.min == f.value.min && m.max == f.value.max
            && m.minLength == f.value.minLength && m.maxLength == f.value.maxLength)
      && (f.None? ==>
            && m.labelText.None? && m.hint.None? && m.order.None? && m.options.None?
            && m.min.None? && m.max.None? && m.minLength.None? && m.maxLength.None?)
      && (f.None? ==> (m.isRequired <==> |m.children| > 0 && forall i :: 0 <= i < |m.children| ==> m.children[i].isRequired))
  {
    NamesKept(node, fields, fieldName, depth);
    DescribeAttributes(node, fields, ResolvedName(node, fieldName), Unsorted(node, fields, fieldName, depth).value);
  }

  /** `MetadataAttributes` for one node, given its children's metadata. */
  lemma DescribeAttributes(node: Node, fields: seq<Field>, name: string, kids: seq<MetaNode>)
    requires |kids| == |node.children|
    ensures var m := Describe(node, fields, name, kids);
      var f := FindField(fields, name);
      && m.name == node.name
      && m.fieldName == name
      && (m.kind == "object" <==> |node.children| > 0 || (f.Some? && f.value.kind == "object"))
      && (|node.children| == 0 ==> m.kind == (if f.Some? then f.value.kind else DEFAULT_FIELD_TYPE))
      && (f.Some? ==>
            && m.isRequired == f.value.isRequired && m.labelText == f.value.labelText
            && m.hint == f.value.hint && m.order == f.value.order && m.options == f.value.options
            && m.min == f.value.min && m.max == f.value.max
            && m.minLength == f.value.minLength && m.maxLength == f.value.maxLength)
      && (f.None? ==>
            && m.labelText.None? && m.hint.None? && m.order.None? && m.options.None?
            && m.min.None? && m.max.None? && m.minLength.None? && m.maxLength.None?)
      && (f.None? ==> (m.isRequired <==> |m.children| > 0 && forall i :: 0 <= i < |m.children| ==> m.children[i].isRequired))
  {
    var m := Describe(node, fields, name, kids);
    if FindField(fields, name).None? {
      assert m.children == SortBy(kids, SiblingKey(fields));
      SortByPermutes(kids, SiblingKey(fields));
      forall i | 0 <= i < |m.children|
        ensures m.children[i] in kids
      {
        assert m.children[i] in multiset(kids);
      }
      forall i | 0 <= i < |kids|
        ensures kids[i] in m.children
      {
        assert kids[i] in multiset(m.children);
      }
    }
  }

  /** The children of a metadata node: one per data-model child, named after it
      and looked up by the dotted field name, sorted by the sibling comparator
      and, among children of equal key, in data-model order. */
  lemma MetadataChildren(node: Node, fields: seq<Field>, fieldName: Option<string>, depth: int)
    requires NodeToMetadata(node, fields, fieldName, depth).Ok?
    ensures depth > 0 && Unsorted(node, fields, fieldName, depth).Ok?
    ensures var m := NodeToMetadata(node, fields, fieldName, depth).value;
      var kids := Unsorted(node, fields, fieldName, depth).value;
      && |kids| == |node.children|
      && (forall i :: 0 <= i < |kids| ==>
            kids[i].name == node.children[i].name && kids[i].fieldName == ChildFieldName(m.fieldName, node.children[i]))
      && multiset(m.children) == multiset(kids)
      && Sorted(m.children, SiblingKey(fields))
      && forall k :: WithKey(m.children, SiblingKey(fields), k) == WithKey(kids, SiblingKey(fields), k)
  {
    NamesKept(node, fields, fieldName, depth);
    var kids := Unsorted(node, fields, fieldName, depth).value;
    ChildrenNamesKept(node.children, fields, ResolvedName(node, fieldName), depth);
    SortByIsStableSort(kids, SiblingKey(fields));
    SortByPermutes(kids, SiblingKey(fields));
  }

  /** Without any `order` or `absoluteOrder` the children keep data-model order. */
  lemma UnorderedFieldsKeepModelOrder(node: Node, fields: seq<Field>, fieldName: Option<string>, depth: int)
    requires NodeToMetadata(node, fields, fieldName, depth).Ok?
    requires forall i :: 0 <= i < |fields| ==> fields[i].order.None? && fields[i].absoluteOrder.None?
    ensures depth > 0 && Unsorted(node, fields, fieldName, depth).Ok?
    ensures NodeToMetadata(node, fields, fieldName, depth).value.children == Unsorted(node, fields, fieldName, depth).value
  {
    NamesKept(node, fields, fieldName, depth);
    var kids := Unsorted(node, fields, fieldName, depth).value;
    forall m: MetaNode
      ensures FieldKey(fields, m.fieldName) == SortKey(None, None)
    {
    }
    SortByKeepsEqualKeys(kids, SiblingKey(fields));
  }
}

=== FILE: ordering.dfy ===
/** The ordering of metadata siblings in src/lib/index.ts: `compare` puts unset
    numbers last, the sibling comparator compares the field `order` and then the
    field `absoluteOrder`, and `Array.prototype.sort` is stable. */
module Ordering {
  import opened Base

  /** `compare(val, valRef)`: negative, zero or positive like a subtraction,
      with unset values after every set one. */
  function Compare(a: Option<int>, b: Option<int>): (r: int)
    ensures r == 0 <==> a == b
  {
    if a.None? && b.None? then 0
    else if a.None? then 1
    else if b.None? then -1
    else a.value - b.value
  }

  /** The order `compare` stands for: set values by size, unset values last. */
  predicate NullLastLe(a: Option<int>, b: Option<int>) {
    b.None? || (a.Some? && a.value <= b.value)
  }

  /** `compare` agrees with the null-last order and is antisymmetric. */
  lemma CompareIsNullLast(a: Option<int>, b: Option<int>)
    ensures Compare(a, b) <= 0 <==> NullLastLe(a, b)
    ensures Compare(a, b) == -Compare(b, a)
  {
  }

  /** The two numbers siblings are ordered by. */
  datatype SortKey = SortKey(order: Option<int>, absoluteOrder: Option<int>)

  /** The sibling comparator: `order` first, `absoluteOrder` on a tie. */
  function KeyCompare(a: SortKey, b: SortKey): (r: int)
    ensures r == 0 <==> a == b
  {
    var c := Compare(a.order, b.order);
    CompareIsNullLast(a.order, b.order);
    CompareIsNullLast(a.absoluteOrder, b.absoluteOrder);
    if c != 0 then c else Compare(a.absoluteOrder, b.absoluteOrder)
  }

  predicate KeyLe(a: SortKey, b: SortKey) {
    KeyCompare(a, b) <= 0
  }

  /** The comparator is a total order on keys: lexicographic null-last order. */
  lemma KeyLeIsTotalOrder(a: SortKey, b: SortKey, c: SortKey)
    ensures KeyCompare(a, b) == -KeyCompare(b, a)
    ensures KeyLe(a, b) || KeyLe(b, a)
    ensures KeyLe(a, b) && KeyLe(b, a) ==> a == b
    ensures KeyLe(a, b) && KeyLe(b, c) ==> KeyLe(a, c)
    ensures KeyLe(a, b) <==>
      (a.order != b.order && NullLastLe(a.order, b.order)) ||
      (a.order == b.order && NullLastLe(a.absoluteOrder, b.absoluteOrder))
  {
    CompareIsNullLast(a.order, b.order);
    CompareIsNullLast(b.order, c.order);
    CompareIsNullLast(a.order, c.order);
    CompareIsNullLast(a.absoluteOrder, b.absoluteOrder);
    CompareIsNullLast(b.absoluteOrder, c.absoluteOrder);
    CompareIsNullLast(a.absoluteOrder, c.absoluteOrder);
  }

  predicate Sorted<T>(xs: seq<T>, key: T -> SortKey) {
    forall i, j :: 0 <= i < j < |xs| ==> KeyLe(key(xs[i]), key(xs[j]))
  }

  /** The elements with key `k`, in order. */
  function WithKey<T>(xs: seq<T>, key: T -> SortKey, k: SortKey): (r: seq<T>)
    ensures |r| <= |xs|
    ensures forall i :: 0 <= i < |r| ==> key(r[i]) == k
    ensures r == [] <==> forall i :: 0 <= i < |xs| ==> key(xs[i]) != k
  {
    if |xs| == 0 then []
    else (if key(xs[0]) == k then [xs[0]] else []) + WithKey(xs[1..], key, k)
  }

  /** Insert `x` after every element whose key is not larger. */
  function Insert<T>(s: seq<T>, x: T, key: T -> SortKey): (r: seq<T>)
    ensures |r| == |s| + 1
  {
    if |s| == 0 then [x]
    else if KeyCompare(key(s[0]), key(x)) > 0 then [x] + s
    else [s[0]] + Insert(s[1..], x, key)
  }

  /** `Array.prototype.sort` with the sibling comparator, as an insertion sort. */
  function SortBy<T>(xs: seq<T>, key: T -> SortKey): (r: seq<T>)
    ensures |r| == |xs|
  {
    if |xs| == 0 then []
    else Insert(SortBy(xs[..|xs| - 1], key), xs[|xs| - 1], key)
  }

  /** Inserting adds exactly the one element. */
  lemma {:induction false} InsertPermutes<T>(s: seq<T>, x: T, key: T -> SortKey)
    ensures multiset(Insert(s, x, key)) == multiset(s) + multiset{x}
    decreases |s|
  {
    if |s| > 0 && KeyCompare(key(s[0]), key(x)) <= 0 {
      InsertPermutes(s[1..], x, key);
      assert s == [s[0]] + s[1..];
    }
  }

  /** The sort is a permutation of its input. */
  lemma {:induction false} SortByPermutes<T>(xs: seq<T>, key: T -> SortKey)
    ensures multiset(SortBy(xs, key)) == multiset(xs)
    decreases |xs|
  {
    if |xs| > 0 {
      var init := xs[..|xs| - 1];
      SortByPermutes(init, key);
      InsertPermutes(SortBy(init, key), xs[|xs| - 1], key);
      assert xs == init + [xs[|xs| - 1]];
    }
  }

  // ----- the sort is sorted and stable -----

  lemma KeyOrderFacts(a: SortKey, b: SortKey, c: SortKey)
    ensures KeyCompare(a, b) == -KeyCompare(b, a)
    ensures KeyLe(a, b) && KeyLe(b, c) ==> KeyLe(a, c)
    ensures KeyLe(a, b) && KeyLe(b, a) ==> a == b
  {
    KeyLeIsTotalOrder(a, b, c);
  }

  lemma SortedTail<T>(s: seq<T>, key: T -> SortKey)
    requires |s| > 0 && Sorted(s, key)
    ensures Sorted(s[1..], key)
  {
    forall i, j | 0 <= i < j < |s| - 1
      ensures KeyLe(key(s[1..][i]), key(s[1..][j]))
    {
      assert s[1..][i] == s[i + 1] && s[1..][j] == s[j + 1];
    }
  }

  lemma WithKeyHead<T>(xs: seq<T>, key: T -> SortKey, k: SortKey)
    requires |xs| > 0
    ensures WithKey(xs, key, k) == (if key(xs[0]) == k then [xs[0]] else []) + WithKey(xs[1..], key, k)
  {
  }

  lemma HasKey<T>(xs: seq<T>, key: T -> SortKey, i: int)
    requires 0 <= i < |xs|
    ensures WithKey(xs, key, key(xs[i])) != []
  {
  }

  lemma {:induction false} InsertKeepsBound<T>(s: seq<T>, x: T, key: T -> SortKey, m: SortKey)
    requires forall i :: 0 <= i < |s| ==> KeyLe(m, key(s[i]))
    requires KeyLe(m, key(x))
    ensures forall i :: 0 <= i < |Insert(s, x, key)| ==> KeyLe(m, key(Insert(s, x, key)[i]))
  {
    if |s| > 0 && KeyCompare(key(s[0]), key(x)) <= 0 {
      InsertKeepsBound(s[1..], x, key, m);
      var r := Insert(s, x, key);
      assert r == [s[0]] + Insert(s[1..], x, key);
      forall i | 0 <= i < |r|
        ensures KeyLe(m, key(r[i]))
      {
        if i > 0 {
          assert r[i] == Insert(s[1..], x, key)[i - 1];
        }
      }
    }
  }

  /** Inserting into a sorted list keeps it sorted. */
  lemma {:induction false} InsertSorted<T>(s: seq<T>, x: T, key: T -> SortKey)
    requires Sorted(s, key)
    ensures Sorted(Insert(s, x, key), key)
  {
    if |s| > 0 {
      if KeyCompare(key(s[0]), key(x)) > 0 {
        forall j | 0 <= j < |s|
          ensures KeyLe(key(x), key(s[j]))
        {
          KeyOrderFacts(key(x), key(s[0]), key(s[j]));
        }
        var r := Insert(s, x, key);
        assert r == [x] + s;
        forall i, j | 0 <= i < j < |r|
          ensures KeyLe(key(r[i]), key(r[j]))
        {
          assert r[j] == s[j - 1];
          if i > 0 {
            assert r[i] == s[i - 1];
          }
        }
      } else {
        SortedTail(s, key);
        InsertSorted(s[1..], x, key);
        forall i | 0 <= i < |s[1..]|
          ensures KeyLe(key(s[0]), key(s[1..][i]))
        {
          assert s[1..][i] == s[i + 1];
        }
        KeyOrderFacts(key(x), key(s[0]), key(x));
        InsertKeepsBound(s[1..], x, key, key(s[0]));
        var r := Insert(s, x, key);
        var t := Insert(s[1..], x, key);
        assert r == [s[0]] + t;
        forall i, j | 0 <= i < j < |r|
          ensures KeyLe(key(r[i]), key(r[j]))
        {
          assert r[j] == t[j - 1];
          if i > 0 {
            assert r[i] == t[i - 1];
          }
        }
      }
    }
  }

  lemma {:induction false} WithKeyAppend<T>(a: seq<T>, b: seq<T>, key: T -> SortKey, k: SortKey)
    ensures WithKey(a + b, key, k) == WithKey(a, key, k) + WithKey(b, key, k)
  {
    if |a| == 0 {
      assert a + b == b;
    } else {
      assert (a + b)[0] == a[0];
      assert (a + b)[1..] == a[1..] + b;
      WithKeyAppend(a[1..], b, key, k);
      WithKeyHead(a + b, key, k);
      WithKeyHead(a, key, k);
    }
  }

  /** In a sorted list, everything after an element larger than `x` is
      larger than `x` too, so none of it shares `x`'s key. */
  lemma GreaterKeysDiffer<T>(s: seq<T>, x: T, key: T -> SortKey)
    requires Sorted(s, key) && |s| > 0 && KeyCompare(key(s[0]), key(x)) > 0
    ensures WithKey(s, key, key(x)) == []
  {
    forall j | 0 <= j < |s|
      ensures key(s[j]) != key(x)
    {
      KeyOrderFacts(key(x), key(s[0]), key(s[j]));
      KeyOrderFacts(key(s[0]), key(s[j]), key(x));
    }
  }

  /** Inserting `x` puts it after the elements of its key already there. */
  lemma {:induction false} InsertWithKey<T>(s: seq<T>, x: T, key: T -> SortKey, k: SortKey)
    requires Sorted(s, key)
    ensures WithKey(Insert(s, x, key), key, k) == WithKey(s, key, k) + (if key(x) == k then [x] else [])
  {
    if |s| == 0 {
      assert Insert(s, x, key) == [x];
      WithKeyHead([x], key, k);
    } else if KeyCompare(key(s[0]), key(x)) > 0 {
      assert Insert(s, x, key) == [x] + s;
      assert ([x] + s)[1..] == s;
      WithKeyHead([x] + s, key, k);
      if key(x) == k {
        GreaterKeysDiffer(s, x, key);
      }
    } else {
      SortedTail(s, key);
      InsertWithKey(s[1..], x, key, k);
      var t := Insert(s[1..], x, key);
      assert Insert(s, x, key) == [s[0]] + t;
      assert ([s[0]] + t)[1..] == t;
      WithKeyHead([s[0]] + t, key, k);
      WithKeyHead(s, key, k);
    }
  }

  /** One step of the insertion sort keeps what every key holds. */
  lemma SortByStep<T>(xs: seq<T>, key: T -> SortKey, k: SortKey)
    requires |xs| > 0
    requires Sorted(SortBy(xs[..|xs| - 1], key), key)
    requires WithKey(SortBy(xs[..|xs| - 1], key), key, k) == WithKey(xs[..|xs| - 1], key, k)
    ensures WithKey(SortBy(xs, key), key, k) == WithKey(xs, key, k)
  {
    var front, last := xs[..|xs| - 1], xs[|xs| - 1];
    assert SortBy(xs, key) == Insert(SortBy(front, key), last, key);
    InsertWithKey(SortBy(front, key), last, key, k);
    WithKeySnoc(xs, key, k);
  }

  /** What a key holds of a list is what it holds of all but the last
      element, then possibly the last one. */
  lemma WithKeySnoc<T>(xs: seq<T>, key: T -> SortKey, k: SortKey)
    requires |xs| > 0
    ensures WithKey(xs, key, k)
      == WithKey(xs[..|xs| - 1], key, k) + (if key(xs[|xs| - 1]) == k then [xs[|xs| - 1]] else [])
  {
    var front, last := xs[..|xs| - 1], xs[|xs| - 1];
    assert xs == front + [last];
    WithKeyAppend(front, [last], key, k);
    WithKeyHead([last], key, k);
  }

  /** The sort's output is sorted and keeps, for every key, the elements of
      that key in their input order. */
  lemma {:induction false} SortByIsStableSort<T>(xs: seq<T>, key: T -> SortKey)
    ensures Sorted(SortBy(xs, key), key)
    ensures forall k :: WithKey(SortBy(xs, key), key, k) == WithKey(xs, key, k)
  {
    if |xs| > 0 {
      var front := xs[..|xs| - 1];
      SortByIsStableSort(front, key);
      assert SortBy(xs, key) == Insert(SortBy(front, key), xs[|xs| - 1], key);
      InsertSorted(SortBy(front, key), xs[|xs| - 1], key);
      forall k
        ensures WithKey(SortBy(xs, key), key, k) == WithKey(xs, key, k)
      {
        SortByStep(xs, key, k);
      }
    }
  }

  /** The first element of a sorted list has the least key in it. */
  lemma FirstKeyIsLeast<T>(xs: seq<T>, key: T -> SortKey, k: SortKey)
    requires Sorted(xs, key) && |xs| > 0 && WithKey(xs, key, k) != []
    ensures KeyLe(key(xs[0]), k)
  {
    var i :| 0 <= i < |xs| && key(xs[i]) == k;
  }

  lemma TailsAgree<T>(ys: seq<T>, zs: seq<T>, key: T -> SortKey, k: SortKey)
    requires |ys| > 0 && |zs| > 0 && ys[0] == zs[0]
    requires WithKey(ys, key, k) == WithKey(zs, key, k)
    ensures WithKey(ys[1..], key, k) == WithKey(zs[1..], key, k)
  {
    WithKeyHead(ys, key, k);
    WithKeyHead(zs, key, k);
    var p := if key(ys[0]) == k then [ys[0]] else [];
    assert (p + WithKey(ys[1..], key, k))[|p|..] == WithKey(ys[1..], key, k);
    assert (p + WithKey(zs[1..], key, k))[|p|..] == WithKey(zs[1..], key, k);
  }

  /** A sorted list is fixed by what it holds of every key: there is one stable
      sort, whatever algorithm computes it. */
  lemma {:induction false} StableSortIsUnique<T>(ys: seq<T>, zs: seq<T>, key: T -> SortKey)
    requires Sorted(ys, key) && Sorted(zs, key)
    requires forall k :: WithKey(ys, key, k) == WithKey(zs, key, k)
    ensures ys == zs
    decreases |ys|
  {
    if |ys| == 0 {
      if |zs| > 0 {
        HasKey(zs, key, 0);
      }
    } else if |zs| == 0 {
      HasKey(ys, key, 0);
    } else {
      var a, b := key(ys[0]), key(zs[0]);
      HasKey(ys, key, 0);
      HasKey(zs, key, 0);
      assert WithKey(ys, key, a) == WithKey(zs, key, a);
      assert WithKey(ys, key, b) == WithKey(zs, key, b);
      FirstKeyIsLeast(zs, key, a);
      FirstKeyIsLeast(ys, key, b);
      KeyOrderFacts(a, b, a);
      WithKeyHead(ys, key, a);
      WithKeyHead(zs, key, a);
      assert WithKey(ys, key, a)[0] == ys[0];
      assert WithKey(zs, key, a)[0] == zs[0];
      forall k
        ensures WithKey(ys[1..], key, k) == WithKey(zs[1..], key, k)
      {
        TailsAgree(ys, zs, key, k);
      }
      SortedTail(ys, key);
      SortedTail(zs, key);
      StableSortIsUnique(ys[1..], zs[1..], key);
      assert ys == [ys[0]] + ys[1..];
      assert zs == [zs[0]] + zs[1..];
    }
  }

  /** Hence any stable sort with this comparator, `Array.prototype.sort`
      included, computes `SortBy`. */
  lemma StableSortIsSortBy<T>(xs: seq<T>, ys: seq<T>, key: T -> SortKey)
    requires Sorted(ys, key)
    requires forall k :: WithKey(ys, key, k) == WithKey(xs, key, k)
    ensures ys == SortBy(xs, key)
  {
    SortByIsStableSort(xs, key);
    StableSortIsUnique(ys, SortBy(xs, key), key);
  }

  /** When every element has the same key the sort keeps the input order. */
  lemma SortByKeepsEqualKeys<T>(xs: seq<T>, key: T -> SortKey)
    requires forall i, j :: 0 <= i < |xs| && 0 <= j < |xs| ==> key(xs[i]) == key(xs[j])
    ensures SortBy(xs, key) == xs
  {
    SortByIsStableSort(xs, key);
    StableSortIsUnique(xs, SortBy(xs, key), key);
  }
}

=== FILE: paths.dfy ===
/** Path collection (src/lib/index.ts `getPaths`/`unique`). The template engine's
    syntax tree is not modelled: its path expressions arrive as a flat list of
    strings in visit order. */
module Paths {
  import opened Text

  predicate NoDuplicates<T(==)>(xs: seq<T>) {
    forall i, j :: 0 <= i < j < |xs| ==> xs[i] != xs[j]
  }

  /** `[...new Set(xs)]` continued from a set of already seen strings. */
  function UniqueFrom(xs: seq<string>, seen: set<string>): (r: seq<string>)
    ensures forall x :: x in r <==> x in xs && x !in seen
    ensures NoDuplicates(r)
  {
    if |xs| == 0 then []
    else if xs[0] in seen then UniqueFrom(xs[1..], seen)
    else [xs[0]] + UniqueFrom(xs[1..], seen + {xs[0]})
  }

  /** `unique`: drops repeats, keeping first occurrences. */
  function Unique(xs: seq<string>): (r: seq<string>)
    ensures forall x :: x in r <==> x in xs
    ensures NoDuplicates(r)
  {
    UniqueFrom(xs, {})
  }

  lemma {:induction false} UniqueFromOrder(xs: seq<string>, seen: set<string>)
    ensures forall i, j :: 0 <= i < j < |UniqueFrom(xs, seen)| ==>
      FirstIndex(xs, UniqueFrom(xs, seen)[i]) < FirstIndex(xs, UniqueFrom(xs, seen)[j])
  {
    if |xs| > 0 {
      var rest := UniqueFrom(xs[1..], if xs[0] in seen then seen else seen + {xs[0]});
      UniqueFromOrder(xs[1..], if xs[0] in seen then seen else seen + {xs[0]});
      forall x | x in rest
        ensures FirstIndex(xs, x) == 1 + FirstIndex(xs[1..], x)
      {
        assert x != xs[0];
      }
    }
  }

  /** The kept strings appear in the order of their first occurrence. */
  lemma UniqueKeepsFirstSeenOrder(xs: seq<string>)
    ensures forall i, j :: 0 <= i < j < |Unique(xs)| ==>
      FirstIndex(xs, Unique(xs)[i]) < FirstIndex(xs, Unique(xs)[j])
  {
    UniqueFromOrder(xs, {});
  }

  /** Block-helper names the newer collector refuses to treat as data paths. */
  predicate IsControlKeyword(p: string) {
    p == "if" || p == "unless" || p == "each" || p == "with"
  }

  function DropControlKeywords(exprs: seq<string>): (r: seq<string>)
    ensures forall x :: x in r <==> x in exprs && !IsControlKeyword(x)
  {
    if |exprs| == 0 then []
    else if IsControlKeyword(exprs[0]) then DropControlKeywords(exprs[1..])
    else [exprs[0]] + DropControlKeywords(exprs[1..])
  }

  /** `getPaths`: the distinct path expressions, first-seen order, without the
      block-helper keywords. */
  function CollectPaths(exprs: seq<string>): (r: seq<string>)
    ensures forall x :: x in r <==> x in exprs && !IsControlKeyword(x)
    ensures NoDuplicates(r)
  {
    Unique(DropControlKeywords(exprs))
  }

  /** Dropping the keywords keeps the order in which the other expressions
      first appear. */
  lemma {:induction false} DropKeepsFirstSeenOrder(exprs: seq<string>, x: string, y: string)
    requires x in exprs && y in exprs && !IsControlKeyword(x) && !IsControlKeyword(y)
    ensures x in DropControlKeywords(exprs) && y in DropControlKeywords(exprs)
    ensures FirstIndex(DropControlKeywords(exprs), x) < FirstIndex(DropControlKeywords(exprs), y)
      <==> FirstIndex(exprs, x) < FirstIndex(exprs, y)
  {
    var d := DropControlKeywords(exprs);
    if exprs[0] != x && exprs[0] != y {
      assert x in exprs[1..] && y in exprs[1..];
      DropKeepsFirstSeenOrder(exprs[1..], x, y);
      if !IsControlKeyword(exprs[0]) {
        assert d == [exprs[0]] + DropControlKeywords(exprs[1..]);
        assert d[1..] == DropControlKeywords(exprs[1..]);
      }
    }
  }

  /** `getPaths` keeps the order in which the paths first appear in the
      template. */
  lemma CollectPathsKeepsFirstSeenOrder(exprs: seq<string>)
    ensures forall i, j :: 0 <= i < j < |CollectPaths(exprs)| ==>
      FirstIndex(exprs, CollectPaths(exprs)[i]) < FirstIndex(exprs, CollectPaths(exprs)[j])
  {
    var d := DropControlKeywords(exprs);
    var r := CollectPaths(exprs);
    UniqueKeepsFirstSeenOrder(d);
    forall i, j | 0 <= i < j < |r|
      ensures FirstIndex(exprs, r[i]) < FirstIndex(exprs, r[j])
    {
      assert r[i] in r && r[j] in r;
      DropKeepsFirstSeenOrder(exprs, r[i], r[j]);
    }
  }
}

=== FILE: pathtrie.dfy ===
/** The path trie builder of src/lib/index.ts: `pathToDataModelNode` turns a dotted
    path into a chain of named nodes, `addPath` grafts a later path into the shared
    tree and `getDataModel` folds every collected path into one tree under a
    synthetic `root` node. */
module PathTrie {
  import opened Base
  import opened Text
  import opened Paths

  datatype Node = Node(name: string, children: seq<Node>)

  /** `DEFAULT_MODEL_DEPTH`: the recursion bound every builder uses by default. */
  const DEFAULT_MODEL_DEPTH: int := 10

  /** The fixed iteration cap of the graft loop in `addPath`. */
  const GRAFT_CAP: nat := 99

  /** The dot-separated segments of a path. */
  function Segments(path: string): seq<string> {
    Split(path, '.')
  }

  // ----- shape predicates -----

  /** Every node has at most one child. */
  predicate IsLinear(n: Node) {
    |n.children| <= 1 && forall i :: 0 <= i < |n.children| ==> IsLinear(n.children[i])
  }

  /** The names met when always following the first child. */
  function Spine(n: Node): seq<string> {
    [n.name] + if |n.children| == 0 then [] else Spine(n.children[0])
  }

  /** `segs` can be followed child by child, starting among the children of `n`. */
  predicate Walkable(n: Node, segs: seq<string>) {
    |segs| == 0 ||
    exists i :: 0 <= i < |n.children| && n.children[i].name == segs[0] && Walkable(n.children[i], segs[1..])
  }

  /** Sibling names are pairwise different, at every level. */
  predicate UniqueNames(n: Node) {
    && (forall i, j :: 0 <= i < j < |n.children| ==> n.children[i].name != n.children[j].name)
    && (forall i :: 0 <= i < |n.children| ==> UniqueNames(n.children[i]))
  }

  /** `b` is `a` with nodes added: same names, and every old child keeps its
      position among its siblings. */
  predicate Extends(a: Node, b: Node) {
    && a.name == b.name
    && |a.children| <= |b.children|
    && forall i :: 0 <= i < |a.children| ==> Extends(a.children[i], b.children[i])
  }

  // ----- pathToDataModelNode -----

  /** `pathToDataModelNode`: the first segment names the node; the rest, joined
      back with dots, becomes its only child, one depth unit lower. */
  function PathToNode(path: string, depth: int): Result<Node>
    decreases depth
  {
    if depth <= 0 then Err(PotentialLoop)
    else
      var segs := Segments(path);
      var items := segs[1..];
      if |items| > 0 then
        var child :- PathToNode(Join(items, '.'), depth - 1);
        Ok(Node(segs[0], [child]))
      else
        Ok(Node(segs[0], []))
  }

  /** The linear chain spelling `segs`, with no depth bound. */
  function Chain(segs: seq<string>): Node
    requires |segs| >= 1
  {
    if |segs| == 1 then Node(segs[0], [])
    else Node(segs[0], [Chain(segs[1..])])
  }

  /** The chain of `segs` is a single branch that spells out `segs`; its sibling
      names are trivially unique. */
  lemma {:induction false} ChainShape(segs: seq<string>)
    requires |segs| >= 1
    ensures IsLinear(Chain(segs)) && Spine(Chain(segs)) == segs
    ensures UniqueNames(Chain(segs))
    decreases |segs|
  {
    if |segs| > 1 {
      ChainShape(segs[1..]);
    }
  }

  /** A path of k segments becomes the k-node chain of its segments, and the
      depth guard fires exactly when k exceeds the depth. */
  lemma {:induction false} PathToNodeIsChain(path: string, depth: int)
    ensures PathToNode(path, depth) ==
      if |Segments(path)| > depth then Err(PotentialLoop) else Ok(Chain(Segments(path)))
    decreases depth
  {
    if depth > 0 {
      var segs := Segments(path);
      if |segs| > 1 {
        SplitJoin(segs[1..], '.');
        PathToNodeIsChain(Join(segs[1..], '.'), depth - 1);
      }
    }
  }

  lemma {:induction false} ChainWalkable(segs: seq<string>)
    requires |segs| >= 1
    ensures Walkable(Chain(segs), segs[1..])
    decreases |segs|
  {
    if |segs| > 1 {
      ChainWalkable(segs[1..]);
      assert segs[1..][1..] == segs[2..];
      assert Chain(segs).children[0] == Chain(segs[1..]);
    }
  }

  // ----- addPath -----

  /** The index of the last child named `name`; the source's matching loop has no
      `break`, so a later duplicate would win. */
  function LastMatch(nodes: seq<Node>, name: string): (r: Option<nat>)
    ensures r.Some? ==> r.value < |nodes| && nodes[r.value].name == name
    ensures r.Some? ==> forall k :: r.value < k < |nodes| ==> nodes[k].name != name
    ensures r.None? ==> forall k :: 0 <= k < |nodes| ==> nodes[k].name != name
  {
    if |nodes| == 0 then None
    else if nodes[|nodes| - 1].name == name then Some(|nodes| - 1)
    else LastMatch(nodes[..|nodes| - 1], name)
  }

  /** The graft loop of `addPath`: `ref` is the model node under inspection,
      `cursor` the remaining part of the new chain. On the first segment with no
      matching child the remainder is appended; a cursor without a next node, or
      an exhausted iteration budget, ends the loop with no change. */
  function Graft(ref: Node, cursor: Node, fuel: nat): (r: Node)
    ensures r.name == ref.name
    decreases fuel
  {
    if fuel == 0 then ref
    else
      match LastMatch(ref.children, cursor.name)
      case None => Node(ref.name, ref.children + [cursor])
      case Some(k) =>
        if |cursor.children| == 0 then ref
        else Node(ref.name, ref.children[k := Graft(ref.children[k], cursor.children[0], fuel - 1)])
  }

  /** `addPath`: the new path is built with the depth guard first, then grafted
      under the capped loop. */
  function AddPath(model: Node, path: string, depth: int): Result<Node> {
    var n :- PathToNode(path, depth);
    Ok(Graft(model, n, GRAFT_CAP))
  }

  /** `pathToDataModel`: the first path hangs under a synthetic `root` node. */
  function PathToDataModel(path: string, depth: int): Result<Node> {
    var n :- PathToNode(path, depth);
    Ok(Node("root", [n]))
  }

  lemma {:induction false} ExtendsRefl(n: Node)
    ensures Extends(n, n)
  {
    forall i | 0 <= i < |n.children| {
      ExtendsRefl(n.children[i]);
    }
  }

  lemma {:induction false} ExtendsTrans(a: Node, b: Node, c: Node)
    requires Extends(a, b) && Extends(b, c)
    ensures Extends(a, c)
  {
    forall i | 0 <= i < |a.children| {
      ExtendsTrans(a.children[i], b.children[i], c.children[i]);
    }
  }

  lemma {:induction false} ExtendsKeepsWalkable(a: Node, b: Node, segs: seq<string>)
    requires Extends(a, b) && Walkable(a, segs)
    ensures Walkable(b, segs)
    decreases |segs|
  {
    if |segs| > 0 {
      var i :| 0 <= i < |a.children| && a.children[i].name == segs[0] && Walkable(a.children[i], segs[1..]);
      ExtendsKeepsWalkable(a.children[i], b.children[i], segs[1..]);
    }
  }

  /** Grafting never removes or reorders a node. */
  lemma {:induction false} GraftExtends(ref: Node, cursor: Node, fuel: nat)
    ensures Extends(ref, Graft(ref, cursor, fuel))
    decreases fuel
  {
    ExtendsRefl(ref);
    if fuel > 0 {
      match LastMatch(ref.children, cursor.name)
      case None =>
        forall i | 0 <= i < |ref.children| {
          ExtendsRefl(ref.children[i]);
        }
      case Some(k) =>
        if |cursor.children| > 0 {
          GraftExtends(ref.children[k], cursor.children[0], fuel - 1);
          forall i | 0 <= i < |ref.children| {
            ExtendsRefl(ref.children[i]);
          }
        }
    }
  }

  function Min(a: nat, b: nat): nat {
    if a <= b then a else b
  }

  /** After grafting the chain of `segs`, its first `fuel` segments can be walked. */
  lemma {:induction false} GraftMakesWalkable(ref: Node, segs: seq<string>, fuel: nat)
    requires |segs| >= 1
    ensures Walkable(Graft(ref, Chain(segs), fuel), segs[..Min(|segs|, fuel)])
    decreases fuel
  {
    var r := Graft(ref, Chain(segs), fuel);
    var m := Min(|segs|, fuel);
    if fuel > 0 {
      match LastMatch(ref.children, segs[0])
      case None =>
        ChainWalkable(segs);
        assert r.children[|ref.children|] == Chain(segs);
        PrefixWalkable(Chain(segs), segs[1..], m - 1);
        assert segs[..m][1..] == segs[1..][..m - 1];
      case Some(k) =>
        if |segs| == 1 {
          assert r == ref;
          assert r.children[k].name == segs[..m][0];
          assert |segs[..m][1..]| == 0;
          assert Walkable(r.children[k], segs[..m][1..]);
        } else {
          assert Chain(segs).children[0] == Chain(segs[1..]);
          GraftMakesWalkable(ref.children[k], segs[1..], fuel - 1);
          assert segs[..m][1..] == segs[1..][..Min(|segs| - 1, fuel - 1)];
          assert r.children[k] == Graft(ref.children[k], Chain(segs[1..]), fuel - 1);
        }
    }
  }

  lemma {:induction false} PrefixWalkable(n: Node, segs: seq<string>, m: nat)
    requires m <= |segs| && Walkable(n, segs)
    ensures Walkable(n, segs[..m])
    decreases m
  {
    if m > 0 {
      var i :| 0 <= i < |n.children| && n.children[i].name == segs[0] && Walkable(n.children[i], segs[1..]);
      PrefixWalkable(n.children[i], segs[1..], m - 1);
      assert segs[..m][1..] == segs[1..][..m - 1];
    }
  }

  /** Grafting keeps sibling names unique: a segment already present is reused. */
  lemma {:induction false} GraftKeepsUnique(ref: Node, cursor: Node, fuel: nat)
    requires UniqueNames(ref) && UniqueNames(cursor)
    ensures UniqueNames(Graft(ref, cursor, fuel))
    decreases fuel
  {
    if fuel > 0 {
      match LastMatch(ref.children, cursor.name)
      case None =>
      case Some(k) =>
        if |cursor.children| > 0 {
          GraftKeepsUnique(ref.children[k], cursor.children[0], fuel - 1);
        }
    }
  }

  /** With unique sibling names, a path whose first `fuel` segments are already
      walkable is absorbed without any change; in particular the cap drops
      whatever lies beyond it without an error. */
  lemma {:induction false} GraftOfPresentPathIsNoop(ref: Node, segs: seq<string>, fuel: nat)
    requires |segs| >= 1
    requires UniqueNames(ref) && Walkable(ref, segs[..Min(|segs|, fuel)])
    ensures Graft(ref, Chain(segs), fuel) == ref
    decreases fuel
  {
    if fuel > 0 {
      var k := PresentStep(ref, segs, fuel);
      if |segs| > 1 {
        GraftOfPresentPathIsNoop(ref.children[k], segs[1..], fuel - 1);
      }
      GraftIntoMatch(ref, segs, fuel, k);
    }
  }

  lemma ChainChildren(segs: seq<string>)
    requires |segs| >= 1
    ensures Chain(segs).children == if |segs| == 1 then [] else [Chain(segs[1..])]
  {
  }

  /** The graft step on a matching child changes nothing when the graft below
      that child changes nothing. */
  lemma GraftIntoMatch(ref: Node, segs: seq<string>, fuel: nat, k: nat)
    requires |segs| >= 1 && fuel > 0 && LastMatch(ref.children, segs[0]) == Some(k)
    requires |segs| > 1 ==> Graft(ref.children[k], Chain(segs[1..]), fuel - 1) == ref.children[k]
    ensures Graft(ref, Chain(segs), fuel) == ref
  {
    ChainChildren(segs);
    if |segs| > 1 {
      assert ref.children[k := ref.children[k]] == ref.children;
    }
  }

  /** The child the graft loop steps into on a walkable path: the only child
      with the first segment's name, from which the rest of the path walks. */
  lemma PresentStep(ref: Node, segs: seq<string>, fuel: nat) returns (k: nat)
    requires |segs| >= 1 && fuel > 0
    requires UniqueNames(ref) && Walkable(ref, segs[..Min(|segs|, fuel)])
    ensures LastMatch(ref.children, segs[0]) == Some(k) && Chain(segs).name == segs[0]
    ensures UniqueNames(ref.children[k])
    ensures |segs| > 1 ==> Walkable(ref.children[k], segs[1..][..Min(|segs| - 1, fuel - 1)])
  {
    var m := Min(|segs|, fuel);
    var i :| 0 <= i < |ref.children| && ref.children[i].name == segs[..m][0] && Walkable(ref.children[i], segs[..m][1..]);
    k := LastMatch(ref.children, segs[0]).value;
    assert k == i;
    assert segs[..m][1..] == segs[1..][..Min(|segs| - 1, fuel - 1)];
  }

  /** What `addPath` guarantees: it fails only on the depth guard; otherwise the
      old tree survives unchanged inside the new one, sibling names stay unique
      and the new path can be walked from the root. */
  lemma AddPathSpec(model: Node, path: string, depth: int)
    requires UniqueNames(model)
    ensures AddPath(model, path, depth).Err? <==> |Segments(path)| > depth
    ensures AddPath(model, path, depth).Err? ==> AddPath(model, path, depth).error == PotentialLoop
    ensures AddPath(model, path, depth).Ok? ==>
      && Extends(model, AddPath(model, path, depth).value)
      && UniqueNames(AddPath(model, path, depth).value)
      && Walkable(AddPath(model, path, depth).value, Segments(path)[..Min(|Segments(path)|, GRAFT_CAP)])
  {
    PathToNodeIsChain(path, depth);
    var segs := Segments(path);
    if |segs| <= depth {
      ChainShape(segs);
      GraftExtends(model, Chain(segs), GRAFT_CAP);
      GraftKeepsUnique(model, Chain(segs), GRAFT_CAP);
      GraftMakesWalkable(model, segs, GRAFT_CAP);
    }
  }

  /** Adding the same path twice is the same as adding it once. */
  lemma AddPathIdempotent(model: Node, path: string, depth: int)
    requires UniqueNames(model)
    requires AddPath(model, path, depth).Ok?
    ensures AddPath(AddPath(model, path, depth).value, path, depth) == AddPath(model, path, depth)
  {
    AddPathSpec(model, path, depth);
    PathToNodeIsChain(path, depth);
    var segs := Segments(path);
    var once := AddPath(model, path, depth).value;
    GraftOfPresentPathIsNoop(once, segs, GRAFT_CAP);
  }

  // ----- getDataModel -----

  /** Paths the newer `getDataModel` skips after the first one: they name
      engine-internal scopes (`.`, `/`, `@`, `this`). */
  predicate IsScopedPath(p: string) {
    StartsWith(p, ".") || StartsWith(p, "/") || StartsWith(p, "@") || StartsWith(p, "this")
  }

  /** The loop of the newer `getDataModel` over the paths after the first
      (`addPath` is called with its default depth). */
  function AddLaterPaths(model: Node, paths: seq<string>, depth: int): Result<Node>
    decreases |paths|
  {
    if |paths| == 0 then Ok(model)
    else if IsScopedPath(paths[0]) then AddLaterPaths(model, paths[1..], depth)
    else
      var m :- AddPath(model, paths[0], depth);
      AddLaterPaths(m, paths[1..], depth)
  }

  /** `getDataModel` over the path expressions of a template, in visit order. */
  function GetDataModel(exprs: seq<string>): Result<Node> {
    var paths := CollectPaths(exprs);
    if |paths| == 0 then Ok(Node("root", []))
    else
      var model :- PathToDataModel(paths[0], DEFAULT_MODEL_DEPTH);
      AddLaterPaths(model, paths[1..], DEFAULT_MODEL_DEPTH)
  }

  /** Adds every path in order, skipping none. */
  function AddEach(model: Node, paths: seq<string>, depth: int): Result<Node>
    decreases |paths|
  {
    if |paths| == 0 then Ok(model)
    else
      var m :- AddPath(model, paths[0], depth);
      AddEach(m, paths[1..], depth)
  }

  /** The later paths that are not scoped. */
  function Unscoped(paths: seq<string>): (r: seq<string>)
    ensures forall p :: p in r <==> p in paths && !IsScopedPath(p)
  {
    if |paths| == 0 then []
    else if IsScopedPath(paths[0]) then Unscoped(paths[1..])
    else [paths[0]] + Unscoped(paths[1..])
  }

  /** The paths that end up in the model: the first one, whatever it looks like,
      and every unscoped later one. */
  function Accepted(paths: seq<string>): seq<string> {
    if |paths| == 0 then [] else [paths[0]] + Unscoped(paths[1..])
  }

  /** Skipping a scoped path inside the loop is the same as dropping it first. */
  lemma {:induction false} AddLaterPathsSkipsScoped(model: Node, paths: seq<string>, depth: int)
    ensures AddLaterPaths(model, paths, depth) == AddEach(model, Unscoped(paths), depth)
    decreases |paths|
  {
    if |paths| > 0 {
      if IsScopedPath(paths[0]) {
        AddLaterPathsSkipsScoped(model, paths[1..], depth);
      } else {
        var r := AddPath(model, paths[0], depth);
        if r.Ok? {
          AddLaterPathsSkipsScoped(r.value, paths[1..], depth);
        }
        assert Unscoped(paths)[1..] == Unscoped(paths[1..]);
      }
    }
  }

  /** Some listed path has `w` as a prefix of its segments. */
  ghost predicate Covered(w: seq<string>, paths: seq<string>) {
    exists j :: 0 <= j < |paths| && w <= Segments(paths[j])
  }

  /** `m` is exactly the merge of `paths`: unique sibling names, every path
      walkable, and nothing walkable that no path accounts for. */
  ghost predicate MergeOf(m: Node, paths: seq<string>) {
    && UniqueNames(m)
    && (forall j :: 0 <= j < |paths| ==> Walkable(m, Segments(paths[j])))
    && (forall w :: Walkable(m, w) && |w| > 0 ==> Covered(w, paths))
  }

  lemma {:induction false} ChainWalksOnlyItsSpine(segs: seq<string>, w: seq<string>)
    requires |segs| >= 1 && Walkable(Chain(segs), w)
    ensures w <= segs[1..]
    decreases |segs|
  {
    if |w| > 0 {
      assert |segs| > 1;
      assert Chain(segs).children[0] == Chain(segs[1..]);
      ChainWalksOnlyItsSpine(segs[1..], w[1..]);
    }
  }

  /** Whatever is walkable after a graft was walkable before or is a prefix of
      the grafted path: the graft adds nothing else. */
  lemma {:induction false} GraftAddsOnlyThePath(ref: Node, segs: seq<string>, fuel: nat, w: seq<string>)
    requires |segs| >= 1
    requires Walkable(Graft(ref, Chain(segs), fuel), w)
    ensures Walkable(ref, w) || w <= segs
    decreases fuel
  {
    var r := Graft(ref, Chain(segs), fuel);
    if fuel > 0 && |w| > 0 {
      var i :| 0 <= i < |r.children| && r.children[i].name == w[0] && Walkable(r.children[i], w[1..]);
      match LastMatch(ref.children, segs[0])
      case None =>
        AppendedChildWalk(ref, Chain(segs), w, i);
        if !Walkable(ref, w) {
          ChainEntryWalk(segs, w);
        }
      case Some(k) =>
        if |segs| > 1 && i == k {
          assert Chain(segs).children[0] == Chain(segs[1..]);
          GraftAddsOnlyThePath(ref.children[k], segs[1..], fuel - 1, w[1..]);
          if Walkable(ref.children[k], w[1..]) {
            WalkThroughChild(ref, k, w);
          } else {
            assert w == [w[0]] + w[1..];
            assert segs == [segs[0]] + segs[1..];
          }
        } else if |segs| > 1 {
          assert r.children[i] == ref.children[i];
          WalkThroughChild(ref, i, w);
        }
    }
  }

  lemma WalkThroughChild(n: Node, i: nat, w: seq<string>)
    requires |w| > 0 && i < |n.children| && n.children[i].name == w[0] && Walkable(n.children[i], w[1..])
    ensures Walkable(n, w)
  {
  }

  /** A walk through a node with one child appended goes through an old
      child or through the appended one. */
  lemma AppendedChildWalk(ref: Node, c: Node, w: seq<string>, i: nat)
    requires |w| > 0 && i <= |ref.children|
    requires (ref.children + [c])[i].name == w[0] && Walkable((ref.children + [c])[i], w[1..])
    ensures Walkable(ref, w) || (c.name == w[0] && Walkable(c, w[1..]))
  {
    if i < |ref.children| {
      assert (ref.children + [c])[i] == ref.children[i];
      WalkThroughChild(ref, i, w);
    }
  }

  /** A walk entering a chain follows the chain's segments. */
  lemma ChainEntryWalk(segs: seq<string>, w: seq<string>)
    requires |segs| >= 1 && |w| > 0
    requires Chain(segs).name == w[0] && Walkable(Chain(segs), w[1..])
    ensures w <= segs
  {
    ChainWalksOnlyItsSpine(segs, w[1..]);
    assert w == [w[0]] + w[1..];
    assert segs == [segs[0]] + segs[1..];
  }

  lemma ShortPathFullyWalkable(m: Node, segs: seq<string>)
    requires |segs| <= GRAFT_CAP && Walkable(m, segs[..Min(|segs|, GRAFT_CAP)])
    ensures Walkable(m, segs)
  {
    assert segs[..Min(|segs|, GRAFT_CAP)] == segs;
  }

  /** Paths walkable before an extension stay walkable, and so does the new one. */
  lemma AddPathKeepsWalks(model: Node, m: Node, done: seq<string>, p: string)
    requires Extends(model, m) && Walkable(m, Segments(p))
    requires forall j :: 0 <= j < |done| ==> Walkable(model, Segments(done[j]))
    ensures forall j :: 0 <= j < |done + [p]| ==> Walkable(m, Segments((done + [p])[j]))
  {
    var done' := done + [p];
    forall j | 0 <= j < |done'|
      ensures Walkable(m, Segments(done'[j]))
    {
      if j < |done| {
        assert done'[j] == done[j];
        ExtendsKeepsWalkable(model, m, Segments(done[j]));
      }
    }
  }

  /** After grafting `p`, whatever can be walked is covered by `done` or by `p`. */
  lemma AddPathCoversWalks(model: Node, done: seq<string>, p: string)
    requires forall w :: Walkable(model, w) && |w| > 0 ==> Covered(w, done)
    ensures var m := Graft(model, Chain(Segments(p)), GRAFT_CAP);
      forall w :: Walkable(m, w) && |w| > 0 ==> Covered(w, done + [p])
  {
    var segs := Segments(p);
    var m := Graft(model, Chain(segs), GRAFT_CAP);
    var done' := done + [p];
    forall w | Walkable(m, w) && |w| > 0
      ensures Covered(w, done')
    {
      GraftAddsOnlyThePath(model, segs, GRAFT_CAP, w);
      if Walkable(model, w) {
        var j :| 0 <= j < |done| && w <= Segments(done[j]);
        assert done'[j] == done[j];
      } else {
        assert done'[|done|] == p;
      }
    }
  }

  /** One `addPath` of a path that fits the depth turns a merge of `done` into
      a merge of `done + [p]`. */
  lemma AddPathExtendsMerge(model: Node, done: seq<string>, p: string, depth: int)
    requires depth <= GRAFT_CAP && |Segments(p)| <= depth
    requires MergeOf(model, done)
    ensures AddPath(model, p, depth).Ok?
    ensures MergeOf(AddPath(model, p, depth).value, done + [p])
  {
    var segs := Segments(p);
    AddPathSpec(model, p, depth);
    PathToNodeIsChain(p, depth);
    var m := AddPath(model, p, depth).value;
    assert m == Graft(model, Chain(segs), GRAFT_CAP);
    ShortPathFullyWalkable(m, segs);
    AddPathKeepsWalks(model, m, done, p);
    AddPathCoversWalks(model, done, p);
  }

  lemma ConcatStep<T>(a: seq<T>, b: seq<T>)
    requires |b| > 0
    ensures a + [b[0]] + b[1..] == a + b
  {
  }

  /** `AddEach` succeeds iff every path fits the depth. */
  lemma {:induction false} AddEachOk(model: Node, paths: seq<string>, depth: int)
    ensures AddEach(model, paths, depth).Ok? <==>
      forall j :: 0 <= j < |paths| ==> |Segments(paths[j])| <= depth
    decreases |paths|
  {
    if |paths| > 0 {
      var r := AddPath(model, paths[0], depth);
      PathToNodeIsChain(paths[0], depth);
      assert r.Ok? <==> |Segments(paths[0])| <= depth;
      if r.Ok? {
        assert AddEach(model, paths, depth) == AddEach(r.value, paths[1..], depth);
        AddEachOk(r.value, paths[1..], depth);
        assert forall j :: 0 <= j < |paths[1..]| ==> paths[1..][j] == paths[j + 1];
      }
    }
  }

  /** A successful `AddEach` turns a merge of `done` into the merge of `done + paths`. */
  lemma {:induction false} AddEachMerges(model: Node, done: seq<string>, paths: seq<string>, depth: int)
    requires depth <= GRAFT_CAP
    requires MergeOf(model, done)
    requires AddEach(model, paths, depth).Ok?
    ensures MergeOf(AddEach(model, paths, depth).value, done + paths)
    decreases |paths|
  {
    if |paths| == 0 {
      assert done + paths == done;
    } else {
      var p := paths[0];
      var r := AddPath(model, p, depth);
      PathToNodeIsChain(p, depth);
      assert r.Ok?;
      AddPathExtendsMerge(model, done, p, depth);
      assert AddEach(model, paths, depth) == AddEach(r.value, paths[1..], depth);
      AddEachMerges(r.value, done + [p], paths[1..], depth);
      ConcatStep(done, paths);
    }
  }

  lemma RootOfFirstPathIsMerge(p: string)
    requires PathToDataModel(p, DEFAULT_MODEL_DEPTH).Ok?
    ensures MergeOf(PathToDataModel(p, DEFAULT_MODEL_DEPTH).value, [p])
  {
    PathToNodeIsChain(p, DEFAULT_MODEL_DEPTH);
    var segs := Segments(p);
    var m := PathToDataModel(p, DEFAULT_MODEL_DEPTH).value;
    assert m.children[0] == Chain(segs);
    ChainShape(segs);
    ChainWalkable(segs);
    assert segs == [segs[0]] + segs[1..];
    forall w | Walkable(m, w) && |w| > 0
      ensures Covered(w, [p])
    {
      ChainWalksOnlyItsSpine(segs, w[1..]);
      assert w == [w[0]] + w[1..];
      assert w <= Segments([p][0]);
    }
  }

  /** The accepted paths fit a depth iff the first one and every unscoped later
      one do. */
  lemma AcceptedFit(paths: seq<string>, depth: int)
    requires |paths| > 0
    ensures (forall j :: 0 <= j < |Accepted(paths)| ==> |Segments(Accepted(paths)[j])| <= depth) <==>
      && |Segments(paths[0])| <= depth
      && forall j :: 0 <= j < |Unscoped(paths[1..])| ==> |Segments(Unscoped(paths[1..])[j])| <= depth
  {
    var acc := Accepted(paths);
    var later := Unscoped(paths[1..]);
    assert acc[0] == paths[0];
    if forall j :: 0 <= j < |acc| ==> |Segments(acc[j])| <= depth {
      forall j | 0 <= j < |later|
        ensures |Segments(later[j])| <= depth
      {
        assert acc[j + 1] == later[j];
      }
    }
    if |Segments(paths[0])| <= depth && forall j :: 0 <= j < |later| ==> |Segments(later[j])| <= depth {
      forall j | 0 <= j < |acc|
        ensures |Segments(acc[j])| <= depth
      {
        if j > 0 {
          assert acc[j] == later[j - 1];
        }
      }
    }
  }

  /** `getDataModel` fails only when some accepted path is deeper than the
      default depth. */
  lemma GetDataModelOk(exprs: seq<string>)
    ensures GetDataModel(exprs).Ok? <==>
      forall j :: 0 <= j < |Accepted(CollectPaths(exprs))| ==>
        |Segments(Accepted(CollectPaths(exprs))[j])| <= DEFAULT_MODEL_DEPTH
  {
    var paths := CollectPaths(exprs);
    if |paths| > 0 {
      PathToNodeIsChain(paths[0], DEFAULT_MODEL_DEPTH);
      AcceptedFit(paths, DEFAULT_MODEL_DEPTH);
      if |Segments(paths[0])| <= DEFAULT_MODEL_DEPTH {
        var model := PathToDataModel(paths[0], DEFAULT_MODEL_DEPTH).value;
        AddLaterPathsSkipsScoped(model, paths[1..], DEFAULT_MODEL_DEPTH);
        AddEachOk(model, Unscoped(paths[1..]), DEFAULT_MODEL_DEPTH);
      }
    }
  }

  /** A tree `getDataModel` yields is the merge of the accepted paths. */
  lemma GetDataModelMerges(exprs: seq<string>)
    requires GetDataModel(exprs).Ok?
    ensures MergeOf(GetDataModel(exprs).value, Accepted(CollectPaths(exprs)))
  {
    var paths := CollectPaths(exprs);
    if |paths| > 0 {
      var first := paths[0];
      var model := PathToDataModel(first, DEFAULT_MODEL_DEPTH).value;
      RootOfFirstPathIsMerge(first);
      AddLaterPathsSkipsScoped(model, paths[1..], DEFAULT_MODEL_DEPTH);
      AddEachMerges(model, [first], Unscoped(paths[1..]), DEFAULT_MODEL_DEPTH);
    }
  }

  /** `getDataModel` fails only on the depth guard, and its tree is exactly the
      merge of the accepted paths: the first path (never filtered) and every
      later path that is not scoped. */
  lemma GetDataModelSpec(exprs: seq<string>)
    ensures GetDataModel(exprs).Ok? <==>
      forall j :: 0 <= j < |Accepted(CollectPaths(exprs))| ==>
        |Segments(Accepted(CollectPaths(exprs))[j])| <= DEFAULT_MODEL_DEPTH
    ensures GetDataModel(exprs).Ok? ==> MergeOf(GetDataModel(exprs).value, Accepted(CollectPaths(exprs)))
  {
    GetDataModelOk(exprs);
    if GetDataModel(exprs).Ok? {
      GetDataModelMerges(exprs);
    }
  }
}

=== FILE: put.dfy ===
/** The `put` helper module (src/modules/put/index.ts): `put` prints a value with
    a fallback chain, `putWithColor` wraps it in a coloured `span`. */
module PutHelper {
  import opened Base
  import opened Text
  import opened JsValue

  /** `DEFAULT_COLOR`. */
  const DEFAULT_COLOR: string := "text-blue-500"

  const SPAN_CLOSE: string := "</span>"

  /** The opening tag with the colour class. */
  function SpanOpen(color: string): string {
    "<span class=\"" + color + "\">"
  }

  /** The positional argument `i`; a missing one is `undefined`. */
  function ArgAt(args: seq<Value>, i: nat): Value {
    if i < |args| then args[i] else Undefined
  }

  /** `put`: the value, else the fallback, else the empty string. */
  function Put(args: seq<Value>): (r: Value)
    ensures IsSet(r)
    ensures IsSet(ArgAt(args, 0)) ==> r == ArgAt(args, 0)
    ensures !IsSet(ArgAt(args, 0)) && IsSet(ArgAt(args, 1)) ==> r == ArgAt(args, 1)
    ensures !IsSet(ArgAt(args, 0)) && !IsSet(ArgAt(args, 1)) ==> r == Str("")
  {
    Coalesce(Coalesce(ArgAt(args, 0), ArgAt(args, 1)), Str(""))
  }

  /** `namedArgs.color ?? DEFAULT_COLOR`. */
  function Color(named: map<string, Value>): (c: Value)
    ensures IsSet(c)
    ensures "color" in named && IsSet(named["color"]) ==> c == named["color"]
    ensures "color" !in named || !IsSet(named["color"]) ==> c == Str(DEFAULT_COLOR)
  {
    Coalesce(if "color" in named then named["color"] else Undefined, Str(DEFAULT_COLOR))
  }

  /** `String(state)` for the helper's options object. */
  const OPTIONS_OBJECT_TEXT: string := "[object Object]"

  /** `putWithColor` as written: a falsy colour yields `new SafeString(state)`,
      the text of the helper's options object. */
  function PutWithColorAsWritten(args: seq<Value>, named: map<string, Value>): (r: string)
    ensures Truthy(Color(named)) ==> r == PutWithColor(args, named)
    ensures !Truthy(Color(named)) ==> r == OPTIONS_OBJECT_TEXT
  {
    var color := Color(named);
    if Truthy(color) then SpanOpen(ToJsString(color)) + ToJsString(Put(args)) + SPAN_CLOSE
    else OPTIONS_OBJECT_TEXT
  }

  /** `putWithColor` with a falsy colour printing the plain value. */
  function PutWithColor(args: seq<Value>, named: map<string, Value>): (r: string)
    ensures Truthy(Color(named)) ==> r == SpanOpen(ToJsString(Color(named))) + ToJsString(Put(args)) + SPAN_CLOSE
    ensures !Truthy(Color(named)) ==> r == ToJsString(Put(args))
  {
    var color := Color(named);
    var text := ToJsString(Put(args));
    if Truthy(color) then SpanOpen(ToJsString(color)) + text + SPAN_CLOSE else text
  }

  // ----- reading a span back -----

  /** The colour and the content of `<span class="C">T</span>`, when `s` has
      that shape. */
  function UnwrapSpan(s: string): Option<(string, string)> {
    var open := "<span class=\"";
    if !StartsWith(s, open) || '"' !in s[|open|..] then None
    else
      var rest := s[|open|..];
      var q := FirstIndex(rest, '"');
      var after := rest[q + 1..];
      if |after| >= 1 + |SPAN_CLOSE| && after[0] == '>' && after[|after| - |SPAN_CLOSE|..] == SPAN_CLOSE then
        Some((rest[..q], after[1..|after| - |SPAN_CLOSE|]))
      else None
  }

  lemma UnwrapSpanOfWrap(color: string, text: string)
    requires '"' !in color
    ensures UnwrapSpan(SpanOpen(color) + text + SPAN_CLOSE) == Some((color, text))
  {
    var after := ">" + text + SPAN_CLOSE;
    SpanStarts(color, text);
    SpanColor(color, after);
    SpanContent(text);
  }

  lemma SpanStarts(color: string, text: string)
    ensures var open := "<span class=\"";
      var s := SpanOpen(color) + text + SPAN_CLOSE;
      && StartsWith(s, open) && s[|open|..] == color + ['"'] + (">" + text + SPAN_CLOSE)
  {
    var open := "<span class=\"";
    var s := SpanOpen(color) + text + SPAN_CLOSE;
    assert s == open + (color + ['"'] + (">" + text + SPAN_CLOSE));
  }

  lemma SpanColor(color: string, after: string)
    requires '"' !in color
    ensures var rest := color + ['"'] + after;
      && '"' in rest && FirstIndex(rest, '"') == |color|
      && rest[..|color|] == color && rest[|color| + 1..] == after
  {
    FirstIndexOfConcat(color, '"', after);
    var rest := color + ['"'] + after;
    assert rest[..|color|] == color;
  }

  lemma SpanContent(text: string)
    ensures var after := ">" + text + SPAN_CLOSE;
      && |after| >= 1 + |SPAN_CLOSE| && after[0] == '>'
      && after[|after| - |SPAN_CLOSE|..] == SPAN_CLOSE
      && after[1..|after| - |SPAN_CLOSE|] == text
  {
    var after := ">" + text + SPAN_CLOSE;
    assert after[|after| - |SPAN_CLOSE|..] == SPAN_CLOSE;
    assert after[1..|after| - |SPAN_CLOSE|] == text;
  }

  /** The coloured output always carries the printed value: it is the value
      itself, or a span around it from which colour and value read back. */
  lemma PutWithColorShowsValue(args: seq<Value>, named: map<string, Value>)
    ensures var r := PutWithColor(args, named);
      var c := ToJsString(Color(named));
      && (Truthy(Color(named)) && '"' !in c ==> UnwrapSpan(r) == Some((c, ToJsString(Put(args)))))
      && (!Truthy(Color(named)) ==> r == ToJsString(Put(args)))
  {
    var c := ToJsString(Color(named));
    if Truthy(Color(named)) && '"' !in c {
      UnwrapSpanOfWrap(c, ToJsString(Put(args)));
    }
  }

  /** As written, an empty colour loses the value: `put "Paris" color=""`
      prints the options object instead of `Paris`. */
  lemma EmptyColorPrintsOptionsObject()
    ensures PutWithColorAsWritten([Str("Paris")], map["color" := Str("")]) == "[object Object]"
    ensures PutWithColor([Str("Paris")], map["color" := Str("")]) == "Paris"
  {
    var named := map["color" := Str("")];
    assert Color(named) == Str("");
    assert Put([Str("Paris")]) == Str("Paris");
  }

  /** A set value is printed inside the default colour and the fallback is
      ignored; zero, `false` and the empty text count as set. The default
      colour is truthy, so this holds of the helper as written too. */
  lemma SetValueIsPrinted(v: Value, fallback: Value)
    requires IsSet(v)
    ensures PutWithColorAsWritten([v, fallback], map[]) == SpanOpen(DEFAULT_COLOR) + ToJsString(v) + SPAN_CLOSE
    ensures PutWithColor([v, fallback], map[]) == SpanOpen(DEFAULT_COLOR) + ToJsString(v) + SPAN_CLOSE
  {
    assert Put([v, fallback]) == v;
  }

  /** A truthy colour, given or defaulted, makes the helper as written print
      the value inside a span from which colour and value read back. */
  lemma PutWithColorAsWrittenShowsValue(args: seq<Value>, named: map<string, Value>)
    requires Truthy(Color(named)) && '"' !in ToJsString(Color(named))
    ensures UnwrapSpan(PutWithColorAsWritten(args, named)) == Some((ToJsString(Color(named)), ToJsString(Put(args))))
  {
    PutWithColorShowsValue(args, named);
  }
}

=== FILE: text.dfy ===
/** String primitives the engine relies on, written as scanners over `seq<char>`:
    JavaScript's `trim`, `split('.')`/`join('.')`, `startsWith` and the first-occurrence
    `replace` used by the field-name cleaner. */
module Text {

  /** ECMAScript LineTerminator: the characters a regular-expression `.` refuses. */
  predicate IsLineTerminator(c: char) {
    c == '\n' || c == '\r' || c == '\U{2028}' || c == '\U{2029}'
  }

  /** ECMAScript WhiteSpace or LineTerminator: what `String.prototype.trim` strips. */
  predicate IsJsSpace(c: char) {
    || IsLineTerminator(c)
    || c == '\t' || c == '\U{B}' || c == '\U{C}' || c == ' ' || c == '\U{A0}'
    || c == '\U{1680}' || ('\U{2000}' <= c <= '\U{200A}')
    || c == '\U{202F}' || c == '\U{205F}' || c == '\U{3000}' || c == '\U{FEFF}'
  }

  predicate IsLetter(c: char) {
    ('a' <= c <= 'z') || ('A' <= c <= 'Z')
  }

  predicate IsDigit(c: char) {
    '0' <= c <= '9'
  }

  /** The class `[a-zA-Z0-9]`. */
  predicate IsAlnum(c: char) {
    IsLetter(c) || IsDigit(c)
  }

  predicate StartsWith(s: string, prefix: string) {
    |prefix| <= |s| && s[..|prefix|] == prefix
  }

  /** Drops leading whitespace; what is dropped is exactly a run of whitespace. */
  function TrimStart(s: string): (r: string)
    ensures |r| <= |s| && r == s[|s| - |r|..]
    ensures forall k :: 0 <= k < |s| - |r| ==> IsJsSpace(s[k])
    ensures |r| > 0 ==> !IsJsSpace(r[0])
  {
    if |s| > 0 && IsJsSpace(s[0]) then TrimStart(s[1..]) else s
  }

  /** Drops trailing whitespace; what is dropped is exactly a run of whitespace. */
  function TrimEnd(s: string): (r: string)
    ensures |r| <= |s| && r == s[..|r|]
    ensures forall k :: |r| <= k < |s| ==> IsJsSpace(s[k])
    ensures |r| > 0 ==> !IsJsSpace(r[|r| - 1])
  {
    if |s| > 0 && IsJsSpace(s[|s| - 1]) then TrimEnd(s[..|s| - 1]) else s
  }

  /** `String.prototype.trim`. */
  function Trim(s: string): (r: string)
    ensures |r| > 0 ==> !IsJsSpace(r[0]) && !IsJsSpace(r[|r| - 1])
    ensures |r| <= |s|
  {
    TrimEnd(TrimStart(s))
  }

  /** Trimming twice is trimming once. */
  lemma TrimIdempotent(s: string)
    ensures Trim(Trim(s)) == Trim(s)
  {
    var t := Trim(s);
    assert TrimStart(t) == t;
  }

  lemma AlnumIsNotSpace(c: char)
    requires IsAlnum(c)
    ensures !IsJsSpace(c)
  {
  }

  /** Text with no white space at either end is its own trim. */
  lemma TrimKeepsInner(s: string)
    requires |s| > 0 && !IsJsSpace(s[0]) && !IsJsSpace(s[|s| - 1])
    ensures Trim(s) == s
  {
  }

  /** `s.split(sep)` for a one-character separator: never empty, and an empty
      string splits into one empty segment. */
  function Split(s: string, sep: char): (r: seq<string>)
    ensures |r| >= 1
    ensures forall i :: 0 <= i < |r| ==> sep !in r[i]
  {
    if |s| == 0 then [""]
    else
      var rest := Split(s[1..], sep);
      if s[0] == sep then [""] + rest
      else [[s[0]] + rest[0]] + rest[1..]
  }

  /** `segs.join(sep)`; the empty list joins to the empty string. */
  function Join(segs: seq<string>, sep: char): string
  {
    if |segs| == 0 then ""
    else if |segs| == 1 then segs[0]
    else segs[0] + [sep] + Join(segs[1..], sep)
  }

  /** Joining the segments of a split gives the original text back. */
  lemma {:induction false} JoinSplit(s: string, sep: char)
    ensures Join(Split(s, sep), sep) == s
  {
    if |s| > 0 {
      JoinSplit(s[1..], sep);
      var rest := Split(s[1..], sep);
      if s[0] != sep && |rest| > 1 {
        assert Join(rest, sep) == rest[0] + [sep] + Join(rest[1..], sep);
      }
    }
  }

  lemma {:induction false} SplitNoSep(a: string, sep: char)
    requires sep !in a
    ensures Split(a, sep) == [a]
  {
    if |a| > 0 {
      SplitNoSep(a[1..], sep);
      assert [a[0]] + a[1..] == a;
    }
  }

  lemma {:induction false} SplitAfterSegment(a: string, b: string, sep: char)
    requires sep !in a
    ensures Split(a + [sep] + b, sep) == [a] + Split(b, sep)
  {
    if |a| == 0 {
      assert a + [sep] + b == [sep] + b;
      assert ([sep] + b)[1..] == b;
    } else {
      assert (a + [sep] + b)[1..] == a[1..] + [sep] + b;
      SplitAfterSegment(a[1..], b, sep);
      assert [a[0]] + a[1..] == a;
    }
  }

  /** Splitting a join of separator-free segments gives the segments back. */
  lemma {:induction false} SplitJoin(segs: seq<string>, sep: char)
    requires |segs| >= 1
    requires forall i :: 0 <= i < |segs| ==> sep !in segs[i]
    ensures Split(Join(segs, sep), sep) == segs
  {
    if |segs| == 1 {
      SplitNoSep(segs[0], sep);
    } else {
      SplitJoin(segs[1..], sep);
      SplitAfterSegment(segs[0], Join(segs[1..], sep), sep);
    }
  }

  /** Splitting at a separator between two texts splits each text separately. */
  lemma {:induction false} SplitConcat(a: string, b: string, sep: char)
    ensures Split(a + [sep] + b, sep) == Split(a, sep) + Split(b, sep)
  {
    if |a| == 0 {
      assert a + [sep] + b == [sep] + b;
      assert ([sep] + b)[1..] == b;
    } else {
      assert (a + [sep] + b)[1..] == a[1..] + [sep] + b;
      SplitConcat(a[1..], b, sep);
    }
  }

  /** Position of the first occurrence of `c`. */
  function FirstIndex<T(==)>(s: seq<T>, c: T): (i: nat)
    requires c in s
    ensures i < |s| && s[i] == c && c !in s[..i]
  {
    if s[0] == c then 0 else 1 + FirstIndex(s[1..], c)
  }

  /** The first `c` of `x c y`, where `x` holds no `c`, is the one after `x`. */
  lemma {:induction false} FirstIndexOfConcat<T>(x: seq<T>, c: T, y: seq<T>)
    requires c !in x
    ensures c in x + [c] + y && FirstIndex(x + [c] + y, c) == |x|
    decreases |x|
  {
    var s := x + [c] + y;
    assert s[|x|] == c;
    if |x| > 0 {
      assert s[1..] == x[1..] + [c] + y;
      FirstIndexOfConcat(x[1..], c, y);
    }
  }

  /** `s.replace(c, '')` with a one-character string pattern: only the first
      occurrence goes. */
  function RemoveFirst(s: string, c: char): (r: string)
    ensures c !in s ==> r == s
    ensures c in s ==> |r| == |s| - 1
  {
    if |s| == 0 then s
    else if s[0] == c then s[1..]
    else [s[0]] + RemoveFirst(s[1..], c)
  }

  /** Exactly the first occurrence goes: removing `c` from `x c y`, where `x`
      holds no `c`, leaves `x y`. */
  lemma {:induction false} RemoveFirstOfConcat(x: string, c: char, y: string)
    requires c !in x
    ensures RemoveFirst(x + [c] + y, c) == x + y
    decreases |x|
  {
    var s := x + [c] + y;
    if |x| == 0 {
      assert s == [c] + y;
    } else {
      assert s[0] == x[0] && s[1..] == x[1..] + [c] + y;
      RemoveFirstOfConcat(x[1..], c, y);
      assert x + y == [x[0]] + (x[1..] + y);
    }
  }

  /** Inserting a character other than `c` keeps `c` out. */
  lemma NotInAfterInsert(x: string, d: char, y: string, c: char)
    requires c != d && c !in x + y
    ensures c !in x + [d] + y
  {
    var s := x + [d] + y;
    forall k | 0 <= k < |s|
      ensures s[k] != c
    {
      if k < |x| {
        assert s[k] == (x + y)[k];
      } else if k > |x| {
        assert s[k] == (x + y)[k - 1];
      }
    }
  }

  /** Whether `c` lies outside the Basic Multilingual Plane, where UTF-16
      spends a surrogate pair on it. */
  predicate IsAstral(c: char) {
    c as int >= 0x10000
  }

  /** JavaScript's `length` of a string: its count of UTF-16 code units, one
      per character of the Basic Multilingual Plane and two per astral one. */
  function Utf16Length(s: string): (n: nat)
    ensures |s| <= n <= 2 * |s|
    ensures |s| == 0 ==> n == 0
  {
    if |s| == 0 then 0 else (if IsAstral(s[0]) then 2 else 1) + Utf16Length(s[1..])
  }

  /** The UTF-16 length equals the character count exactly when no character
      is astral. */
  lemma {:induction false} Utf16LengthIsCountIff(s: string)
    ensures Utf16Length(s) == |s| <==> forall k :: 0 <= k < |s| ==> !IsAstral(s[k])
  {
    if |s| > 0 {
      Utf16LengthIsCountIff(s[1..]);
      assert forall k :: 1 <= k < |s| ==> s[k] == s[1..][k - 1];
      if !IsAstral(s[0]) && forall k :: 0 <= k < |s[1..]| ==> !IsAstral(s[1..][k]) {
        assert forall k :: 0 <= k < |s| ==> !IsAstral(s[k]) by {
          forall k | 0 <= k < |s| ensures !IsAstral(s[k]) {
            if k > 0 { assert s[k] == s[1..][k - 1]; }
          }
        }
      }
    }
  }

  /** Lengths add up over a concatenation. */
  lemma {:induction false} Utf16LengthOfConcat(a: string, b: string)
    ensures Utf16Length(a + b) == Utf16Length(a) + Utf16Length(b)
    decreases |a|
  {
    if |a| == 0 {
      assert a + b == b;
    } else {
      assert (a + b)[0] == a[0] && (a + b)[1..] == a[1..] + b;
      Utf16LengthOfConcat(a[1..], b);
    }
  }

  /** The character holding UTF-16 code unit `k` of `s`, and whether that unit
      is one half of a surrogate pair rather than the whole character. */
  function CodeUnitAt(s: string, k: nat): (r: (char, bool))
    requires k < Utf16Length(s)
    ensures r.0 in s
    ensures r.1 <==> IsAstral(r.0)
    decreases |s|
  {
    var w := if IsAstral(s[0]) then 2 else 1;
    if k < w then (s[0], IsAstral(s[0]))
    else
      var r := CodeUnitAt(s[1..], k - w);
      assert r.0 in s[1..];
      r
  }

  /** Without astral characters code units are characters: unit `k` is `s[k]`. */
  lemma {:induction false} CodeUnitAtOfBmp(s: string, k: nat)
    requires forall j :: 0 <= j < |s| ==> !IsAstral(s[j])
    requires k < |s|
    ensures Utf16Length(s) == |s|
    ensures CodeUnitAt(s, k) == (s[k], false)
    decreases |s|
  {
    Utf16LengthIsCountIff(s);
    if k > 0 {
      assert forall j :: 0 <= j < |s[1..]| ==> s[1..][j] == s[j + 1];
      CodeUnitAtOfBmp(s[1..], k - 1);
    }
  }

  /** Units after an astral character are shifted by two: the character after
      U+1F600 is unit 2. */
  lemma CodeUnitAfterAstral(c: char, s: string, k: nat)
    requires IsAstral(c) && k < Utf16Length(s)
    ensures Utf16Length([c] + s) == 2 + Utf16Length(s)
    ensures CodeUnitAt([c] + s, k + 2) == CodeUnitAt(s, k)
  {
    assert ([c] + s)[0] == c && ([c] + s)[1..] == s;
  }

  /** An astral character such as U+1F600 counts two. */
  lemma Utf16LengthOfAstral(c: char)
    requires IsAstral(c)
    ensures Utf16Length([c]) == 2
  {
  }
}

=== FILE: validator.dfy ===
/** `getTemplateValidationErrorsByMetadata` of src/lib/index.ts: template data is
    checked against a metadata forest. A node reports at most one violation,
    the first of its checks that fails, and then its subtree is skipped;
    a node that passes has its children checked against its own value. */
module Validator {
  import opened Base
  import opened JsValue
  import opened Metadata
  import Text

  /** The kinds of validation error, one per check, in checking order. */
  datatype Violation =
    | Required
    | BelowMin
    | AboveMax
    | ShorterThanMinLength
    | LongerThanMaxLength
    | ShorterThanMin
    | LongerThanMax

  /** A validation error: what failed and the dotted field name it concerns. */
  datatype Issue = Issue(violation: Violation, fieldName: string)

  /** The `isval` helper: everything except `''`, `null` and `undefined`, so
      `0` and `false` are values. */
  function IsVal(v: Value): (r: bool)
    ensures r <==> v != Str("") && !v.Null? && !v.Undefined?
    ensures v.Int? || v.Bool? ==> r
  {
    !InArr(v, [Str(""), Null, Undefined])
  }

  /** The `len` helper: the `length` of `String(v)`, in UTF-16 code units. */
  function Len(v: Value): (n: nat)
    ensures |ToJsString(v)| <= n <= 2 * |ToJsString(v)|
  {
    Text.Utf16Length(ToJsString(v))
  }

  /** The number a relational comparison with a number reads from `v`; `None`
      is `NaN`, against which every comparison is false. */
  function NumberOf(v: Value): Option<int> {
    match v
    case Undefined => None
    case Null => Some(0)
    case Int(i) => Some(i)
    case Str(s) => NumberOfText(s)
    case Bool(b) => Some(if b then 1 else 0)
    case Obj(_) => None
    case Arr(_) => NumberOfText(ToJsString(v))
  }

  /** `bound > v` with a numeric bound. */
  predicate Exceeds(bound: int, v: Value) {
    NumberOf(v).Some? && bound > NumberOf(v).value
  }

  /** `bound < v` with a numeric bound. */
  predicate FallsShort(bound: int, v: Value) {
    NumberOf(v).Some? && bound < NumberOf(v).value
  }

  predicate IsRangeType(kind: string) {
    kind == "number" || kind == "date"
  }

  predicate IsCompositeType(kind: string) {
    kind == "object" || kind == "array" || kind == "mixed"
  }

  /** The checks of one node against its value, in source order; the first that
      fails is the node's violation. */
  function Violated(n: MetaNode, v: Value): Option<Violation> {
    if !IsVal(v) && n.isRequired then Some(Required)
    else if IsRangeType(n.kind) && n.min.Some? && IsVal(v) && Exceeds(n.min.value, v) then Some(BelowMin)
    else if IsRangeType(n.kind) && n.max.Some? && IsVal(v) && FallsShort(n.max.value, v) then Some(AboveMax)
    else if !IsCompositeType(n.kind) && n.minLength.Some? && IsVal(v) && n.minLength.value > Len(v) then Some(ShorterThanMinLength)
    else if !IsCompositeType(n.kind) && n.maxLength.Some? && IsVal(v) && n.maxLength.value < Len(v) then Some(LongerThanMaxLength)
    else if n.kind == "string" && n.min.Some? && IsVal(v) && n.min.value > Len(v) then Some(ShorterThanMin)
    else if n.kind == "string" && n.max.Some? && IsVal(v) && n.max.value < Len(v) then Some(LongerThanMax)
    else None
  }

  /** `data[name] ?? null`. */
  function FieldData(data: Value, name: string): Result<Value> {
    match Lookup(data, name)
    case Err(e) => Err(e)
    case Ok(v) => Ok(if IsSet(v) then v else Null)
  }

  /** `getTemplateValidationErrorsByMetadata(data, model, depth)`. */
  function Validate(data: Value, model: seq<MetaNode>, depth: int): Result<seq<Issue>>
    decreases depth, |model|
  {
    if depth <= 0 then Err(PotentialLoop)
    else if |model| == 0 then Ok([])
    else
      match FieldData(data, model[0].name)
      case Err(e) => Err(e)
      case Ok(v) => Join(NodeIssues(model[0], v, depth), Validate(data, model[1..], depth))
  }

  /** The issues of one node with value `v`: its violation, or else the issues
      of its children checked against the value (an empty object when unset). */
  function NodeIssues(n: MetaNode, v: Value, depth: int): Result<seq<Issue>>
    requires depth > 0
    decreases depth, 0
  {
    match Violated(n, v)
    case Some(x) => Ok([Issue(x, n.fieldName)])
    case None => Validate(Scope(v), n.children, depth - 1)
  }

  /** The data the children of a node are checked against. */
  function Scope(v: Value): Value {
    if IsSet(v) then v else Obj(map[])
  }

  /** One node's issues followed by its later siblings'; the first error wins. */
  function Join(head: Result<seq<Issue>>, tail: Result<seq<Issue>>): Result<seq<Issue>> {
    match head
    case Err(e) => Err(e)
    case Ok(h) =>
      match tail
      case Err(e) => Err(e)
      case Ok(t) => Ok(h + t)
  }

  // ----- measures of a metadata forest -----

  function MetaHeight(n: MetaNode): (h: nat)
    ensures h >= 1
    decreases n, 1
  {
    1 + ModelHeight(n.children)
  }

  function ModelHeight(ms: seq<MetaNode>): (h: nat)
    ensures forall i :: 0 <= i < |ms| ==> MetaHeight(ms[i]) <= h
    decreases ms, 0
  {
    if |ms| == 0 then 0
    else
      var rest := ModelHeight(ms[1..]);
      assert forall i :: 1 <= i < |ms| ==> ms[i] == ms[1..][i - 1];
      if MetaHeight(ms[0]) >= rest then MetaHeight(ms[0]) else rest
  }

  /** The first tree's children and the later trees are lower than the forest. */
  lemma ModelHeightSplit(ms: seq<MetaNode>)
    requires |ms| > 0
    ensures ModelHeight(ms[0].children) < ModelHeight(ms) && ModelHeight(ms[1..]) <= ModelHeight(ms)
  {
    assert MetaHeight(ms[0]) <= ModelHeight(ms);
  }

  /** The number of nodes of a metadata forest. */
  function ModelSize(ms: seq<MetaNode>): nat
    decreases ms
  {
    if |ms| == 0 then 0 else 1 + ModelSize(ms[0].children) + ModelSize(ms[1..])
  }

  /** Every dotted field name of a metadata forest. */
  function FieldNames(ms: seq<MetaNode>): set<string>
    decreases ms
  {
    if |ms| == 0 then {} else {ms[0].fieldName} + FieldNames(ms[0].children) + FieldNames(ms[1..])
  }

  /** The nodes the validation visits, each with the value it is checked
      against: every node of the forest whose data can be read, and the
      children of those that pass their checks, within the depth budget. */
  function Visited(data: Value, model: seq<MetaNode>, depth: int): set<(MetaNode, Value)>
    decreases depth, |model|
  {
    if depth <= 0 || |model| == 0 then {}
    else
      var rest := Visited(data, model[1..], depth);
      match FieldData(data, model[0].name)
      case Err(_) => rest
      case Ok(v) =>
        var below := if Violated(model[0], v).None? then Visited(Scope(v), model[0].children, depth - 1) else {};
        {(model[0], v)} + below + rest
  }

  // ----- properties -----

  /** Validation never throws when the data can be read and the depth budget
      exceeds the height of the model. */
  lemma {:induction false} ValidateOkWhenShallow(data: Value, model: seq<MetaNode>, depth: int)
    requires IsSet(data) && depth > ModelHeight(model)
    ensures Validate(data, model, depth).Ok?
    decreases depth, |model|
  {
    if |model| > 0 {
      ModelHeightSplit(model);
      var v := FieldData(data, model[0].name).value;
      if Violated(model[0], v).None? {
        ValidateOkWhenShallow(Scope(v), model[0].children, depth - 1);
      }
      ValidateOkWhenShallow(data, model[1..], depth);
    }
  }

  /** Reading a field of `null` or `undefined` data is the only other way to
      fail: the potential-loop error needs a model as deep as the budget. */
  lemma {:induction false} ValidateFailures(data: Value, model: seq<MetaNode>, depth: int)
    requires Validate(data, model, depth).Err?
    ensures Validate(data, model, depth).error == PotentialLoop || Validate(data, model, depth).error == TypeError
    ensures Validate(data, model, depth).error == TypeError ==> !IsSet(data)
    ensures Validate(data, model, depth).error == PotentialLoop ==> depth <= ModelHeight(model)
    decreases depth, |model|
  {
    if depth > 0 && |model| > 0 {
      var v := FieldData(data, model[0].name);
      if v.Ok? {
        var w := v.value;
        if Violated(model[0], w).None? && Validate(Scope(w), model[0].children, depth - 1).Err? {
          ValidateFailures(Scope(w), model[0].children, depth - 1);
        } else {
          ValidateFailures(data, model[1..], depth);
        }
      }
    }
  }

  /** A node that fails a check yields exactly that one issue; its children are
      not visited. */
  lemma FailingNodeSkipsChildren(data: Value, n: MetaNode, depth: int)
    requires depth > 0 && FieldData(data, n.name).Ok?
    requires Violated(n, FieldData(data, n.name).value).Some?
    ensures Validate(data, [n], depth) == Ok([Issue(Violated(n, FieldData(data, n.name).value).value, n.fieldName)])
  {
    assert [n][1..] == [];
    var issue := Issue(Violated(n, FieldData(data, n.name).value).value, n.fieldName);
    assert Validate(data, [], depth) == Ok([]);
    assert [issue] + [] == [issue];
  }

  /** Every issue names a field of the model. */
  lemma {:induction false} IssuesNameModelFields(data: Value, model: seq<MetaNode>, depth: int)
    requires Validate(data, model, depth).Ok?
    ensures forall i :: 0 <= i < |Validate(data, model, depth).value| ==>
      Validate(data, model, depth).value[i].fieldName in FieldNames(model)
    decreases depth, |model|
  {
    if |model| > 0 {
      var v := FieldData(data, model[0].name).value;
      if Violated(model[0], v).None? {
        IssuesNameModelFields(Scope(v), model[0].children, depth - 1);
      }
      IssuesNameModelFields(data, model[1..], depth);
    }
  }

  /** At most one issue per node. */
  lemma {:induction false} IssuesAtMostNodes(data: Value, model: seq<MetaNode>, depth: int)
    requires Validate(data, model, depth).Ok?
    ensures |Validate(data, model, depth).value| <= ModelSize(model)
    decreases depth, |model|
  {
    if |model| > 0 {
      var v := FieldData(data, model[0].name).value;
      if Violated(model[0], v).None? {
        IssuesAtMostNodes(Scope(v), model[0].children, depth - 1);
      }
      IssuesAtMostNodes(data, model[1..], depth);
    }
  }

  /** A required top-level field without a value is always reported. */
  lemma {:induction false} MissingRequiredReported(data: Value, model: seq<MetaNode>, depth: int, i: int)
    requires Validate(data, model, depth).Ok?
    requires 0 <= i < |model| && model[i].isRequired
    requires FieldData(data, model[i].name).Ok? && !IsVal(FieldData(data, model[i].name).value)
    ensures Issue(Required, model[i].fieldName) in Validate(data, model, depth).value
    decreases |model|
  {
    if i > 0 {
      assert model[1..][i - 1] == model[i];
      MissingRequiredReported(data, model[1..], depth, i - 1);
    }
  }

  /** A node with no violation contributes exactly its subtree's issues. */
  lemma PassingNodeVisitsChildren(data: Value, n: MetaNode, depth: int)
    requires depth > 0 && FieldData(data, n.name).Ok?
    requires Violated(n, FieldData(data, n.name).value).None?
    ensures var v := FieldData(data, n.name).value;
      Validate(data, [n], depth) == Validate(Scope(v), n.children, depth - 1)
  {
    assert [n][1..] == [];
    var v := FieldData(data, n.name).value;
    var sub := Validate(Scope(v), n.children, depth - 1);
    if sub.Ok? {
      assert sub.value + [] == sub.value;
    }
  }

  /** A node reports `Required` exactly when it is required and its value is
      `''`, `null` or `undefined`. */
  lemma ViolatedRequiredIff(n: MetaNode, v: Value)
    ensures Violated(n, v) == Some(Required) <==> n.isRequired && !IsVal(v)
  {
  }

  /** The issues of a forest are those of its first node followed by those
      of the rest, and both parts succeed when the whole does. */
  lemma JoinOk(data: Value, model: seq<MetaNode>, depth: int)
    requires Validate(data, model, depth).Ok? && |model| > 0
    ensures FieldData(data, model[0].name).Ok?
    ensures var head := NodeIssues(model[0], FieldData(data, model[0].name).value, depth);
      var tail := Validate(data, model[1..], depth);
      && head.Ok? && tail.Ok? && Validate(data, model, depth).value == head.value + tail.value
  {
  }

  /** A visited pair is the first node with its value, a pair below it when
      it passes, or a pair visited among the later nodes. */
  lemma VisitedCases(data: Value, model: seq<MetaNode>, depth: int, p: (MetaNode, Value))
    requires p in Visited(data, model, depth)
    ensures depth > 0 && |model| > 0
    ensures var d := FieldData(data, model[0].name);
      || p in Visited(data, model[1..], depth)
      || (d.Ok? && p == (model[0], d.value))
      || (d.Ok? && Violated(model[0], d.value).None? && p in Visited(Scope(d.value), model[0].children, depth - 1))
  {
  }

  /** Every visited required node without a value is reported, at any depth. */
  lemma {:induction false} VisitedMissingRequiredReported(data: Value, model: seq<MetaNode>, depth: int, n: MetaNode, v: Value)
    requires Validate(data, model, depth).Ok?
    requires (n, v) in Visited(data, model, depth) && n.isRequired && !IsVal(v)
    ensures Issue(Required, n.fieldName) in Validate(data, model, depth).value
    decreases depth, |model|
  {
    VisitedCases(data, model, depth, (n, v));
    JoinOk(data, model, depth);
    var w := FieldData(data, model[0].name).value;
    if (n, v) in Visited(data, model[1..], depth) {
      VisitedMissingRequiredReported(data, model[1..], depth, n, v);
    } else if (n, v) == (model[0], w) {
      assert NodeIssues(model[0], w, depth).value == [Issue(Required, n.fieldName)];
    } else {
      VisitedMissingRequiredReported(Scope(w), model[0].children, depth - 1, n, v);
    }
  }

  /** Every `Required` issue comes from a visited required node without a
      value: a field holding `0` or `false` is never reported missing. */
  lemma {:induction false} RequiredIssueHasMissingNode(data: Value, model: seq<MetaNode>, depth: int, f: string)
    requires Validate(data, model, depth).Ok?
    requires Issue(Required, f) in Validate(data, model, depth).value
    ensures exists p :: p in Visited(data, model, depth) && p.0.fieldName == f && p.0.isRequired && !IsVal(p.1)
    decreases depth, |model|
  {
    JoinOk(data, model, depth);
    var w := FieldData(data, model[0].name).value;
    var head := NodeIssues(model[0], w, depth);
    var tail := Validate(data, model[1..], depth);
    if Issue(Required, f) in tail.value {
      RequiredIssueHasMissingNode(data, model[1..], depth, f);
      var p :| p in Visited(data, model[1..], depth) && p.0.fieldName == f && p.0.isRequired && !IsVal(p.1);
      VisitedGrowsFromRest(data, model, depth, p);
    } else if Violated(model[0], w).Some? {
      assert head.value == [Issue(Violated(model[0], w).value, model[0].fieldName)];
      ViolatedRequiredIff(model[0], w);
      assert (model[0], w) in Visited(data, model, depth);
    } else {
      RequiredIssueHasMissingNode(Scope(w), model[0].children, depth - 1, f);
      var p :| p in Visited(Scope(w), model[0].children, depth - 1) && p.0.fieldName == f && p.0.isRequired && !IsVal(p.1);
      assert p in Visited(data, model, depth);
    }
  }

  lemma VisitedGrowsFromRest(data: Value, model: seq<MetaNode>, depth: int, p: (MetaNode, Value))
    requires depth > 0 && |model| > 0 && p in Visited(data, model[1..], depth)
    ensures p in Visited(data, model, depth)
  {
  }
}
